=== FILE: README.md ===
# Kamiak-GUI core, modelled in Dafny

Kamiak-GUI is a web front end for an HPC cluster reached over SSH. Its server
actions run shell commands on the cluster and interpret their output: they list
files, run terminal commands, submit and query Slurm jobs, and list the
Hugging Face model cache. On top of these it drives an LLM-serving job
(submit, poll, open an SSH tunnel, chat). This project models the sequential
logic of that core as pure functions over explicit inputs, and proves what the
code promises about it.

- `ssh.dfy`: the retrying executor `executeCommand`. It is a function of the
  sequence of per-attempt outcomes (channel closed with data, channel-open
  error, connection error). It returns the result or the thrown error, the
  number of attempts and the sleeps taken. The loop as written
  (`ExecuteCommand`) is proved equal to the recursive definition.
- `actions.dfy`: the server actions of `actions.ts`. The cluster is a `Shell`
  oracle from command line to result-or-thrown-message. Every action returns
  its reply together with the command lines it ran, so "runs nothing" can be
  stated.
- `llm_actions.dfy`: `llm-actions.ts`. This covers:
  - the model allow-list and job submission;
  - job status from `squeue`/`sacct`;
  - the process-wide tunnel handle and the settling of the tunnel start over
    the helper's output events;
  - cache-folder naming and the delete guard.
- `tunnel_script.dfy`: the spawned helper `tunnel_script.js`. This covers
  argument validation, the sentinels `null`/`undefined`, key unescaping, and
  the helper's run as a state machine over SSH, server and client events.
- `llm_manager.dfy`: `LLMManager.tsx` as a state machine. Clicks, timer ticks,
  effect runs and action replies are events; each step yields the new state
  and the server actions it starts.
- `terminal.dfy`, `file_manager.dfy`, `chat.dfy`: the client-side state
  updates of `Terminal.tsx`, `FileManager.tsx` and `ChatInterface.tsx`. JSON
  replies are modelled as a `Json` datatype, with JavaScript truthiness,
  `String(v)` and `JSON.stringify`.
- `text.dfy` and `base.dfy`: the ECMAScript string operations the program
  relies on, with their exact edge cases:
  - `trim`, whose whitespace set is the ECMAScript one;
  - `split` on a character, on a string and on `/\s+/`;
  - `join`, `includes`, decimal rendering;
  - `||` on strings.

Some behaviours of the code are easy to miss; the model keeps them as they
are:

- The LLM page applies every action reply as soon as it arrives, whatever
  state the page has moved to since. `LlmManager.LateTunnelReplyApplied`
  shows a tunnel reply taking a stopped page back to `ready`.
- `handleStop` goes to `idle` from every state, including `submitting` and
  `queued`, but only once `stopTunnelAction` has replied. Until then polls
  and the tunnel effect go on: `LlmManager.StopRace` shows a poll reply
  during the stop opening a tunnel, and the stop's reply then leaving the
  page idle with no node.
- A deletion's success lists again the directory shown at the click, even
  if the user has moved since (`FileManager.DeleteRelistsClickDirectory`).
- The job id is taken from the leftmost `Submitted batch job ` that is
  followed by a digit. It is not simply the first occurrence of that text.
- Every tunnel helper's `close` clears the one process-wide handle, also the
  close of a helper that an earlier stop already killed.
  `LlmActions.StaleCloseOrphansHelper` shows a stop, a new start and the old
  helper's late close leaving the new helper running with no handle, so the
  next start spawns a third helper beside it.
- The chat panel shows a reply object as `JSON.stringify` writes the object
  `JSON.parse` built: a repeated key appears once, at its first position,
  with its last value, and array-index keys come first in ascending order.

## Model

| member | source | states |
|---|---|---|
| Ssh.Connect | src/lib/ssh.ts:61-70 | port is 22 exactly when absent, 0 or 22, else the given port; host, user and secrets are passed through; 10 s ready timeout, keepalive off |
| Ssh.ResultOf | src/lib/ssh.ts:45-47 | the result's code is present exactly for a numeric close code and equals it; stdout/stderr are the two streams' accumulations |
| Ssh.StreamAppend | src/lib/ssh.ts:42-52 | a stream over two consecutive stretches of data is the concatenation of the stream over each |
| Ssh.StreamsSeparate | src/lib/ssh.ts:48-51 | a stdout chunk extends stdout by its data and leaves stderr alone, and vice versa |
| Ssh.Run | src/lib/ssh.ts:30-89 | attempts stay within 3; every attempt before the last made is transient; stopping early means the last attempt was not transient; success iff the last attempt closed its channel, with that channel's result; otherwise that attempt's error; sleep k is 1000·(attempt+k) ms |
| Ssh.Execute | src/lib/ssh.ts:24-90 | between 1 and 3 attempts, one sleep fewer than attempts |
| Ssh.ExecuteCommand | src/lib/ssh.ts:28-89 | the counted loop with early return, fatal rethrow and backoff computes exactly the recursive definition |
| Ssh.RunStopsAt | src/lib/ssh.ts:30-86 | transient failures up to attempt k and a non-transient attempt k+1 stop the loop at k+1 |
| Ssh.TransientThenClosed | src/lib/ssh.ts:32-47 | a closed channel after k transient failures returns its result after k+1 attempts, whatever its exit code |
| Ssh.AllTransientFails | src/lib/ssh.ts:73-89 | three transient failures throw the third error after sleeps of 1000 and 2000 ms |
| Ssh.FatalStopsAtOnce | src/lib/ssh.ts:54-78 | a refused authentication is thrown at once: k+1 attempts, k sleeps |
| Ssh.AtMostThreeAttempts | src/lib/ssh.ts:17-30 | outcomes past the third never influence the call |
| Ssh.TotalSleepBounded | src/lib/ssh.ts:82-84 | at most two sleeps, the first 1000 ms and the second 2000 ms |
| Actions.RunChecked | src/app/actions.ts:262-271 | one command; success iff it ran and exited 0; a non-zero exit fails with stderr or the fallback; a thrown error fails with its message |
| Actions.VerifyConnection | src/app/actions.ts:43-54 | echoes the marker; succeeds iff it exits 0; a failure always carries a non-empty message |
| Actions.ParseLsLines | src/app/actions.ts:76-98 | at most one entry per line |
| Actions.EntriesFromLines | src/app/actions.ts:76-98 | each entry comes from a non-blank line of the output that parses to it |
| Actions.ResolveHome | src/app/actions.ts:58-64 | only `~` is replaced, by the trimmed `pwd` output and only when `pwd` exited 0 |
| Actions.ListAt | src/app/actions.ts:66-100 | the listing succeeds exactly when `ls` exits with 0 and neither command throws; its entries are the parsed `ls` output and its path the trimmed output of the second `pwd`, whatever that command's exit code; the second `pwd` runs only after a successful `ls`; a failure carries a non-empty error |
| Actions.ListFiles | src/app/actions.ts:56-105 | `pwd` runs first exactly when the path is `~`, and a throwing `pwd` fails with its message; other paths are listed as given; a failed listing carries a non-empty error |
| Actions.ListFilesOfRows | src/app/actions.ts:56-100 | a directory whose `ls` prints well-formed rows, with gaps of any width between columns, lists exactly those rows' entries, in order, at the path `pwd` prints there, after running `ls` and `pwd` |
| Actions.ParseRenderedRow | src/app/actions.ts:80-97 | a printed `ls -l` row, column-aligned with whitespace runs of any width, parses back to the entry it describes: directory iff permissions start with `d`, size field 4, date fields 5 and 6, name the words from field 7 on joined by single spaces |
| Actions.GapsForgotten | src/app/actions.ts:81-88 | two rows that differ only in the width of their gaps give the same entry |
| Actions.NameRunCollapses | src/app/actions.ts:88 | a two-word name with any run of spaces between its words comes back with a single space |
| Actions.ListingRoundTrip | src/app/actions.ts:76-98 | a header, column-aligned rows and a final newline parse to exactly the rows' entries, in order |
| Actions.RowsParse | src/app/actions.ts:77-98 | column-aligned rows followed by an empty last line give the rows' entries |
| Actions.SafeCwd | src/app/actions.ts:137 | never empty; a non-empty directory is kept |
| Actions.DropFinalNewline | src/app/actions.ts:144 | removes exactly one trailing line feed when there is one, nothing otherwise |
| Actions.InterpretTerminal | src/app/actions.ts:143-151 | success iff the exit code is 0; no error field |
| Actions.TerminalOutputHasNoMarker | src/app/actions.ts:143-144 | the output shown never contains `__PWD__` |
| Actions.TerminalWithoutMarker | src/app/actions.ts:143-145 | without the marker the whole stdout (minus one final newline) is the output and the directory stays the requested one |
| Actions.RunTerminalCommand | src/app/actions.ts:135-156 | one command; a thrown error gives failure, empty output, the unmodified cwd and the message |
| Actions.TerminalRoundTrip | src/app/actions.ts:139-151 | for output `out` and final directory `dir` printed by the shell line, the reply is `out`, `dir`, success iff code 0 |
| Actions.TerminalOutputSplit | src/app/actions.ts:143 | the printed text splits at the marker into output-plus-newline and the framed directory |
| Actions.QuoteScript | src/app/actions.ts:160 | the rewrite never shortens the script |
| Actions.QuoteScriptInvertible | src/app/actions.ts:160 | the script is recovered from its rewrite, and the rewrite adds exactly two characters per quote |
| Actions.QuoteScriptNoQuotes | src/app/actions.ts:160 | a script without quotes is unchanged |
| Actions.SbatchEndsWithScript | src/app/actions.ts:161-170 | the batch file starts with the bash shebang and ends with the rewritten script and a newline |
| Actions.FindJobIdFrom | src/app/actions.ts:187 | the leftmost position at or after `from` where the prefix is followed by a digit, or none exists |
| Actions.ExtractJobId | src/app/actions.ts:187-188 | none iff the pattern matches nowhere; otherwise a non-empty digit string that the pattern captures at some position |
| Actions.JobIdOfSbatchReply | src/app/actions.ts:187-188 | the usual `sbatch` reply yields the decimal job number, which reads back as that number |
| Actions.AcceptedSubmission | src/app/actions.ts:183-191 | a `Submitted batch job <n>` reply with exit code 0 is a submission of job `<n>` |
| Actions.InterpretSubmission | src/app/actions.ts:183-194 | submitted iff the command exited 0, with the extracted id (possibly none); otherwise stderr, the fallback or the thrown message |
| Actions.SubmitJob | src/app/actions.ts:158-195 | exactly one here-document command writing the batch file; the reply interprets its result |
| Base.Field | src/app/actions.ts:211-219 | column i is present iff the line has more than i fields, and is that field |
| Actions.NonBlank | src/app/actions.ts:207 | a line is kept iff it is one of the input's non-blank lines; never more lines than the input |
| Actions.NonBlankConcat | src/app/actions.ts:207 | the filter keeps order and repeats: the kept lines of two stretches are those of the first, then those of the second |
| Actions.NonBlankKeepsAll | src/app/actions.ts:207 | output without blank lines loses no line |
| Actions.BlankLineDropped | src/app/actions.ts:207 | a final whitespace-only line, such as the one after the last line feed, is dropped |
| Actions.QueueOfLines | src/app/actions.ts:207-221 | any output, blank lines included, gives one queue entry per non-blank line, in order |
| Actions.QueueOfRows | src/app/actions.ts:207-221 | rows each ended by a line feed, as `squeue` prints them, give one queue entry per row, in order |
| Actions.HistoryOfLines | src/app/actions.ts:239-249 | any output, blank lines included, gives one history entry per non-blank line, in order |
| Actions.HistoryOfRows | src/app/actions.ts:239-249 | rows each ended by a line feed, as `sacct` prints them, give one history entry per row, in order |
| Actions.QueueRowOfColumns | src/app/actions.ts:208-221 | a line of nine words with whitespace runs of any width between and around them gives the nine columns in order |
| Actions.HistoryRowOfColumns | src/app/actions.ts:240-249 | a line of five words with whitespace runs of any width between and around them gives the five columns in order |
| Actions.FieldsOfPadded | src/app/actions.ts:209 | trimming and splitting a line of words with whitespace runs of any width between and around them gives back the words |
| Actions.GetJobQueue | src/app/actions.ts:197-228 | one command; the parsed queue iff it exited 0, else the failure text |
| Actions.GetJobHistory | src/app/actions.ts:230-256 | one command; any failure is an empty history; on exit 0 the parsed history |
| Actions.CancelJob | src/app/actions.ts:258-272 | the demo account succeeds and runs nothing; anyone else runs `scancel` checked |
| Actions.ReadFileContent | src/app/actions.ts:107-117 | one `cat`; content iff it exited 0, and the content is its stdout |
| Actions.DeleteFile | src/app/actions.ts:274-287 | one `rm -rf` of the quoted path, checked |
| LlmActions.LlmScript | src/app/llm-actions.ts:26-213 | the model id appears verbatim at its one place in the batch file |
| LlmActions.SubmitLlmJob | src/app/llm-actions.ts:20-236 | a model outside the allow-list fails with `Invalid model selection` and runs nothing; otherwise one here-document submission |
| LlmActions.DefaultModelAllowed | src/app/llm-actions.ts:11-20 | the default model is on the four-entry allow-list |
| LlmActions.LlmSubmissionJobId | src/app/llm-actions.ts:225-231 | an accepted submission yields the job number the cluster printed |
| LlmActions.QueueStatus | src/app/llm-actions.ts:250-256 | always a known status; empty output is COMPLETED with no node; otherwise the state is the first token |
| LlmActions.QueueStatusWords | src/app/llm-actions.ts:250-256 | the state is one word; a node is one word and never `(N/A)` |
| LlmActions.HistoryStatus | src/app/llm-actions.ts:243-247 | unknown (`Job not found`) iff the trimmed output is empty; otherwise one-word state, no node |
| LlmActions.CheckStatus | src/app/llm-actions.ts:238-261 | `squeue` first; `sacct` only after a non-zero exit; a thrown error is unknown with its message; a node is never `(N/A)` |
| LlmActions.QueueStatusOfWord | src/app/llm-actions.ts:255-256 | a padded line holding only the state gives that state and no node |
| LlmActions.QueueStatusOfLine | src/app/llm-actions.ts:255-256 | a `<state> <node>` line, with any whitespace between and around the two, gives that state, and the node unless it is `(N/A)` |
| LlmActions.TunnelArgs | src/app/llm-actions.ts:273-282 | seven arguments after the script path |
| LlmActions.Settle | src/app/llm-actions.ts:286-306 | a success always says `Tunnel started`; a failure's message is at least as long as the output gathered before the events |
| LlmActions.SettleOutputThenExit | src/app/llm-actions.ts:286-306 | after output on either stream that never carries the marker, an exit with any code but 0 fails with the code (`null` when there is none) and everything printed, in arrival order |
| LlmActions.StderrThenKilled | src/app/llm-actions.ts:295-306 | output on stderr followed by a close by signal (no numeric code) fails with `code null` and that output |
| LlmActions.SettleNeedsDecisive | src/app/llm-actions.ts:287-306 | with no marker-bearing chunk and no non-zero exit, the start never settles |
| LlmActions.StartTunnel | src/app/llm-actions.ts:263-311 | a held handle returns `Tunnel already running` and spawns nothing; otherwise spawns the helper, holds its pid until an exit arrives, and settles on the events |
| LlmActions.StopTunnel | src/app/llm-actions.ts:313-319 | always leaves no handle and kills exactly the held process |
| LlmActions.HandleStep | src/app/llm-actions.ts:263-319 | the close of any helper clears the handle; spawned and killed helpers are only ever added to |
| LlmActions.HandleIsLastSpawned | src/app/llm-actions.ts:264-302 | whenever a handle is held it is the helper spawned last |
| LlmActions.StaleCloseOrphansHelper | src/app/llm-actions.ts:300-316 | stop, start and the first helper's late close leave the second helper running unkilled with no handle, and the next start spawns a third |
| LlmActions.StopIdempotent | src/app/llm-actions.ts:313-319 | a second stop kills nothing and changes nothing |
| LlmActions.StartNeedsNoHandle | src/app/llm-actions.ts:264-273 | start spawns iff no handle is held, and always spawns after a stop |
| LlmActions.SettleQuietThenListening | src/app/llm-actions.ts:287-293 | the first chunk holding `Tunnel listening` settles success, whatever follows |
| LlmActions.SettleQuietThenExit | src/app/llm-actions.ts:300-305 | a non-zero exit after quiet output fails with the code and the whole output |
| LlmActions.TunnelArgsAccepted | src/app/llm-actions.ts:273-282 | the helper accepts the server's arguments: credentials and node pass, a missing secret is not set, both ports are 5000 |
| LlmActions.AppPortValue | src/app/llm-actions.ts:280-281 | the port argument `5000` reads back through `parseInt` as 5000 |
| LlmActions.TunnelPorts | src/app/llm-actions.ts:273-282 | with the server's arguments the helper listens on port 5000 and forwards every client to port 5000 of the node |
| LlmActions.ListeningLineStartsTunnel | src/app/llm-actions.ts:291-293 | the helper's listening line, in one chunk, starts the tunnel |
| LlmActions.Basename | src/app/llm-actions.ts:366 | the base name contains no slash |
| LlmActions.BasenameOfChild | src/app/llm-actions.ts:366 | the base name of `dir/name` is `name` |
| LlmActions.DisplayName | src/app/llm-actions.ts:367-371 | a display name exists iff the folder splits on `--` into at least three pieces |
| LlmActions.DisplayNameOfCacheFolder | src/app/llm-actions.ts:366-371 | `models--org--name` displays as `org/name` when neither contains `--` |
| LlmActions.DoubleDashCollapses | src/app/llm-actions.ts:370 | a `--` inside the repository name is shown as a single `-` |
| LlmActions.CachePaths | src/app/llm-actions.ts:362 | no listed path is blank |
| LlmActions.MeasureModels | src/app/llm-actions.ts:365-378 | at most one model and one `du` per path; every model has a display name from its folder |
| LlmActions.ListCachedModels | src/app/llm-actions.ts:353-384 | the listing runs first; a non-zero exit is an empty success; a thrown error is a failure |
| LlmActions.DeleteCachedModel | src/app/llm-actions.ts:386-403 | a path without `models--` is refused and runs nothing; otherwise one checked `rm -rf` |
| TunnelScript.UnescapeNewlines | public/tunnel_script.js:32 | unescaping never lengthens the key |
| TunnelScript.UnescapeLeavesNoEscapes | public/tunnel_script.js:32 | the result holds no backslash-`n`, and its first character is the unescaped first character |
| TunnelScript.UnescapeIdentity | public/tunnel_script.js:32 | text without escapes is left unchanged |
| TunnelScript.UnescapeIdempotent | public/tunnel_script.js:32 | unescaping twice is unescaping once |
| TunnelScript.UnescapeRestoresKey | public/tunnel_script.js:30-33 | a multi-line key sent with escaped line feeds is restored exactly |
| TunnelScript.ParseArgs | public/tunnel_script.js:6-33 | usage error with exit 1 iff host, user, remote host or either port is missing or empty; otherwise port 22, password and key set iff provided and not a sentinel, key unescaped |
| TunnelScript.ParseIntDecimal | public/tunnel_script.js:39-49 | a port written in decimal parses back to itself |
| TunnelScript.Step | public/tunnel_script.js:35-60 | a failed forward keeps the server and session; an SSH error changes nothing but stderr; stdout only grows, by at most one line; the connection is ended after the step exactly when it was before or a server error arrives while ready; listen ports and forward targets only grow, by the parsed arguments |
| TunnelScript.ReadyBeforeListening | public/tunnel_script.js:35-51 | whatever the events, the listening line comes only after the readiness line |
| TunnelScript.EndedOnlyByServerError | public/tunnel_script.js:53-56 | the SSH connection ends only after a server error |
| TunnelScript.ServerErrorEndsConnection | public/tunnel_script.js:53-56 | a server error while the session is ready ends the SSH connection |
| TunnelScript.ConnectionEndedIff | public/tunnel_script.js:53-56 | the SSH connection is ended exactly when some server error arrived while the session was ready |
| TunnelScript.PortsParsed | public/tunnel_script.js:39-49 | every listen port and every forward target is `parseInt` of the corresponding argument |
| TunnelScript.ForwardFailureIsolated | public/tunnel_script.js:38-46 | a failed forward changes only the error output, the dropped-socket count and the recorded forward target; the server keeps listening and the session stays open |
| TunnelScript.ListeningLineAnnounces | public/tunnel_script.js:49-51 | the listening line carries the text the server waits for |
| LlmManager.Start | src/components/LLMManager.tsx:77-81 | status submitting, error cleared, logs reset to one line, one submission of the selected model |
| LlmManager.Submitted | src/components/LLMManager.tsx:83-91 | queued iff success with a truthy id, logging it; otherwise error with the reply's error or `Failed to submit job` |
| LlmManager.Polled | src/components/LLMManager.tsx:99-113 | a failed poll changes nothing; a successful one logs one line; RUNNING with a node starts the tunnel; a final state is an error naming it; anything else only logs |
| LlmManager.TunnelEffectRun | src/components/LLMManager.tsx:121-124 | opens a tunnel (and logs) exactly when starting the tunnel with a known node |
| LlmManager.TunnelOpened | src/components/LLMManager.tsx:125-133 | ready iff the tunnel started; a failure is an error with the reply's error or `Failed to start tunnel` |
| LlmManager.Stop | src/components/LLMManager.tsx:147-148 | the click asks to close the tunnel and changes nothing else yet |
| LlmManager.Stopped | src/components/LLMManager.tsx:148-151 | the stop's reply, from any state: idle, no job, no node, logs and error kept |
| LlmManager.Step | src/components/LLMManager.tsx:95-118 | a timer tick changes no state and polls exactly while queued with a job id |
| LlmManager.StepConsistent | src/components/LLMManager.tsx:77-152 | every event keeps "queued has a job id" and "starting tunnel has a node" |
| LlmManager.RunConsistent | src/components/LLMManager.tsx:77-152 | in every reachable state polling is active when queued and the tunnel effect opens a tunnel when starting it |
| LlmManager.PendingKeepsPolling | src/components/LLMManager.tsx:98-113 | a non-running, non-final state keeps polling with one more log line |
| LlmManager.RunningWithoutNodeWaits | src/components/LLMManager.tsx:104-107 | RUNNING without a node stays queued |
| LlmManager.StopRace | src/components/LLMManager.tsx:98-151 | a RUNNING poll reply before the stop's reply still starts a tunnel; the stop's reply then leaves the page idle with no node |
| LlmManager.LateTunnelReplyApplied | src/components/LLMManager.tsx:121-152 | a tunnel reply after a stop still makes the page ready, with no node |
| LlmManager.HappyPath | src/components/LLMManager.tsx:77-136 | submit, pending, running on a node, tunnel: ready with that job and node and six log lines |
| LlmManager.FailedJob | src/components/LLMManager.tsx:108-111 | a FAILED job ends polling in error with the state in the message |
| Terminal.Submit | src/components/Terminal.tsx:25-34 | blank input or a running command is ignored; otherwise one empty-output entry is added, input cleared, and the command runs in the current directory |
| Terminal.Complete | src/components/Terminal.tsx:38-49 | only the last entry's output changes; the directory moves only on success with a non-empty reported directory |
| Terminal.OneEntryPerCommand | src/components/Terminal.tsx:29-43 | an accepted command adds exactly one entry holding the command and its shown output; earlier entries stay |
| Terminal.FailureKeepsDirectory | src/components/Terminal.tsx:41-47 | a failed run never moves the directory; with no error it shows `Command failed` |
| Terminal.NoMarkerStays | src/components/Terminal.tsx:36-47 | when the shell output has no marker, the terminal stays in its directory |
| FileManager.ChildPath | src/components/FileManager.tsx:74 | under `/` the path is `/name`, elsewhere `current/name` |
| FileManager.UpPath | src/components/FileManager.tsx:98 | up extends the current path by three characters and keeps it as prefix |
| FileManager.Load | src/components/FileManager.tsx:46-49 | loading starts, the error clears, the address shows the path, and the path is listed |
| FileManager.Loaded | src/components/FileManager.tsx:51-66 | success replaces the files and moves both paths to a non-empty reported directory; failure only sets the error |
| FileManager.Navigate | src/components/FileManager.tsx:73-88 | a directory is loaded at the child path; a file is read at the child path |
| FileManager.Opened | src/components/FileManager.tsx:82-88 | the editor opens iff the read succeeded, with that path and content; failure sets the error |
| FileManager.Up | src/components/FileManager.tsx:97-99 | loads the current path followed by `/..` |
| FileManager.GoTo | src/components/FileManager.tsx:101-104 | loads the typed path |
| FileManager.DeleteEntry | src/components/FileManager.tsx:113-116 | deletes the child path, with loading set, and keeps the directory shown at the click |
| FileManager.Deleted | src/components/FileManager.tsx:115-123 | success reloads the directory of the click; failure sets the error and stops loading |
| FileManager.DeleteRelistsClickDirectory | src/components/FileManager.tsx:97-119 | going up while a delete is pending does not change the directory its success lists |
| FileManager.DeleteMatchesNavigate | src/components/FileManager.tsx:115 | delete and navigate target the same path |
| FileManager.ChildPathNamesEntry | src/components/FileManager.tsx:74 | the child path's base name is the entry's name |
| FileManager.FailedListingStays | src/components/FileManager.tsx:59-61 | a failed listing keeps the directory and files and shows an error |
| FileManager.UpFromRoot | src/components/FileManager.tsx:98 | up from `/` asks for `//..` |
| Chat.Get | src/components/ChatInterface.tsx:78-82 | a member is found iff the value is an object holding that key; its value is that of the last member with the key |
| Chat.PropertyKeys | src/app/llm-actions.ts:333 | each key once, exactly the members' keys, array-index keys before the others and in ascending order |
| Chat.Properties | src/app/llm-actions.ts:333 | one property per key, in key order, each holding the value of the last member with that key |
| Chat.PlainProperties | src/app/llm-actions.ts:333 | members with distinct keys, none an array index, give exactly those properties in order |
| Chat.RepeatedKeyKeepsLast | src/components/ChatInterface.tsx:85 | a reply `{"a":1,"a":2}` is written `{"a":2}` |
| Chat.IndexKeyFirst | src/components/ChatInterface.tsx:85 | a reply `{"b":1,"1":2}` is written `{"1":2,"b":1}` |
| Chat.EscapeChar | src/components/ChatInterface.tsx:85 | an escape starts with a backslash exactly for a quote, a backslash or a control character |
| Chat.UnescapeEscapeChars | src/components/ChatInterface.tsx:85 | the escaped text of a string reads back as the string |
| Chat.StringifyString | src/components/ChatInterface.tsx:85 | a string is written as a quoted literal whose body reads back as the string |
| Chat.Content | src/components/ChatInterface.tsx:76-86 | a truthy `generated_text`, else a truthy `response`, else `Error: ` and a truthy `error`, else a string reply itself, else its JSON text |
| Chat.Query | src/app/llm-actions.ts:321-337 | the body on success; otherwise an object whose `error` is the status message or the thrown message, with no text members |
| Chat.Send | src/components/ChatInterface.tsx:64-73 | blank input is ignored; otherwise the user message is appended, the input cleared and the query started |
| Chat.Answered | src/components/ChatInterface.tsx:75-93 | exactly one assistant message is added after the existing ones; a thrown query shows `Failed to get response.` |
| Chat.ExchangeAddsTwo | src/components/ChatInterface.tsx:64-94 | a send and its answer add the user's text and then the answer, nothing else |
| Chat.QueryErrorShown | src/components/ChatInterface.tsx:82-83 | a failed query with a message shows `Error: ` and that message |
| Chat.EmptyErrorShownAsJson | src/components/ChatInterface.tsx:82-85 | an error without message is falsy, so its JSON text is shown |
| Chat.FalsySingleShownAsJson | src/components/ChatInterface.tsx:76-86 | an object whose only member is falsy is shown as its JSON text, whatever the key |
| Chat.StringReplyVerbatim | src/components/ChatInterface.tsx:85 | a string reply is shown as it is, even when empty |
| Chat.GeneratedTextFirst | src/components/ChatInterface.tsx:78-79 | a truthy `generated_text` wins over `response` and `error`, wherever it stands |
| Text.Trim | src/app/actions.ts:62 | no whitespace at either end, never longer |
| Text.Split | src/app/actions.ts:76 | at least one piece, none holding the separator |
| Text.JoinSplit | src/app/actions.ts:76 | joining the pieces with the separator restores the text |
| Text.SplitStr | src/app/actions.ts:143 | at least one piece, none containing the separator |
| Text.JoinSplitStr | src/app/actions.ts:143 | joining the pieces with the separator restores the text |
| Text.SplitWs | src/app/actions.ts:81 | pieces hold no whitespace; only the first and last may be empty, the first only when the text starts with whitespace |
| Text.SplitWsJoin | src/app/actions.ts:88 | words joined by single spaces split back into the same words |
| Text.SplitWsSpaced | src/app/actions.ts:81 | words separated by whitespace runs of any width split back into the same words |
| Text.SplitWsSep | src/app/actions.ts:81 | a word, a gap and text starting with a word: the word is the first piece and splitting resumes at the text |
| Text.JoinGapsEdges | src/app/actions.ts:209 | a line of words and gaps neither starts nor ends with whitespace |
| Text.JoinSingleGaps | src/app/actions.ts:88 | with single spaces for gaps, the line is the words joined by a space |
| Text.JoinFinalEmpty | src/app/actions.ts:207 | joining with a final empty piece ends the text with the separator |

## Left out

- I/O is abstracted. The ssh2 client, sockets, `child_process.spawn`,
  `fetch`, React rendering and effect timing, `confirm` and the console all
  become parameters or events. The byte splicing between a client socket and
  its forwarded stream is not modelled.
- The body of the LLM batch file (the bash, Python and Flask program) is a
  template parameter around the model id. The sbatch directives of
  `submitJob` are modelled as text.
- Clock values are parameters: `Date.now()` in temporary file names.
  Log lines are kept without their `toLocaleTimeString` prefix.
- `saveFileContent` is not modelled, because its base64 encoding is a
  library call.
- `resetLLMContext`, the chat panel's file upload and chat reset are not
  modelled, because they are HTTP requests whose results are only displayed.
- The cache-management tab of the LLM page (`loadModels`,
  `handleDeleteModel`) is not modelled. It only displays the replies of
  `ListCachedModels` and `DeleteCachedModel`, which are modelled.
- The unmount cleanup of the LLM page is not modelled. It captures the
  initial `idle` status and so never stops the tunnel.
- GemManager and the other UI-only components are not part of this model.
  Neither is the gem instruction the page passes to `queryLLM`, which
  declares a single parameter and ignores it.
- LlmActions.Settle: the case where the helper exits with code 0 before it
  is listening leaves the start request pending forever. The model leaves
  that case unspecified: it settles to nothing. Its own contract only
  bounds the length of a failure message; the message's exact content,
  for output on both streams, is stated by
  `LlmActions.SettleOutputThenExit`.
- LlmActions.StartTunnel: the handle it returns follows only the events of
  the helper it spawned. That an earlier helper's late `close` clears the
  handle too is modelled across requests by `LlmActions.HandleStep`.
- The helper's `error` event is not modelled. A spawn failure without a
  `close` event likewise leaves the request pending.
- TunnelScript.ParseInt: only decimal numerals are characterised. The
  `0x` prefix and the other radix rules of `parseInt` are not.
- JavaScript numbers are integers here. NaN, `-0` and fractions, in
  truthiness and in `JSON.stringify`, are not modelled.
- Chat.Get: a JSON object is a list of members as the server sent them;
  the last of repeated keys wins. Prototype members (`__proto__` and
  inherited properties) are not modelled.
- Catch branches that the called action makes unreachable are not modelled,
  because the action already turns every error into a failure reply. These
  are `An unexpected error occurred` in the file browser and
  `Failed to open file`.
- Chat.Content: the message content is a JSON value, because a truthy
  non-string `generated_text` or `response` is shown as it is. How the
  markdown renderer displays such a value is not modelled.

=== FILE: actions.dfy ===
/** The cluster server actions (`actions.ts`): each builds one or more shell
    command lines, runs them through the executor and interprets the plain
    text that comes back. The executor is a parameter `shell` giving, for a
    command line, the `CommandResult` it returns or the message of the error
    it throws; every action reports its reply together with the command
    lines it ran, in order. */
module Actions {

  import opened Base
  import opened Text
  import opened Ssh

  /** What `executeCommand` does with a command line. */
  type Shell = string -> Result<CommandResult, string>

  /** A server action's reply and the command lines it ran, in order. */
  datatype Call<T> = Call(reply: T, commands: seq<string>)

  /** Reply of the actions that only succeed or fail. */
  datatype Status = Done | Failed(error: string)

  /** `result.code !== 0` is false exactly for a numeric zero. */
  predicate ExitedZero(r: CommandResult)
  {
    r.code == Some(0)
  }

  /** The message a caught error carries: the message of the error thrown by
      the executor, or `stderr || fallback` for a non-zero exit. */
  function FailureText(r: Result<CommandResult, string>, fallback: string): string
  {
    match r
    case Failure(m) => m
    case Success(c) => OrElse(c.stderr, fallback)
  }

  /** Shared shape of the one-command actions: success exactly when the
      command ran and exited with code 0; otherwise the error message is
      `stderr || fallback`, or the executor's own message. */
  function RunChecked(shell: Shell, cmd: string, fallback: string): (c: Call<Status>)
    ensures c.commands == [cmd]
    ensures c.reply == Done <==> shell(cmd).Success? && ExitedZero(shell(cmd).value)
    ensures shell(cmd).Success? && !ExitedZero(shell(cmd).value) ==>
      c.reply == Failed(OrElse(shell(cmd).value.stderr, fallback))
    ensures shell(cmd).Failure? ==> c.reply == Failed(shell(cmd).error)
  {
    var r := shell(cmd);
    if r.Success? && ExitedZero(r.value) then Call(Done, [cmd])
    else Call(Failed(FailureText(r, fallback)), [cmd])
  }

  /** `verifyConnection`: echoes a marker and reports whether it ran. A
      caught error with an empty message is reported as `Connection failed`. */
  function VerifyConnection(shell: Shell): (c: Call<Status>)
    ensures c.commands == ["echo \"Connection Verified\""]
    ensures c.reply == Done <==> RunChecked(shell, "echo \"Connection Verified\"", "Command failed").reply == Done
    ensures c.reply.Failed? ==> c.reply.error != ""
  {
    var c := RunChecked(shell, "echo \"Connection Verified\"", "Command failed");
    match c.reply
    case Done => c
    case Failed(m) => Call(Failed(OrElse(m, "Connection failed")), c.commands)
  }

  // ------------------------------------------------------------ listFiles

  datatype FileEntry = FileEntry(name: string, isDirectory: bool, size: string, permissions: string, updatedAt: string)

  /** Reply of `listFiles`: the entries and the directory `pwd` reported. */
  datatype Listing = Listed(files: seq<FileEntry>, currentPath: string) | ListFailed(error: string)

  const ListFallback: string := "Failed to list files"

  function LsCommand(target: string): string
  {
    "ls -lA --time-style=long-iso \"" + target + "\""
  }

  function PwdInCommand(target: string): string
  {
    "cd \"" + target + "\" && pwd"
  }

  /** One line of `ls -l` output: at least eight whitespace-separated fields
      (permissions, links, owner, group, size, date, time, name...). The name
      is every field from the eighth on, re-joined with single spaces. The
      line is not trimmed first, so leading whitespace shifts the fields. */
  function ParseLsLine(line: string): Option<FileEntry>
  {
    var f := SplitWs(line);
    if |f| < 8 then None
    else Some(FileEntry(Join(f[7..], " "), |f[0]| > 0 && f[0][0] == 'd', f[4], f[0], f[5] + " " + f[6]))
  }

  /** Blank lines are dropped, and so are lines with too few fields. */
  function ParseLsLines(lines: seq<string>): (files: seq<FileEntry>)
    ensures |files| <= |lines|
  {
    if |lines| == 0 then []
    else
      var rest := ParseLsLines(lines[1..]);
      var l := lines[0];
      if Trim(l) == "" then rest
      else match ParseLsLine(l)
        case None => rest
        case Some(e) => [e] + rest
  }

  /** Every entry comes from a non-blank line of the output that parses to
      it; nothing is invented. */
  lemma {:induction false} EntriesFromLines(lines: seq<string>)
    ensures forall e :: e in ParseLsLines(lines) ==>
      exists l :: l in lines && Trim(l) != "" && ParseLsLine(l) == Some(e)
  {
    if |lines| > 0 {
      EntriesFromLines(lines[1..]);
      forall e | e in ParseLsLines(lines)
        ensures exists l :: l in lines && Trim(l) != "" && ParseLsLine(l) == Some(e)
      {
        if e !in ParseLsLines(lines[1..]) {
          assert Trim(lines[0]) != "" && ParseLsLine(lines[0]) == Some(e);
        } else {
          var l :| l in lines[1..] && Trim(l) != "" && ParseLsLine(l) == Some(e);
          assert l in lines;
        }
      }
    }
  }

  /** The whole `ls -lA` output: the first line (the `total` line) is always
      discarded. */
  function ParseListing(stdout: string): seq<FileEntry>
  {
    ParseLsLines(Split(stdout, '\n')[1..])
  }

  /** The directory actually listed: `~` is replaced by the trimmed output of
      `pwd`, but only when `pwd` exited with code 0. */
  function ResolveHome(path: string, pwd: CommandResult): (target: string)
    ensures path != "~" ==> target == path
    ensures path == "~" && ExitedZero(pwd) ==> target == Trim(pwd.stdout)
    ensures path == "~" && !ExitedZero(pwd) ==> target == "~"
  {
    if path == "~" && ExitedZero(pwd) then Trim(pwd.stdout) else path
  }

  /** `listFiles` once the target directory is known: it succeeds exactly
      when `ls` exits with 0 and neither command throws; the entries come
      from the `ls` output and the current path is the second `pwd`'s
      output, trimmed, whatever that command's exit code. The second `pwd`
      only runs after a successful `ls`. */
  function ListAt(shell: Shell, target: string): (c: Call<Listing>)
    ensures var ls := shell(LsCommand(target));
      c.reply.Listed? <==> ls.Success? && ExitedZero(ls.value) && shell(PwdInCommand(target)).Success?
    ensures c.reply.Listed? ==>
      && c.reply.files == ParseListing(shell(LsCommand(target)).value.stdout)
      && c.reply.currentPath == Trim(shell(PwdInCommand(target)).value.stdout)
    ensures var ls := shell(LsCommand(target));
      c.commands == [LsCommand(target)] + (if ls.Success? && ExitedZero(ls.value) then [PwdInCommand(target)] else [])
    ensures c.reply.ListFailed? ==> c.reply.error != ""
  {
    var ls := LsCommand(target);
    match shell(ls)
    case Failure(m) => Call(ListFailed(OrElse(m, ListFallback)), [ls])
    case Success(r) =>
      if !ExitedZero(r) then Call(ListFailed(OrElse(r.stderr, ListFallback)), [ls])
      else
        var pwd := PwdInCommand(target);
        match shell(pwd)
        case Failure(m) => Call(ListFailed(OrElse(m, ListFallback)), [ls, pwd])
        case Success(p) => Call(Listed(ParseListing(r.stdout), Trim(p.stdout)), [ls, pwd])
  }

  /** `listFiles`: `pwd` runs first only when the path is `~`. A listing
      succeeds exactly when `ls` exits with 0 and no command throws; the
      entries come from the `ls` output, the current path from the second
      `pwd`, trimmed, whatever that command's exit code. */
  function ListFiles(shell: Shell, path: string): (c: Call<Listing>)
    ensures path != "~" ==> c == ListAt(shell, path)
    ensures path == "~" ==> |c.commands| >= 1 && c.commands[0] == "pwd"
    ensures path == "~" && shell("pwd").Success? ==>
      c == Call(ListAt(shell, ResolveHome(path, shell("pwd").value)).reply,
                ["pwd"] + ListAt(shell, ResolveHome(path, shell("pwd").value)).commands)
    ensures path == "~" && shell("pwd").Failure? ==>
      c == Call(ListFailed(OrElse(shell("pwd").error, ListFallback)), ["pwd"])
    ensures c.reply.ListFailed? ==> c.reply.error != ""
  {
    if path == "~" then
      match shell("pwd")
      case Failure(m) => Call(ListFailed(OrElse(m, ListFallback)), ["pwd"])
      case Success(p) =>
        var rest := ListAt(shell, ResolveHome(path, p));
        Call(rest.reply, ["pwd"] + rest.commands)
    else
      ListAt(shell, path)
  }

  /** A listing row as `ls -l` prints it: seven single-word columns and a
      name made of one or more words, with a whitespace run of its own
      width after every word but the last. `ls` aligns its columns, so the
      runs between columns are of any width, and a name may itself hold
      runs of several spaces. */
  datatype LsRow = LsRow(permissions: string, links: string, owner: string, group: string,
                         size: string, date: string, time: string, nameWords: seq<string>,
                         gaps: seq<string>)

  predicate WellFormedRow(r: LsRow)
  {
    && IsWord(r.permissions) && IsWord(r.links) && IsWord(r.owner) && IsWord(r.group)
    && IsWord(r.size) && IsWord(r.date) && IsWord(r.time)
    && |r.nameWords| >= 1 && (forall i :: 0 <= i < |r.nameWords| ==> IsWord(r.nameWords[i]))
    && |r.gaps| == 6 + |r.nameWords|
    && forall i :: 0 <= i < |r.gaps| ==> Gap(r.gaps[i]) && '\n' !in r.gaps[i]
  }

  function RowWords(r: LsRow): seq<string>
  {
    [r.permissions, r.links, r.owner, r.group, r.size, r.date, r.time] + r.nameWords
  }

  /** The row printed with its own gaps between the columns. */
  function RenderRow(r: LsRow): string
    requires WellFormedRow(r)
  {
    JoinGaps(RowWords(r), r.gaps)
  }

  /** The entry a row describes. */
  function RowEntry(r: LsRow): FileEntry
  {
    FileEntry(Join(r.nameWords, " "), |r.permissions| > 0 && r.permissions[0] == 'd', r.size, r.permissions, r.date + " " + r.time)
  }

  /** Words and gaps without line breaks make a single line. */
  lemma {:induction false} JoinGapsNoNewline(ws: seq<string>, gaps: seq<string>)
    requires |ws| >= 1 && |gaps| == |ws| - 1
    requires forall i :: 0 <= i < |ws| ==> NoSpace(ws[i])
    requires forall i :: 0 <= i < |gaps| ==> '\n' !in gaps[i]
    ensures '\n' !in JoinGaps(ws, gaps)
  {
    assert '\n' !in ws[0];
    if |ws| > 1 {
      JoinGapsNoNewline(ws[1..], gaps[1..]);
      assert JoinGaps(ws, gaps) == ws[0] + gaps[0] + JoinGaps(ws[1..], gaps[1..]);
    }
  }

  /** A line that parses into an entry is not blank. */
  lemma WordLineNotBlank(ws: seq<string>, gaps: seq<string>)
    requires |ws| >= 1 && |gaps| == |ws| - 1
    requires forall i :: 0 <= i < |ws| ==> IsWord(ws[i])
    ensures Trim(JoinGaps(ws, gaps)) != ""
  {
    var s := JoinGaps(ws, gaps);
    JoinGapsEdges(ws, gaps);
    TrimEmptyIffAllSpace(s);
  }

  /** Parsing a printed row gives back the entry it describes, however
      wide its gaps: the directory flag is the first permission character
      and the name is its words joined by single spaces. */
  lemma ParseRenderedRow(r: LsRow)
    requires WellFormedRow(r)
    ensures ParseLsLine(RenderRow(r)) == Some(RowEntry(r))
  {
    var ws := RowWords(r);
    SplitWsSpaced(ws, r.gaps);
    assert ws[7..] == r.nameWords;
  }

  /** Two rows that differ only in the width of their gaps describe the
      same entry: the alignment of the listing is forgotten. */
  lemma GapsForgotten(r: LsRow, gaps: seq<string>)
    requires WellFormedRow(r) && WellFormedRow(r.(gaps := gaps))
    ensures ParseLsLine(RenderRow(r)) == ParseLsLine(RenderRow(r.(gaps := gaps)))
  {
    ParseRenderedRow(r);
    ParseRenderedRow(r.(gaps := gaps));
  }

  /** A name of two words, whatever run of spaces the listing shows
      between them, comes back as the two words around one space. */
  lemma NameRunCollapses(r: LsRow, a: string, b: string)
    requires WellFormedRow(r) && r.nameWords == [a, b]
    ensures ParseLsLine(RenderRow(r)).Some?
    ensures ParseLsLine(RenderRow(r)).value.name == a + " " + b
  {
    ParseRenderedRow(r);
    JoinPair(a, b, " ");
  }

  /** `ls -lA` output as a header line, printed rows and a final newline
      parses back into exactly the rows' entries, in order. */
  lemma {:induction false} ListingRoundTrip(header: string, rows: seq<LsRow>)
    requires '\n' !in header
    requires forall i :: 0 <= i < |rows| ==> WellFormedRow(rows[i])
    ensures ParseListing(Join([header] + RenderedRows(rows) + [""], "\n")) == RowEntries(rows)
  {
    var lines := [header] + RenderedRows(rows) + [""];
    ListingLines(header, rows, lines);
    SplitJoin(lines, '\n');
    assert lines[1..] == RenderedRows(rows) + [""];
    RowsParse(rows);
  }

  /** Listing a directory whose `ls` prints well-formed rows after its
      header yields exactly the entries of those rows, in order, at the
      directory `pwd` names there. */
  lemma ListFilesOfRows(shell: Shell, path: string, header: string, rows: seq<LsRow>, pwd: CommandResult)
    requires path != "~" && '\n' !in header
    requires forall i :: 0 <= i < |rows| ==> WellFormedRow(rows[i])
    requires shell(LsCommand(path)) == Success(CommandResult(Join([header] + RenderedRows(rows) + [""], "\n"), "", Some(0)))
    requires shell(PwdInCommand(path)) == Success(pwd)
    ensures ListFiles(shell, path)
      == Call(Listed(RowEntries(rows), Trim(pwd.stdout)), [LsCommand(path), PwdInCommand(path)])
  {
    ListingRoundTrip(header, rows);
  }

  /** The lines of such output each hold no line break. */
  lemma ListingLines(header: string, rows: seq<LsRow>, lines: seq<string>)
    requires '\n' !in header
    requires forall i :: 0 <= i < |rows| ==> WellFormedRow(rows[i])
    requires lines == [header] + RenderedRows(rows) + [""]
    ensures forall i :: 0 <= i < |lines| ==> '\n' !in lines[i]
  {
    var printed := RenderedRows(rows);
    forall i | 0 <= i < |lines|
      ensures '\n' !in lines[i]
    {
      if 0 < i < |lines| - 1 {
        assert lines[i] == printed[i - 1] == RenderRow(rows[i - 1]);
        RowNoNewline(rows[i - 1]);
      }
    }
  }

  /** A printed row is a single line. */
  lemma RowNoNewline(r: LsRow)
    requires WellFormedRow(r)
    ensures '\n' !in RenderRow(r)
  {
    var ws := RowWords(r);
    assert forall i :: 0 <= i < |ws| ==> NoSpace(ws[i]) by {
      assert forall i :: 7 <= i < |ws| ==> ws[i] == r.nameWords[i - 7];
    }
    JoinGapsNoNewline(ws, r.gaps);
  }

  function RenderedRows(rows: seq<LsRow>): (lines: seq<string>)
    requires forall i :: 0 <= i < |rows| ==> WellFormedRow(rows[i])
    ensures |lines| == |rows|
    ensures forall i :: 0 <= i < |rows| ==> lines[i] == RenderRow(rows[i])
  {
    if |rows| == 0 then [] else [RenderRow(rows[0])] + RenderedRows(rows[1..])
  }

  function RowEntries(rows: seq<LsRow>): (es: seq<FileEntry>)
    ensures |es| == |rows|
  {
    if |rows| == 0 then [] else [RowEntry(rows[0])] + RowEntries(rows[1..])
  }

  lemma {:induction false} RowsParse(rows: seq<LsRow>)
    requires forall i :: 0 <= i < |rows| ==> WellFormedRow(rows[i])
    ensures ParseLsLines(RenderedRows(rows) + [""]) == RowEntries(rows)
  {
    if |rows| == 0 {
      assert RenderedRows(rows) + [""] == [""];
      TrimEmptyIffAllSpace("");
    } else {
      RowsParse(rows[1..]);
      RowLineParses(rows[0]);
      ParseLinesStep(RenderRow(rows[0]), RenderedRows(rows[1..]), RowEntry(rows[0]), RowEntries(rows[1..]));
      assert RenderedRows(rows) == [RenderRow(rows[0])] + RenderedRows(rows[1..]);
      assert RowEntries(rows) == [RowEntry(rows[0])] + RowEntries(rows[1..]);
    }
  }

  /** A printed row is a non-blank line that parses to its entry. */
  lemma RowLineParses(r: LsRow)
    requires WellFormedRow(r)
    ensures Trim(RenderRow(r)) != "" && ParseLsLine(RenderRow(r)) == Some(RowEntry(r))
  {
    WordLineNotBlank(RowWords(r), r.gaps);
    ParseRenderedRow(r);
  }

  /** A parsing line in front adds its entry in front. */
  lemma ParseLinesStep(line: string, tail: seq<string>, e: FileEntry, es: seq<FileEntry>)
    ensures Trim(line) != "" && ParseLsLine(line) == Some(e) && ParseLsLines(tail + [""]) == es ==>
      ParseLsLines([line] + tail + [""]) == [e] + es
  {
    var lines := [line] + tail + [""];
    ConsAppend(line, tail, [""]);
    assert lines[0] == line && lines[1..] == tail + [""];
    ParseLsLinesCons(lines);
  }

  lemma ConsAppend<T>(x: T, xs: seq<T>, ys: seq<T>)
    ensures [x] + xs + ys == [x] + (xs + ys)
  {
  }

  /** A line holding an entry contributes that entry in front of the rest. */
  lemma ParseLsLinesCons(lines: seq<string>)
    requires |lines| > 0
    ensures Trim(lines[0]) != "" && ParseLsLine(lines[0]).Some? ==>
      ParseLsLines(lines) == [ParseLsLine(lines[0]).value] + ParseLsLines(lines[1..])
  {
  }

  // ---------------------------------------------------- runTerminalCommand

  /** Reply of `runTerminalCommand`. */
  datatype TerminalReply = TerminalReply(success: bool, output: string, newCwd: string, error: Option<string>)

  /** The marker echoed between the command's output and the final `pwd`. */
  const PwdMarker: string := "__PWD__"

  /** `cwd || '~'`. */
  function SafeCwd(cwd: string): (d: string)
    ensures d != ""
    ensures cwd != "" ==> d == cwd
  {
    OrElse(cwd, "~")
  }

  /** The shell line: change directory, run the command, then print an empty
      line, the marker and the working directory, whatever the command did. */
  function TerminalCommand(command: string, cwd: string): string
  {
    "cd \"" + SafeCwd(cwd) + "\"; " + command + "; echo \"\"; echo \"" + PwdMarker + "\"; pwd"
  }

  /** `replace(/\n$/, '')`: one trailing line feed is removed. */
  function DropFinalNewline(s: string): (r: string)
    ensures r == s || r + "\n" == s
    ensures |s| > 0 && s[|s| - 1] == '\n' ==> r + "\n" == s
  {
    if |s| > 0 && s[|s| - 1] == '\n' then s[..|s| - 1] else s
  }

  /** The reply built from the command's result: the output is the text
      before the first marker less one trailing line feed; the new directory
      is the trimmed text between the first and second marker when that text
      is non-empty, else the requested directory. */
  function InterpretTerminal(cwd: string, r: CommandResult): (reply: TerminalReply)
    ensures reply.success <==> ExitedZero(r)
    ensures reply.error.None?
  {
    var parts := SplitStr(r.stdout, PwdMarker);
    var newCwd := if |parts| > 1 && parts[1] != "" then Trim(parts[1]) else SafeCwd(cwd);
    TerminalReply(ExitedZero(r), DropFinalNewline(parts[0]), newCwd, None)
  }

  /** The marker never leaks into the output shown to the user. */
  lemma TerminalOutputHasNoMarker(cwd: string, r: CommandResult)
    ensures !Contains(InterpretTerminal(cwd, r).output, PwdMarker)
  {
    var parts := SplitStr(r.stdout, PwdMarker);
    var output := InterpretTerminal(cwd, r).output;
    assert output == parts[0][..|output|];
    assert !Contains(parts[0], PwdMarker);
    forall j | 0 <= j <= |output|
      ensures !OccursAt(output, PwdMarker, j)
    {
      if j + |PwdMarker| <= |output| {
        OccursAtSlice(parts[0], 0, |output|, PwdMarker, j);
      }
    }
    NotContains(output, PwdMarker);
  }

  /** Without the marker in the output (the `pwd` never ran), the whole
      output is shown and the directory stays the requested one. */
  lemma TerminalWithoutMarker(cwd: string, r: CommandResult)
    requires !Contains(r.stdout, PwdMarker)
    ensures InterpretTerminal(cwd, r).output == DropFinalNewline(r.stdout)
    ensures InterpretTerminal(cwd, r).newCwd == SafeCwd(cwd)
  {
    SplitStrNone(r.stdout, PwdMarker);
  }

  /** `runTerminalCommand`: a thrown error gives failure with empty output
      and the requested `cwd` unchanged (not replaced by `~`). */
  function RunTerminalCommand(shell: Shell, command: string, cwd: string): (c: Call<TerminalReply>)
    ensures c.commands == [TerminalCommand(command, cwd)]
    ensures shell(TerminalCommand(command, cwd)).Failure? ==>
      c.reply == TerminalReply(false, "", cwd, Some(shell(TerminalCommand(command, cwd)).error))
    ensures shell(TerminalCommand(command, cwd)).Success? ==>
      c.reply == InterpretTerminal(cwd, shell(TerminalCommand(command, cwd)).value)
  {
    var cmd := TerminalCommand(command, cwd);
    match shell(cmd)
    case Failure(m) => Call(TerminalReply(false, "", cwd, Some(m)), [cmd])
    case Success(r) => Call(InterpretTerminal(cwd, r), [cmd])
  }

  /** In `out + "\n" + marker + rest`, with no marker in `out`, the first
      marker is the one after the line feed. */
  lemma MarkerAfterOutput(out: string, rest: string)
    requires !Contains(out, PwdMarker)
    ensures forall j :: 0 <= j < |out| + 1 ==> !OccursAt(out + "\n" + PwdMarker + rest, PwdMarker, j)
  {
    var s := out + "\n" + PwdMarker + rest;
    assert s[..|out|] == out;
    assert s[|out|] == '\n';
    forall j | 0 <= j < |out| + 1
      ensures !OccursAt(s, PwdMarker, j)
    {
      if j + |PwdMarker| <= |out| {
        OccursAtSlice(s, 0, |out|, PwdMarker, j);
      } else {
        NoOccurrenceCovering(s, PwdMarker, |out|, j);
      }
    }
  }

  /** Framing a marker-free directory with line feeds adds no marker. */
  lemma MarkerFreeLine(dir: string)
    requires !Contains(dir, PwdMarker)
    ensures !Contains("\n" + dir + "\n", PwdMarker)
  {
    var b := "\n" + dir + "\n";
    assert b[1..|b| - 1] == dir;
    forall j | 0 <= j <= |b|
      ensures !OccursAt(b, PwdMarker, j)
    {
      if j == 0 {
        NoOccurrenceCovering(b, PwdMarker, 0, j);
      } else if j + |PwdMarker| <= |b| - 1 {
        OccursAtSlice(b, 1, |b| - 1, PwdMarker, j - 1);
      } else if j < |b| {
        NoOccurrenceCovering(b, PwdMarker, |b| - 1, j);
      }
    }
    NotContains(b, PwdMarker);
  }

  /** What the shell line prints when the command writes `out` and the final
      `pwd` prints `dir`: the reply gives back exactly `out` and `dir`. */
  lemma TerminalRoundTrip(out: string, dir: string, cwd: string, code: Option<int>)
    requires !Contains(out, PwdMarker) && !Contains(dir, PwdMarker)
    requires dir != [] && !IsSpace(dir[0]) && !IsSpace(dir[|dir| - 1])
    ensures var stdout := out + "\n" + PwdMarker + "\n" + dir + "\n";
      InterpretTerminal(cwd, CommandResult(stdout, "", code)) == TerminalReply(code == Some(0), out, dir, None)
  {
    var a := out + "\n";
    var b := "\n" + dir + "\n";
    var stdout := out + "\n" + PwdMarker + "\n" + dir + "\n";
    TerminalOutputSplit(out, dir);
    var parts := SplitStr(stdout, PwdMarker);
    assert parts == [a, b];
    assert AllSpace("\n");
    TrimFramed("\n", dir, "\n");
    assert Trim(parts[1]) == dir && parts[1] != "";
    assert a[..|a| - 1] == out;
    assert DropFinalNewline(parts[0]) == out;
  }

  /** The printed text splits at the marker into the command's output and
      the framed directory. */
  lemma TerminalOutputSplit(out: string, dir: string)
    requires !Contains(out, PwdMarker) && !Contains(dir, PwdMarker)
    ensures SplitStr(out + "\n" + PwdMarker + "\n" + dir + "\n", PwdMarker) == [out + "\n", "\n" + dir + "\n"]
  {
    var a := out + "\n";
    var b := "\n" + dir + "\n";
    MarkerAfterOutput(out, b);
    assert out + "\n" + PwdMarker + b == a + PwdMarker + b;
    SplitStrAfter(a, PwdMarker, b);
    MarkerFreeLine(dir);
    SplitStrNone(b, PwdMarker);
    assert a + PwdMarker + b == out + "\n" + PwdMarker + "\n" + dir + "\n";
  }

  // -------------------------------------------------------------- submitJob

  datatype JobConfig = JobConfig(name: string, partition: string, nodes: int, cpus: int,
                                 memory: string, time: string, script: string)

  /** Reply of a batch submission: the job id when the output names one. */
  datatype Submission = Submitted(jobId: Option<string>) | SubmitFailed(error: string)

  /** `script.replace(/'/g, "'\''")`; the JavaScript literal has no
      backslash, so each quote becomes three quotes. */
  function QuoteScript(s: string): (r: string)
    ensures |r| >= |s|
  {
    if |s| == 0 then ""
    else (if s[0] == '\'' then "'''" else [s[0]]) + QuoteScript(s[1..])
  }

  /** Reads each run of three quotes back as one quote. */
  function Unquote(s: string): string
  {
    if |s| == 0 then ""
    else if |s| >= 3 && s[..3] == "'''" then "'" + Unquote(s[3..])
    else [s[0]] + Unquote(s[1..])
  }

  /** Number of quote characters. */
  function Quotes(s: string): nat
  {
    if |s| == 0 then 0 else (if s[0] == '\'' then 1 else 0) + Quotes(s[1..])
  }

  /** The rewrite loses nothing: the original script is recovered from it,
      every quote grew by exactly two characters and nothing else changed. */
  lemma {:induction false} QuoteScriptInvertible(s: string)
    ensures Unquote(QuoteScript(s)) == s
    ensures |QuoteScript(s)| == |s| + 2 * Quotes(s)
  {
    if |s| > 0 {
      QuoteScriptInvertible(s[1..]);
      var r := QuoteScript(s);
      if s[0] == '\'' {
        assert r == "'''" + QuoteScript(s[1..]);
        assert r[..3] == "'''" && r[3..] == QuoteScript(s[1..]);
      } else {
        assert r == [s[0]] + QuoteScript(s[1..]);
        assert r[1..] == QuoteScript(s[1..]);
      }
      assert s == [s[0]] + s[1..];
    }
  }

  /** A script without quotes is left exactly as it is. */
  lemma {:induction false} QuoteScriptNoQuotes(s: string)
    requires '\'' !in s
    ensures QuoteScript(s) == s
  {
    if |s| > 0 {
      QuoteScriptNoQuotes(s[1..]);
      assert s == [s[0]] + s[1..];
    }
  }

  /** The batch file: a bash shebang, six `#SBATCH` directives, a blank line
      and the rewritten script. */
  function SbatchContent(job: JobConfig): string
  {
    Shebang + SbatchDirectives(job) + "\n" + QuoteScript(job.script) + "\n"
  }

  const Shebang: string := "#!/bin/bash\n"

  /** The six `#SBATCH` lines, each ending in a line feed. */
  function SbatchDirectives(job: JobConfig): string
  {
    "#SBATCH --job-name=" + job.name + "\n"
    + "#SBATCH --partition=" + job.partition + "\n"
    + "#SBATCH --nodes=" + IntText(job.nodes) + "\n"
    + "#SBATCH --cpus-per-task=" + IntText(job.cpus) + "\n"
    + "#SBATCH --mem=" + job.memory + "\n"
    + "#SBATCH --time=" + job.time + "\n"
  }

  /** Writes `content` to `filename` through a quoted here-document, submits
      it with `sbatch` and removes it. */
  function HeredocSubmit(filename: string, content: string): string
  {
    "cat << 'EOF' > " + filename + "\n" + content + "\nEOF\nsbatch " + filename + "\nrm " + filename + "\n"
  }

  function JobFileName(timestamp: nat): string
  {
    "job_" + Decimal(timestamp) + ".slurm"
  }

  /** The batch file ends with the rewritten script: the directives come
      first and the user's script is placed after them, not merged in. */
  lemma SbatchEndsWithScript(job: JobConfig)
    ensures var c := SbatchContent(job); var q := QuoteScript(job.script) + "\n";
      |c| >= |q| && c[|c| - |q|..] == q && c[..|Shebang|] == Shebang
  {
    var c := SbatchContent(job);
    var q := QuoteScript(job.script) + "\n";
    var h := Shebang + SbatchDirectives(job) + "\n";
    assert c == h + q;
    assert c[|h|..] == q;
    assert c[..|Shebang|] == h[..|Shebang|];
  }

  // ------------------------------------------------- job id of a submission

  const BatchPrefix: string := "Submitted batch job "

  /** `/Submitted batch job (\d+)/` can match at position `i`. */
  predicate JobIdAt(s: string, i: nat)
  {
    i + |BatchPrefix| < |s| && s[i..i + |BatchPrefix|] == BatchPrefix && IsDigit(s[i + |BatchPrefix|])
  }

  /** `digits` is the job id the regular expression captures when its
      leftmost match starts at `i`: the longest digit run after the prefix. */
  predicate JobMatch(s: string, i: nat, digits: string)
  {
    && JobIdAt(s, i)
    && (forall j :: 0 <= j < i ==> !JobIdAt(s, j))
    && digits != [] && AllDigits(digits)
    && i + |BatchPrefix| + |digits| <= |s|
    && s[i + |BatchPrefix|..i + |BatchPrefix| + |digits|] == digits
    && (i + |BatchPrefix| + |digits| == |s| || !IsDigit(s[i + |BatchPrefix| + |digits|]))
  }

  /** Leftmost match position at or after `from`. */
  function FindJobIdFrom(s: string, from: nat): (r: Option<nat>)
    requires from <= |s|
    ensures r.Some? ==> from <= r.value && JobIdAt(s, r.value)
    ensures r.Some? ==> forall j :: from <= j < r.value ==> !JobIdAt(s, j)
    ensures r.None? ==> forall j :: from <= j <= |s| ==> !JobIdAt(s, j)
    decreases |s| - from
  {
    if JobIdAt(s, from) then Some(from)
    else if from == |s| then None
    else FindJobIdFrom(s, from + 1)
  }

  /** `stdout.match(/Submitted batch job (\d+)/)?.[1]`: the whole digit run
      after the leftmost occurrence of the prefix that is followed by a digit
      (an occurrence followed by something else is skipped). */
  function ExtractJobId(s: string): (id: Option<string>)
    ensures id.None? <==> forall j :: 0 <= j <= |s| ==> !JobIdAt(s, j)
    ensures id.Some? ==> id.value != "" && AllDigits(id.value)
    ensures id.Some? ==> exists i: nat :: JobMatch(s, i, id.value)
  {
    match FindJobIdFrom(s, 0)
    case None => None
    case Some(i) =>
      var rest := s[i + |BatchPrefix|..];
      var n := DigitRun(rest);
      assert rest[..n][0] == rest[0];
      assert n == |rest| || rest[n] == s[i + |BatchPrefix| + n];
      assert s[i + |BatchPrefix|..i + |BatchPrefix| + n] == rest[..n];
      assert JobMatch(s, i, rest[..n]);
      Some(rest[..n])
  }

  /** The usual `sbatch` reply yields its job number. */
  lemma JobIdOfSbatchReply(n: nat, before: string, after: string)
    requires forall j :: 0 <= j < |before| ==> !JobIdAt(before + BatchPrefix + Decimal(n) + after, j)
    requires after == [] || !IsDigit(after[0])
    ensures ExtractJobId(before + BatchPrefix + Decimal(n) + after) == Some(Decimal(n))
    ensures DecimalValue(ExtractJobId(before + BatchPrefix + Decimal(n) + after).value) == n
  {
    var d := Decimal(n);
    var tail := d + after;
    var s := before + BatchPrefix + d + after;
    assert s == before + BatchPrefix + tail;
    var i := |before|;
    MiddleOf(before, BatchPrefix, tail);
    assert s[i + |BatchPrefix|] == tail[0];
    assert JobIdAt(s, i);
    var f := FindJobIdFrom(s, 0);
    assert f == Some(i);
    DigitRunOf(d, after);
    assert tail[..|d|] == d;
    DecimalRoundTrip(n);
  }

  /** The digit run is determined by where the first non-digit falls. */
  lemma {:induction false} DigitRunOf(d: string, t: string)
    requires AllDigits(d)
    requires t == [] || !IsDigit(t[0])
    ensures DigitRun(d + t) == |d|
  {
    if d != [] {
      assert (d + t)[1..] == d[1..] + t;
      DigitRunOf(d[1..], t);
    } else {
      assert d + t == t;
    }
  }

  /** The reply of a submission command: a non-zero or missing exit code is
      a failure carrying `stderr || fallback`; otherwise success, with the job
      id when the output contains one. */
  function InterpretSubmission(r: Result<CommandResult, string>): (s: Submission)
    ensures s.Submitted? <==> r.Success? && ExitedZero(r.value)
    ensures s.Submitted? ==> s.jobId == ExtractJobId(r.value.stdout)
    ensures s.SubmitFailed? ==> s.error == FailureText(r, "Failed to submit job")
  {
    match r
    case Success(c) =>
      if ExitedZero(c) then Submitted(ExtractJobId(c.stdout))
      else SubmitFailed(OrElse(c.stderr, "Failed to submit job"))
    case Failure(m) => SubmitFailed(m)
  }

  /** The plain `sbatch` reply, exit code 0, is a submission of that job. */
  lemma AcceptedSubmission(n: nat)
    ensures InterpretSubmission(Success(CommandResult(BatchPrefix + Decimal(n) + "\n", "", Some(0))))
      == Submitted(Some(Decimal(n)))
  {
    JobIdOfSbatchReply(n, "", "\n");
    assert "" + BatchPrefix + Decimal(n) + "\n" == BatchPrefix + Decimal(n) + "\n";
  }

  /** `submitJob`: one command, the here-document with the batch file. */
  function SubmitJob(shell: Shell, job: JobConfig, timestamp: nat): (c: Call<Submission>)
    ensures c.commands == [HeredocSubmit(JobFileName(timestamp), SbatchContent(job))]
    ensures c.reply == InterpretSubmission(shell(c.commands[0]))
  {
    var cmd := HeredocSubmit(JobFileName(timestamp), SbatchContent(job));
    Call(InterpretSubmission(shell(cmd)), [cmd])
  }

  // ----------------------------------------------- getJobQueue / getJobHistory

  /** A row of `squeue`; a column is `None` (`undefined`) when the line has
      too few fields. */
  datatype QueueEntry = QueueEntry(
    jobId: Option<string>, partition: Option<string>, name: Option<string>, user: Option<string>,
    state: Option<string>, time: Option<string>, timeLimit: Option<string>, nodes: Option<string>,
    nodelist: Option<string>)

  /** A row of `sacct`. */
  datatype HistoryEntry = HistoryEntry(
    jobId: Option<string>, name: Option<string>, partition: Option<string>, state: Option<string>,
    exitCode: Option<string>)

  datatype QueueReply = Queue(jobs: seq<QueueEntry>) | QueueFailed(error: string)

  /** `line.trim().split(/\s+/)`. */
  function Fields(line: string): seq<string>
  {
    SplitWs(Trim(line))
  }

  /** Lines that are not blank, in order. */
  function NonBlank(lines: seq<string>): (r: seq<string>)
    ensures |r| <= |lines|
    ensures forall l :: l in r <==> l in lines && Trim(l) != ""
  {
    if |lines| == 0 then []
    else (if Trim(lines[0]) != "" then [lines[0]] else []) + NonBlank(lines[1..])
  }

  function QueueRow(line: string): QueueEntry
  {
    var p := Fields(line);
    QueueEntry(Field(p, 0), Field(p, 1), Field(p, 2), Field(p, 3), Field(p, 4),
               Field(p, 5), Field(p, 6), Field(p, 7), Field(p, 8))
  }

  function HistoryRow(line: string): HistoryEntry
  {
    var p := Fields(line);
    HistoryEntry(Field(p, 0), Field(p, 1), Field(p, 2), Field(p, 3), Field(p, 4))
  }

  /** One queue entry per non-blank line, mapped positionally. */
  function ParseQueue(stdout: string): seq<QueueEntry>
  {
    var lines := NonBlank(Split(stdout, '\n'));
    seq(|lines|, i requires 0 <= i < |lines| => QueueRow(lines[i]))
  }

  /** One history entry per non-blank line, mapped positionally. */
  function ParseHistory(stdout: string): seq<HistoryEntry>
  {
    var lines := NonBlank(Split(stdout, '\n'));
    seq(|lines|, i requires 0 <= i < |lines| => HistoryRow(lines[i]))
  }

  /** A line that is not blank is kept, and so is every other such line. */
  lemma {:induction false} NonBlankKeepsAll(lines: seq<string>)
    requires forall i :: 0 <= i < |lines| ==> Trim(lines[i]) != ""
    ensures NonBlank(lines) == lines
  {
    if |lines| > 0 {
      NonBlankKeepsAll(lines[1..]);
      assert [lines[0]] + lines[1..] == lines;
    }
  }

  /** `filter` keeps order and repeats: the non-blank lines of two
      stretches of output are those of the first, then those of the
      second. */
  lemma {:induction false} NonBlankConcat(a: seq<string>, b: seq<string>)
    ensures NonBlank(a + b) == NonBlank(a) + NonBlank(b)
  {
    if |a| == 0 {
      assert a + b == b;
    } else {
      assert (a + b)[0] == a[0];
      assert (a + b)[1..] == a[1..] + b;
      NonBlankConcat(a[1..], b);
    }
  }

  /** Any output, blank lines included, parses into one queue entry per
      non-blank line, in order. */
  lemma QueueOfLines(lines: seq<string>)
    requires |lines| >= 1
    requires forall i :: 0 <= i < |lines| ==> '\n' !in lines[i]
    ensures |ParseQueue(Join(lines, "\n"))| == |NonBlank(lines)|
    ensures forall i :: 0 <= i < |NonBlank(lines)| ==>
      ParseQueue(Join(lines, "\n"))[i] == QueueRow(NonBlank(lines)[i])
  {
    SplitJoin(lines, '\n');
  }

  /** `squeue` output, rows each ended by a line feed, parses into one
      queue entry per row, in order. */
  lemma QueueOfRows(rows: seq<string>)
    requires |rows| >= 1
    requires forall i :: 0 <= i < |rows| ==> '\n' !in rows[i] && Trim(rows[i]) != ""
    ensures |ParseQueue(Join(rows, "\n") + "\n")| == |rows|
    ensures forall i :: 0 <= i < |rows| ==> ParseQueue(Join(rows, "\n") + "\n")[i] == QueueRow(rows[i])
  {
    FinalNewline(rows);
    QueueOfLines(rows + [""]);
  }

  /** Any output, blank lines included, parses into one history entry per
      non-blank line, in order. */
  lemma HistoryOfLines(lines: seq<string>)
    requires |lines| >= 1
    requires forall i :: 0 <= i < |lines| ==> '\n' !in lines[i]
    ensures |ParseHistory(Join(lines, "\n"))| == |NonBlank(lines)|
    ensures forall i :: 0 <= i < |NonBlank(lines)| ==>
      ParseHistory(Join(lines, "\n"))[i] == HistoryRow(NonBlank(lines)[i])
  {
    SplitJoin(lines, '\n');
  }

  /** `sacct` output, rows each ended by a line feed, parses into one
      history entry per row, in order. */
  lemma HistoryOfRows(rows: seq<string>)
    requires |rows| >= 1
    requires forall i :: 0 <= i < |rows| ==> '\n' !in rows[i] && Trim(rows[i]) != ""
    ensures |ParseHistory(Join(rows, "\n") + "\n")| == |rows|
    ensures forall i :: 0 <= i < |rows| ==> ParseHistory(Join(rows, "\n") + "\n")[i] == HistoryRow(rows[i])
  {
    FinalNewline(rows);
    HistoryOfLines(rows + [""]);
  }

  /** Rows ended by a line feed are the rows and a final empty line, and
      that empty line is dropped. */
  lemma FinalNewline(rows: seq<string>)
    requires |rows| >= 1
    requires forall i :: 0 <= i < |rows| ==> '\n' !in rows[i] && Trim(rows[i]) != ""
    ensures Join(rows + [""], "\n") == Join(rows, "\n") + "\n"
    ensures forall i :: 0 <= i < |rows + [""]| ==> '\n' !in (rows + [""])[i]
    ensures NonBlank(rows + [""]) == rows
  {
    JoinFinalEmpty(rows, "\n");
    var lines := rows + [""];
    forall i | 0 <= i < |lines|
      ensures '\n' !in lines[i]
    {
      if i < |rows| {
        assert lines[i] == rows[i];
      } else {
        assert lines[i] == "";
      }
    }
    BlankLineDropped(rows, "");
  }

  /** Non-blank lines followed by a blank one keep just those lines. */
  lemma BlankLineDropped(rows: seq<string>, l: string)
    requires forall i :: 0 <= i < |rows| ==> Trim(rows[i]) != ""
    requires AllSpace(l)
    ensures NonBlank(rows + [l]) == rows
  {
    NonBlankConcat(rows, [l]);
    NonBlankKeepsAll(rows);
    BlankDropped(l);
    assert rows + [] == rows;
  }

  /** A line of whitespace alone is dropped. */
  lemma BlankDropped(l: string)
    requires AllSpace(l)
    ensures NonBlank([l]) == []
  {
    TrimEmptyIffAllSpace(l);
    assert [l][1..] == [];
  }

  /** A queue line of nine single-word columns, with runs of whitespace of
      any width between them and at either end, as `squeue` right-aligns
      its columns, gives back the nine columns. */
  lemma QueueRowOfColumns(cols: seq<string>, gaps: seq<string>, pad: string, tail: string)
    requires |cols| == 9 && forall i :: 0 <= i < 9 ==> IsWord(cols[i])
    requires |gaps| == 8 && forall i :: 0 <= i < 8 ==> Gap(gaps[i])
    requires AllSpace(pad) && AllSpace(tail)
    ensures QueueRow(pad + JoinGaps(cols, gaps) + tail)
      == QueueEntry(Some(cols[0]), Some(cols[1]), Some(cols[2]), Some(cols[3]), Some(cols[4]),
                    Some(cols[5]), Some(cols[6]), Some(cols[7]), Some(cols[8]))
  {
    FieldsOfPadded(cols, gaps, pad, tail);
  }

  /** A history line of five single-word columns, with runs of whitespace
      of any width between them and at either end, as `sacct` prints fixed
      width columns, gives back the columns. */
  lemma HistoryRowOfColumns(cols: seq<string>, gaps: seq<string>, pad: string, tail: string)
    requires |cols| == 5 && forall i :: 0 <= i < 5 ==> IsWord(cols[i])
    requires |gaps| == 4 && forall i :: 0 <= i < 4 ==> Gap(gaps[i])
    requires AllSpace(pad) && AllSpace(tail)
    ensures HistoryRow(pad + JoinGaps(cols, gaps) + tail)
      == HistoryEntry(Some(cols[0]), Some(cols[1]), Some(cols[2]), Some(cols[3]), Some(cols[4]))
  {
    FieldsOfPadded(cols, gaps, pad, tail);
  }

  /** The fields of a line of words, with whitespace runs of any width
      between them and at either end, are the words. */
  lemma FieldsOfPadded(ws: seq<string>, gaps: seq<string>, pad: string, tail: string)
    requires |ws| >= 1 && forall i :: 0 <= i < |ws| ==> IsWord(ws[i])
    requires |gaps| == |ws| - 1 && forall i :: 0 <= i < |gaps| ==> Gap(gaps[i])
    requires AllSpace(pad) && AllSpace(tail)
    ensures Trim(pad + JoinGaps(ws, gaps) + tail) == JoinGaps(ws, gaps)
    ensures Fields(pad + JoinGaps(ws, gaps) + tail) == ws
  {
    JoinGapsEdges(ws, gaps);
    TrimFramed(pad, JoinGaps(ws, gaps), tail);
    SplitWsSpaced(ws, gaps);
  }

  function QueueCommand(username: string): string
  {
    "squeue -u " + username + " --format=\"%.18i %.9P %.30j %.8u %.8T %.10M %.9l %.6D %R\" --noheader"
  }

  function HistoryCommand(username: string): string
  {
    "sacct -X -u " + username + " --format=JobID,JobName,Partition,State,ExitCode -n"
  }

  /** `getJobQueue`: the parsed queue, or the failure. */
  function GetJobQueue(shell: Shell, username: string): (c: Call<QueueReply>)
    ensures c.commands == [QueueCommand(username)]
    ensures c.reply.Queue? <==> shell(QueueCommand(username)).Success? && ExitedZero(shell(QueueCommand(username)).value)
    ensures c.reply.Queue? ==> c.reply.jobs == ParseQueue(shell(QueueCommand(username)).value.stdout)
    ensures c.reply.QueueFailed? ==> c.reply.error == FailureText(shell(QueueCommand(username)), "Failed to get job queue")
  {
    var cmd := QueueCommand(username);
    var r := shell(cmd);
    if r.Success? && ExitedZero(r.value) then Call(Queue(ParseQueue(r.value.stdout)), [cmd])
    else Call(QueueFailed(FailureText(r, "Failed to get job queue")), [cmd])
  }

  /** `getJobHistory`: any failure is reported as success with no jobs. */
  function GetJobHistory(shell: Shell, username: string): (c: Call<seq<HistoryEntry>>)
    ensures c.commands == [HistoryCommand(username)]
    ensures !(shell(HistoryCommand(username)).Success? && ExitedZero(shell(HistoryCommand(username)).value)) ==> c.reply == []
    ensures shell(HistoryCommand(username)).Success? && ExitedZero(shell(HistoryCommand(username)).value) ==>
      c.reply == ParseHistory(shell(HistoryCommand(username)).value.stdout)
  {
    var cmd := HistoryCommand(username);
    var r := shell(cmd);
    if r.Success? && ExitedZero(r.value) then Call(ParseHistory(r.value.stdout), [cmd])
    else Call([], [cmd])
  }

  // ------------------------------------------- cancel, read, delete a file

  /** The account for which cancelling is a no-op. */
  const DemoUser: string := "demo"

  /** `cancelJob`: the demo account succeeds without running anything. */
  function CancelJob(shell: Shell, username: string, jobId: string): (c: Call<Status>)
    ensures username == DemoUser ==> c == Call(Done, [])
    ensures username != DemoUser ==> c == RunChecked(shell, "scancel " + jobId, "Failed to cancel job")
    ensures c.commands == [] <==> username == DemoUser
  {
    if username == DemoUser then Call(Done, [])
    else RunChecked(shell, "scancel " + jobId, "Failed to cancel job")
  }

  /** Reply of `readFileContent`. */
  datatype ReadReply = Content(text: string) | ReadFailed(error: string)

  function ReadFileContent(shell: Shell, path: string): (c: Call<ReadReply>)
    ensures c.commands == ["cat \"" + path + "\""]
    ensures c.reply.Content? <==> RunChecked(shell, "cat \"" + path + "\"", "Failed to read file").reply == Done
    ensures c.reply.Content? ==> c.reply.text == shell("cat \"" + path + "\"").value.stdout
  {
    var cmd := "cat \"" + path + "\"";
    match RunChecked(shell, cmd, "Failed to read file").reply
    case Done => Call(Content(shell(cmd).value.stdout), [cmd])
    case Failed(m) => Call(ReadFailed(m), [cmd])
  }

  function DeleteFile(shell: Shell, path: string): (c: Call<Status>)
    ensures c == RunChecked(shell, "rm -rf \"" + path + "\"", "Delete failed")
  {
    RunChecked(shell, "rm -rf \"" + path + "\"", "Delete failed")
  }
}

=== FILE: base.dfy ===
/** Small value types shared by every module: optional values, results that
    carry either a value or an error, and JavaScript's `a || b` on strings. */
module Base {

  /** A value that may be absent (`undefined` / `null` in the program). */
  datatype Option<+T> = None | Some(value: T)

  /** The outcome of an operation that either produces a value or fails. */
  datatype Result<+T, +E> = Success(value: T) | Failure(error: E)

  /** JavaScript's `s || fallback` for a string that is present: the empty
      string is falsy, every other string is truthy. */
  function OrElse(s: string, fallback: string): (r: string)
    ensures s != "" ==> r == s
    ensures s == "" ==> r == fallback
  {
    if s != "" then s else fallback
  }

  /** JavaScript's `s || fallback` for a string that may be `undefined`. */
  function OptOrElse(s: Option<string>, fallback: string): (r: string)
    ensures s.Some? && s.value != "" ==> r == s.value
    ensures s.None? || s.value == "" ==> r == fallback
  {
    match s
    case Some(v) => OrElse(v, fallback)
    case None => fallback
  }

  /** `parts[i]` in JavaScript: `undefined` past the end. */
  function Field(parts: seq<string>, i: nat): (f: Option<string>)
    ensures f.Some? <==> i < |parts|
    ensures f.Some? ==> f.value == parts[i]
  {
    if i < |parts| then Some(parts[i]) else None
  }

  /** Truthiness of a string that may be `undefined`. */
  predicate Truthy(s: Option<string>)
  {
    s.Some? && s.value != ""
  }
}

=== FILE: chat.dfy ===
/** The chat panel (`ChatInterface.tsx`) and the query it sends
    (`queryLLM`). The reply of the LLM server is whatever JSON it sent
    back; the panel picks what to show from it in a fixed order, and falls
    back to the JSON text of the whole reply. */
module Chat {

  import opened Base
  import opened Text

  /** A parsed JSON value. Numbers are integers here; an object keeps its
      members in order. */
  datatype Json =
    | JNull
    | JBool(b: bool)
    | JNum(n: int)
    | JStr(s: string)
    | JArr(items: seq<Json>)
    | JObj(members: seq<(string, Json)>)

  /** JavaScript truthiness of a value. */
  predicate JsTruthy(j: Json)
  {
    match j
    case JNull => false
    case JBool(b) => b
    case JNum(n) => n != 0
    case JStr(s) => s != ""
    case JArr(_) => true
    case JObj(_) => true
  }

  /** Property access on a value: only objects have the members read here,
      and of repeated keys the parser keeps the last. */
  function Get(j: Json, key: string): (r: Option<Json>)
    ensures r.Some? <==> j.JObj? && exists i :: 0 <= i < |j.members| && j.members[i].0 == key
    ensures r.Some? ==> exists i :: 0 <= i < |j.members| && j.members[i] == (key, r.value)
                                    && forall k :: i < k < |j.members| ==> j.members[k].0 != key
    decreases if j.JObj? then |j.members| else 0
  {
    if !j.JObj? || |j.members| == 0 then None
    else
      var last := j.members[|j.members| - 1];
      if last.0 == key then Some(last.1)
      else
        var r := Get(JObj(j.members[..|j.members| - 1]), key);
        assert forall i :: 0 <= i < |j.members| - 1 ==> j.members[..|j.members| - 1][i] == j.members[i];
        r
  }

  /** A member is present and truthy. */
  predicate Has(j: Json, key: string)
  {
    Get(j, key).Some? && JsTruthy(Get(j, key).value)
  }

  /** The text of a value in a template literal (`String(v)`). */
  function ToText(j: Json): string
  {
    match j
    case JNull => "null"
    case JBool(b) => if b then "true" else "false"
    case JNum(n) => IntText(n)
    case JStr(s) => s
    case JArr(items) =>
      // an element that is null becomes empty
      Join(seq(|items|, i requires 0 <= i < |items| => if items[i].JNull? then "" else ToText(items[i])), ",")
    case JObj(_) => "[object Object]"
  }

  function HexDigit(d: nat): (c: char)
    requires d < 16
  {
    if d < 10 then DigitChar(d) else ('a' as int + (d - 10)) as char
  }

  function HexValue(c: char): (r: Option<nat>)
    ensures r.Some? ==> r.value < 16
  {
    if '0' <= c <= '9' then Some(c as int - '0' as int)
    else if 'a' <= c <= 'f' then Some(c as int - 'a' as int + 10)
    else None
  }

  /** How `JSON.stringify` writes one character of a string. */
  function EscapeChar(c: char): (r: string)
    ensures |r| > 0
    ensures r[0] == '\\' <==> c == '"' || c == '\\' || c < ' '
  {
    if c == '"' then "\\\""
    else if c == '\\' then "\\\\"
    else if c == '\U{8}' then "\\b"
    else if c == '\t' then "\\t"
    else if c == '\n' then "\\n"
    else if c == '\U{C}' then "\\f"
    else if c == '\r' then "\\r"
    else if c < ' ' then "\\u00" + [HexDigit(c as int / 16), HexDigit(c as int % 16)]
    else [c]
  }

  function EscapeChars(s: string): string
  {
    if s == [] then [] else EscapeChar(s[0]) + EscapeChars(s[1..])
  }

  /** A JSON string literal. */
  function Quote(s: string): string
  {
    "\"" + EscapeChars(s) + "\""
  }

  // ------------------------------------------------- object properties

  /** No key occurs twice. */
  predicate Distinct(ks: seq<string>)
  {
    forall i, j :: 0 <= i < j < |ks| ==> ks[i] != ks[j]
  }

  /** The value of a numeral (0 for anything else). */
  function Num(k: string): nat
  {
    if AllDigits(k) then DecimalValue(k) else 0
  }

  /** A key JavaScript treats as an array index: the canonical decimal
      numeral of an integer below 2^32 - 1. */
  predicate IsIndexKey(k: string)
  {
    k != "" && AllDigits(k) && (|k| == 1 || k[0] != '0') && DecimalValue(k) < 0xFFFF_FFFF
  }

  /** The keys of some members, each once, in the order they first appear. */
  function Keys(ms: seq<(string, Json)>): (ks: seq<string>)
    ensures Distinct(ks)
    ensures forall k :: k in ks <==> exists i :: 0 <= i < |ms| && ms[i].0 == k
  {
    if |ms| == 0 then []
    else
      var front := ms[..|ms| - 1];
      assert forall i :: 0 <= i < |front| ==> front[i] == ms[i];
      var ks := Keys(front);
      var k := ms[|ms| - 1].0;
      if k in ks then ks else ks + [k]
  }

  /** The keys that are array indices (`index`) or that are not, in order. */
  function Only(ks: seq<string>, index: bool): (r: seq<string>)
    ensures forall k :: k in r <==> k in ks && IsIndexKey(k) == index
    ensures Distinct(ks) ==> Distinct(r)
  {
    if |ks| == 0 then []
    else
      var rest := Only(ks[1..], index);
      assert Distinct(ks) ==> ks[0] !in ks[1..];
      if IsIndexKey(ks[0]) == index then [ks[0]] + rest else rest
  }

  /** Keys in ascending numeric order. */
  predicate Ascending(ks: seq<string>)
  {
    forall i, j :: 0 <= i < j < |ks| ==> Num(ks[i]) <= Num(ks[j])
  }

  /** Insertion of a key before the first one of a larger value. */
  function Insert(k: string, ks: seq<string>): (r: seq<string>)
    ensures forall x :: x in r <==> x == k || x in ks
    ensures Distinct(ks) && k !in ks ==> Distinct(r)
  {
    if |ks| == 0 || Num(k) <= Num(ks[0]) then [k] + ks
    else
      var rest := Insert(k, ks[1..]);
      assert Distinct(ks) && k !in ks ==> ks[0] !in rest;
      [ks[0]] + rest
  }

  /** Insertion keeps keys in ascending order. */
  lemma {:induction false} InsertAscending(k: string, ks: seq<string>)
    requires Ascending(ks)
    ensures Ascending(Insert(k, ks))
  {
    if |ks| > 0 && Num(k) > Num(ks[0]) {
      var rest := Insert(k, ks[1..]);
      InsertAscending(k, ks[1..]);
      forall i | 0 <= i < |rest|
        ensures Num(ks[0]) <= Num(rest[i])
      {
        assert rest[i] in rest;
        if rest[i] != k {
          var m :| 0 <= m < |ks[1..]| && ks[1..][m] == rest[i];
          assert ks[m + 1] == rest[i];
        }
      }
      assert Insert(k, ks) == [ks[0]] + rest;
    }
  }

  /** Insertion sort by numeric value. */
  function Sort(ks: seq<string>): (r: seq<string>)
    ensures forall x :: x in r <==> x in ks
    ensures Distinct(ks) ==> Distinct(r)
  {
    if |ks| == 0 then [] else Insert(ks[0], Sort(ks[1..]))
  }

  /** Sorted keys are in ascending order. */
  lemma {:induction false} SortAscending(ks: seq<string>)
    ensures Ascending(Sort(ks))
  {
    if |ks| > 0 {
      SortAscending(ks[1..]);
      InsertAscending(ks[0], Sort(ks[1..]));
    }
  }

  /** The keys of the object `JSON.parse` builds from some members: array
      indices first in ascending order, then the other keys in the order
      they first appear, each key once. */
  function PropertyKeys(ms: seq<(string, Json)>): (ks: seq<string>)
    ensures Distinct(ks)
    ensures forall k :: k in ks <==> exists i :: 0 <= i < |ms| && ms[i].0 == k
    ensures forall i, j :: 0 <= i < j < |ks| && IsIndexKey(ks[j]) ==>
      IsIndexKey(ks[i]) && Num(ks[i]) <= Num(ks[j])
  {
    var all := Keys(ms);
    var indices, names := Sort(Only(all, true)), Only(all, false);
    SortAscending(Only(all, true));
    var ks := indices + names;
    forall i, j | 0 <= i < j < |ks|
      ensures ks[i] != ks[j]
      ensures IsIndexKey(ks[j]) ==> IsIndexKey(ks[i]) && Num(ks[i]) <= Num(ks[j])
    {
      if j < |indices| {
        assert ks[i] == indices[i] && ks[j] == indices[j];
      } else if i >= |indices| {
        assert ks[i] == names[i - |indices|] && ks[j] == names[j - |indices|];
      } else {
        assert ks[i] == indices[i] && ks[j] == names[j - |indices|];
        assert indices[i] in indices && names[j - |indices|] in names;
      }
    }
    ks
  }

  /** The properties of the object `JSON.parse` builds from some members:
      each key once, in the order of `PropertyKeys`, with the value the
      last member of that key gives it. */
  function Properties(ms: seq<(string, Json)>): (ps: seq<(string, Json)>)
    ensures |ps| == |PropertyKeys(ms)|
    ensures forall i :: 0 <= i < |ps| ==> ps[i].0 == PropertyKeys(ms)[i]
    ensures forall i :: 0 <= i < |ps| ==> Get(JObj(ms), ps[i].0) == Some(ps[i].1)
    ensures forall i :: 0 <= i < |ps| ==> ps[i] in ms
  {
    var ks := PropertyKeys(ms);
    forall i | 0 <= i < |ks|
      ensures Get(JObj(ms), ks[i]).Some?
    {
      assert ks[i] in ks;
    }
    var ps := seq(|ks|, i requires 0 <= i < |ks| => (ks[i], Get(JObj(ms), ks[i]).value));
    forall i | 0 <= i < |ps|
      ensures ps[i] in ms
    {
      var n :| 0 <= n < |ms| && ms[n] == (ks[i], Get(JObj(ms), ks[i]).value)
                 && forall k :: n < k < |ms| ==> ms[k].0 != ks[i];
    }
    ps
  }

  /** `JSON.stringify` of a value, without indentation; an object is
      written property by property. */
  function Stringify(j: Json): string
  {
    match j
    case JNull => "null"
    case JBool(b) => if b then "true" else "false"
    case JNum(n) => IntText(n)
    case JStr(s) => Quote(s)
    case JArr(items) => "[" + Join(seq(|items|, i requires 0 <= i < |items| => Stringify(items[i])), ",") + "]"
    case JObj(members) =>
      var ps := Properties(members);
      "{" + Join(seq(|ps|, i requires 0 <= i < |ps| => Quote(ps[i].0) + ":" + Stringify(ps[i].1)), ",") + "}"
  }

  /** Reads the body of a JSON string literal back: escapes are undone, and
      an unescaped quote or a broken escape is rejected. */
  function Unescape(t: string): (r: Option<string>)
    decreases |t|
  {
    if t == [] then Some([])
    else if t[0] == '"' then None
    else if t[0] != '\\' then
      match Unescape(t[1..]) case Some(rest) => Some([t[0]] + rest) case None => None
    else if |t| < 2 then None
    else
      var e := t[1];
      var simple :=
        if e == '"' then Some('"') else if e == '\\' then Some('\\') else if e == '/' then Some('/')
        else if e == 'b' then Some('\U{8}') else if e == 't' then Some('\t') else if e == 'n' then Some('\n')
        else if e == 'f' then Some('\U{C}') else if e == 'r' then Some('\r') else None;
      if simple.Some? then
        match Unescape(t[2..]) case Some(rest) => Some([simple.value] + rest) case None => None
      else if e == 'u' && |t| >= 6 && t[2] == '0' && t[3] == '0'
              && HexValue(t[4]).Some? && HexValue(t[5]).Some? then
        var code := 16 * HexValue(t[4]).value + HexValue(t[5]).value;
        match Unescape(t[6..]) case Some(rest) => Some([code as char] + rest) case None => None
      else None
  }

  lemma HexRoundTrip(d: nat)
    requires d < 16
    ensures HexValue(HexDigit(d)) == Some(d)
  {
  }

  /** One escaped character comes back as itself, whatever follows. */
  lemma UnescapeChar(c: char, rest: string)
    ensures Unescape(EscapeChar(c) + rest) ==
      (match Unescape(rest) case Some(r) => Some([c] + r) case None => None)
  {
    var t := EscapeChar(c) + rest;
    if c == '"' || c == '\\' || c == '\U{8}' || c == '\t' || c == '\n' || c == '\U{C}' || c == '\r' {
      assert t[2..] == rest;
    } else if c < ' ' {
      var hi, lo := c as int / 16, c as int % 16;
      HexRoundTrip(hi);
      HexRoundTrip(lo);
      assert t[6..] == rest;
      assert (16 * hi + lo) as char == c;
    } else {
      assert t[1..] == rest;
    }
  }

  /** The string literal `JSON.stringify` writes reads back as the string. */
  lemma {:induction false} UnescapeEscapeChars(s: string)
    ensures Unescape(EscapeChars(s)) == Some(s)
  {
    if s != [] {
      UnescapeEscapeChars(s[1..]);
      UnescapeChar(s[0], EscapeChars(s[1..]));
      assert [s[0]] + s[1..] == s;
    }
  }

  /** A string written as JSON is a quoted literal whose body reads back
      as the string. */
  lemma StringifyString(s: string)
    ensures var t := Stringify(JStr(s));
      |t| >= 2 && t[0] == '"' && t[|t| - 1] == '"' && Unescape(t[1..|t| - 1]) == Some(s)
  {
    var t := Stringify(JStr(s));
    assert t[1..|t| - 1] == EscapeChars(s);
    UnescapeEscapeChars(s);
  }

  /** What the panel shows for a reply: the first truthy one of
      `generated_text` and `response` as it is, else a truthy `error` after
      `Error: `, else a string reply itself, else the reply's JSON text. */
  function Content(reply: Json): (c: Json)
    ensures Has(reply, "generated_text") ==> c == Get(reply, "generated_text").value
    ensures !Has(reply, "generated_text") && Has(reply, "response") ==> c == Get(reply, "response").value
    ensures !Has(reply, "generated_text") && !Has(reply, "response") && Has(reply, "error") ==>
      c == JStr("Error: " + ToText(Get(reply, "error").value))
    ensures !Has(reply, "generated_text") && !Has(reply, "response") && !Has(reply, "error") ==>
      c == (if reply.JStr? then reply else JStr(Stringify(reply)))
  {
    if JsTruthy(reply) && Has(reply, "generated_text") then Get(reply, "generated_text").value
    else if JsTruthy(reply) && Has(reply, "response") then Get(reply, "response").value
    else if JsTruthy(reply) && Has(reply, "error") then JStr("Error: " + ToText(Get(reply, "error").value))
    else if reply.JStr? then reply
    else JStr(Stringify(reply))
  }

  /** How the query to the server ends: a parsed body, a status other than
      OK with its status text, or a thrown error with its message. */
  datatype HttpOutcome = Ok(body: Json) | NotOk(statusText: string) | Thrown(message: string)

  /** `queryLLM`: the body, or an object whose `error` is the message. */
  function Query(outcome: HttpOutcome): (r: Json)
    ensures outcome.Ok? ==> r == outcome.body
    ensures outcome.NotOk? ==> Get(r, "error") == Some(JStr("Create Query Failed: " + outcome.statusText))
    ensures outcome.Thrown? ==> Get(r, "error") == Some(JStr(outcome.message))
    ensures !outcome.Ok? ==> !Has(r, "generated_text") && !Has(r, "response")
  {
    match outcome
    case Ok(body) => body
    case NotOk(text) => JObj([("error", JStr("Create Query Failed: " + text))])
    case Thrown(m) => JObj([("error", JStr(m))])
  }

  datatype Role = User | Assistant

  datatype Message = Message(role: Role, content: Json)

  datatype ChatState = ChatState(messages: seq<Message>, input: string, loading: bool)

  const Initial: ChatState := ChatState([], "", false)

  /** `handleSend` up to the query: blank input is ignored; otherwise the
      user's message is shown, the input cleared and the query started. */
  function Send(st: ChatState): (r: (ChatState, Option<string>))
    ensures Trim(st.input) == "" ==> r == (st, None)
    ensures Trim(st.input) != "" ==>
      r == (ChatState(st.messages + [Message(User, JStr(st.input))], "", true), Some(st.input))
  {
    if Trim(st.input) == "" then (st, None)
    else (ChatState(st.messages + [Message(User, JStr(st.input))], "", true), Some(st.input))
  }

  /** The query's reply: one assistant message, and loading ends. A query
      that throws shows a fixed apology. */
  function Answered(st: ChatState, reply: Result<Json, string>): (r: ChatState)
    ensures |r.messages| == |st.messages| + 1 && r.messages[..|st.messages|] == st.messages
    ensures r.messages[|st.messages|].role == Assistant && !r.loading && r.input == st.input
    ensures reply.Success? ==> r.messages[|st.messages|].content == Content(reply.value)
    ensures reply.Failure? ==> r.messages[|st.messages|].content == JStr("Failed to get response.")
  {
    var content := match reply case Success(j) => Content(j) case Failure(_) => JStr("Failed to get response.");
    st.(messages := st.messages + [Message(Assistant, content)], loading := false)
  }

  /** A sent message and its answer add exactly two messages, the user's
      text first and the answer second. */
  lemma {:induction false} ExchangeAddsTwo(st: ChatState, outcome: HttpOutcome)
    requires Trim(st.input) != ""
    ensures var sent := Send(st).0;
      Answered(sent, Success(Query(outcome))).messages
        == st.messages + [Message(User, JStr(st.input)), Message(Assistant, Content(Query(outcome)))]
  {
    var sent := Send(st).0;
    var r := Answered(sent, Success(Query(outcome)));
    assert r.messages == sent.messages + [Message(Assistant, Content(Query(outcome)))];
  }

  /** A failed query shows its error after `Error: ` when there is one. */
  lemma {:induction false} QueryErrorShown(outcome: HttpOutcome)
    requires outcome.NotOk? || (outcome.Thrown? && outcome.message != "")
    ensures var m := if outcome.NotOk? then "Create Query Failed: " + outcome.statusText else outcome.message;
      Content(Query(outcome)) == JStr("Error: " + m)
  {
    var r := Query(outcome);
    assert JsTruthy(r);
  }

  /** A character `JSON.stringify` writes as it is. */
  predicate Plain(c: char)
  {
    c >= ' ' && c != '"' && c != '\\'
  }

  /** Text of plain characters is written unchanged. */
  lemma {:induction false} EscapePlain(s: string)
    requires forall i :: 0 <= i < |s| ==> Plain(s[i])
    ensures EscapeChars(s) == s
  {
    if s != [] {
      EscapePlain(s[1..]);
      assert [s[0]] + s[1..] == s;
    }
  }

  /** A one-member object has exactly that member. */
  lemma GetSingle(k: string, v: Json, key: string)
    ensures Get(JObj([(k, v)]), key) == if k == key then Some(v) else None
  {
    var none: seq<(string, Json)> := [];
    assert [(k, v)][..0] == none;
  }

  /** The JSON text of a one-member object. */
  lemma StringifySingle(k: string, v: Json)
    ensures Stringify(JObj([(k, v)])) == "{" + Quote(k) + ":" + Stringify(v) + "}"
  {
    var ms := [(k, v)];
    SingleProperties(k, v);
    var texts := seq(|ms|, i requires 0 <= i < |ms| => Quote(ms[i].0) + ":" + Stringify(ms[i].1));
    assert texts == [Quote(k) + ":" + Stringify(v)];
  }

  /** Members with distinct keys, none an array index: what a reply
      object usually is. */
  predicate PlainMembers(ms: seq<(string, Json)>)
  {
    && (forall i, j :: 0 <= i < j < |ms| ==> ms[i].0 != ms[j].0)
    && (forall i :: 0 <= i < |ms| ==> !IsIndexKey(ms[i].0))
  }

  /** Parsing such members builds an object with exactly those properties,
      in the same order, so their JSON text is written member by member. */
  lemma PlainProperties(ms: seq<(string, Json)>)
    requires PlainMembers(ms)
    ensures Properties(ms) == ms
  {
    PlainPropertyKeys(ms);
    var ps := Properties(ms);
    forall i | 0 <= i < |ms|
      ensures ps[i] == ms[i]
    {
      var key := ms[i].0;
      var n :| 0 <= n < |ms| && ms[n] == (key, Get(JObj(ms), key).value)
               && forall k :: n < k < |ms| ==> ms[k].0 != key;
      assert n == i;
    }
  }

  /** Such members keep their keys, in order. */
  lemma PlainPropertyKeys(ms: seq<(string, Json)>)
    requires PlainMembers(ms)
    ensures PropertyKeys(ms) == seq(|ms|, i requires 0 <= i < |ms| => ms[i].0)
  {
    var names := seq(|ms|, i requires 0 <= i < |ms| => ms[i].0);
    KeysInOrder(ms);
    NoIndexKeys(names);
    var none: seq<string> := [];
    assert Sort(none) == none;
  }

  /** Of keys none of which is an array index, none is kept as one and
      all are kept as names. */
  lemma {:induction false} NoIndexKeys(ks: seq<string>)
    requires forall i :: 0 <= i < |ks| ==> !IsIndexKey(ks[i])
    ensures Only(ks, true) == [] && Only(ks, false) == ks
  {
    if |ks| > 0 {
      NoIndexKeys(ks[1..]);
      assert [ks[0]] + ks[1..] == ks;
    }
  }

  /** With distinct keys, the keys come in member order. */
  lemma {:induction false} KeysInOrder(ms: seq<(string, Json)>)
    requires forall i, j :: 0 <= i < j < |ms| ==> ms[i].0 != ms[j].0
    ensures Keys(ms) == seq(|ms|, i requires 0 <= i < |ms| => ms[i].0)
  {
    if |ms| > 0 {
      var n := |ms| - 1;
      var front := ms[..n];
      KeysInOrder(front);
      var k := ms[n].0;
      assert forall i :: 0 <= i < |front| ==> front[i].0 != k;
      assert Keys(ms) == Keys(front) + [k];
      var names := seq(|ms|, i requires 0 <= i < |ms| => ms[i].0);
      assert names == seq(|front|, i requires 0 <= i < |front| => front[i].0) + [k];
    }
  }

  /** Of a repeated key the parsed object keeps one property, holding the
      last value. */
  lemma RepeatedKeyKeepsLast()
    ensures Stringify(JObj([("a", JNum(1)), ("a", JNum(2))])) == "{\"a\":2}"
  {
    var ms := [("a", JNum(1)), ("a", JNum(2))];
    RepeatedKeyProperties();
    StringifyOne(ms, "a", JNum(2));
    QuoteA();
    NumTexts();
  }

  lemma RepeatedKeyProperties()
    ensures Properties([("a", JNum(1)), ("a", JNum(2))]) == [("a", JNum(2))]
  {
    var ms := [("a", JNum(1)), ("a", JNum(2))];
    RepeatedKeyKeys();
    assert Get(JObj(ms), "a") == Some(JNum(2));
  }

  lemma RepeatedKeyKeys()
    ensures PropertyKeys([("a", JNum(1)), ("a", JNum(2))]) == ["a"]
  {
    var ms := [("a", JNum(1)), ("a", JNum(2))];
    assert ms[..1][..0] == [] && ms[..1] == [("a", JNum(1))];
    assert Keys(ms[..1]) == ["a"];
    assert Keys(ms) == ["a"];
    NoIndexKeys(["a"]);
    var none: seq<string> := [];
    assert Sort(none) == none;
  }

  /** The JSON text of an object with one property. */
  lemma StringifyOne(ms: seq<(string, Json)>, k: string, v: Json)
    requires Properties(ms) == [(k, v)]
    ensures Stringify(JObj(ms)) == "{" + Join([Quote(k) + ":" + Stringify(v)], ",") + "}"
  {
    var ps := Properties(ms);
    var texts := seq(|ps|, i requires 0 <= i < |ps| => Quote(ps[i].0) + ":" + Stringify(ps[i].1));
    assert texts == [Quote(k) + ":" + Stringify(v)];
  }

  lemma NumTexts()
    ensures Stringify(JNum(1)) == "1" && Stringify(JNum(2)) == "2"
  {
  }

  lemma QuoteA()
    ensures Quote("a") == "\"a\""
  {
    EscapePlain("a");
  }

  /** A key that is an array index is written before the other keys,
      wherever it stood. */
  lemma IndexKeyFirst()
    ensures Stringify(JObj([("b", JNum(1)), ("1", JNum(2))])) == "{\"1\":2,\"b\":1}"
  {
    IndexKeyFirstProperties();
    StringifyPair([("b", JNum(1)), ("1", JNum(2))], "1", JNum(2), "b", JNum(1));
    QuoteOne();
    QuoteB();
    JoinPair("\"1\":2", "\"b\":1", ",");
    NumTexts();
  }

  lemma QuoteOne()
    ensures Quote("1") == "\"1\""
  {
    EscapePlain("1");
  }

  lemma QuoteB()
    ensures Quote("b") == "\"b\""
  {
    EscapePlain("b");
  }

  /** The JSON text of an object with two properties. */
  lemma StringifyPair(ms: seq<(string, Json)>, k1: string, v1: Json, k2: string, v2: Json)
    requires Properties(ms) == [(k1, v1), (k2, v2)]
    ensures Stringify(JObj(ms)) == "{" + Join([Quote(k1) + ":" + Stringify(v1), Quote(k2) + ":" + Stringify(v2)], ",") + "}"
  {
    var ps := Properties(ms);
    var texts := seq(|ps|, i requires 0 <= i < |ps| => Quote(ps[i].0) + ":" + Stringify(ps[i].1));
    assert texts == [Quote(k1) + ":" + Stringify(v1), Quote(k2) + ":" + Stringify(v2)];
  }

  lemma IndexKeyFirstProperties()
    ensures Properties([("b", JNum(1)), ("1", JNum(2))]) == [("1", JNum(2)), ("b", JNum(1))]
  {
    var ms := [("b", JNum(1)), ("1", JNum(2))];
    IndexKeyFirstKeys();
    assert ms[..1] == [("b", JNum(1))];
    GetSingle("b", JNum(1), "b");
    assert Get(JObj(ms), "1") == Some(JNum(2));
    assert Get(JObj(ms), "b") == Some(JNum(1));
  }

  lemma IndexKeyFirstKeys()
    ensures PropertyKeys([("b", JNum(1)), ("1", JNum(2))]) == ["1", "b"]
  {
    var ms := [("b", JNum(1)), ("1", JNum(2))];
    KeysInOrder(ms);
    assert Keys(ms) == ["b", "1"];
    OneIsIndex();
    assert ["b", "1"][1..] == ["1"] && ["1"][1..] == [];
    assert Only(["b", "1"], true) == ["1"] && Only(["b", "1"], false) == ["b"];
    assert Sort(["1"]) == ["1"];
  }

  lemma OneIsIndex()
    ensures IsIndexKey("1") && !IsIndexKey("b")
  {
    assert DecimalValue("1") == 1 by {
      assert "1"[..0] == "";
    }
    assert !IsDigit('b');
  }

  /** A one-member object has that one key. */
  lemma SingleKeys(k: string, v: Json)
    ensures PropertyKeys([(k, v)]) == [k]
  {
    var ms := [(k, v)];
    assert ms[..0] == [];
    assert Keys(ms) == [k];
    var none: seq<string> := [];
    assert Only(none, true) == none && Only(none, false) == none;
    assert [k][1..] == none;
    assert Insert(k, none) == [k];
    assert Sort(none) == none && Sort([k]) == [k];
    assert Only([k], IsIndexKey(k)) == [k] && Only([k], !IsIndexKey(k)) == none;
    if IsIndexKey(k) {
      assert PropertyKeys(ms) == Sort([k]) + none;
    } else {
      assert PropertyKeys(ms) == Sort(none) + [k];
    }
  }

  /** A one-member object has that one property. */
  lemma SingleProperties(k: string, v: Json)
    ensures Properties([(k, v)]) == [(k, v)]
  {
    var ms := [(k, v)];
    SingleKeys(k, v);
    GetSingle(k, v, k);
  }

  /** A thrown error without a message is not truthy, so the panel shows
      the JSON text of the whole error object. */
  lemma {:induction false} EmptyErrorShownAsJson()
    ensures Content(Query(Thrown(""))) == JStr("{\"error\":\"\"}")
  {
    var r := JObj([("error", JStr(""))]);
    assert Query(Thrown("")) == r;
    FalsySingleShownAsJson("error", JStr(""));
    EmptyErrorText();
  }

  /** An object whose one member is falsy offers nothing to show, so its
      JSON text is shown. */
  lemma FalsySingleShownAsJson(k: string, v: Json)
    requires !JsTruthy(v)
    ensures Content(JObj([(k, v)])) == JStr(Stringify(JObj([(k, v)])))
  {
    GetSingle(k, v, "generated_text");
    GetSingle(k, v, "response");
    GetSingle(k, v, "error");
  }

  lemma EmptyErrorText()
    ensures Stringify(JObj([("error", JStr(""))])) == "{\"error\":\"\"}"
  {
    StringifySingle("error", JStr(""));
    QuoteError();
    assert Stringify(JStr("")) == "\"\"";
  }

  lemma QuoteError()
    ensures Quote("error") == "\"error\""
  {
    EscapePlain("error");
  }

  /** A string reply is shown verbatim, empty or not. */
  lemma StringReplyVerbatim(s: string)
    ensures Content(JStr(s)) == JStr(s)
  {
  }

  /** `generated_text` wins over `response` and `error` whenever it is
      truthy, so the order of the members does not matter. */
  lemma GeneratedTextFirst(text: string, other: Json)
    requires text != ""
    ensures Content(JObj([("response", other), ("error", other), ("generated_text", JStr(text))])) == JStr(text)
    ensures Content(JObj([("generated_text", JStr(text)), ("response", other), ("error", other)])) == JStr(text)
  {
    var ms := [("generated_text", JStr(text)), ("response", other), ("error", other)];
    assert ms[..2][..1] == [("generated_text", JStr(text))];
    assert Get(JObj(ms[..2]), "generated_text") == Some(JStr(text));
    assert Get(JObj(ms), "generated_text") == Some(JStr(text));
  }
}

=== FILE: file_manager.dfy ===
/** The remote file browser (`FileManager.tsx`): the directory shown, the
    path typed in the address field, the listing, an error line, a busy
    flag and the file open in the editor. Paths are built by string joining
    and handed to the server actions unnormalised. */
module FileManager {

  import opened Base
  import Actions
  import LlmActions

  datatype Editing = Editing(path: string, content: string)

  datatype Browser = Browser(currentPath: string, inputPath: string, files: seq<Actions.FileEntry>,
                             error: string, loading: bool, editing: Option<Editing>)

  /** Server actions the browser starts. */
  datatype Request = List(path: string) | Read(path: string) | Delete(path: string)

  const Initial: Browser := Browser("~", "~", [], "", true, None)

  /** The path of an entry of the current directory: a name under `/` is
      prefixed with `/` alone, otherwise with the directory and `/`. */
  function ChildPath(current: string, name: string): (p: string)
    ensures current == "/" ==> p == "/" + name
    ensures current != "/" ==> p == current + "/" + name
  {
    if current == "/" then "/" + name else current + "/" + name
  }

  /** "Up" appends `/..`, even at the root. */
  function UpPath(current: string): (p: string)
    ensures |p| == |current| + 3 && p[..|current|] == current
  {
    current + "/.."
  }

  /** `loadFiles` up to the call: clear the error, show the requested path
      and list it. */
  function Load(b: Browser, path: string): (r: (Browser, Request))
    ensures r.0 == b.(loading := true, error := "", inputPath := path)
    ensures r.1 == List(path)
  {
    (b.(loading := true, error := "", inputPath := path), List(path))
  }

  /** The listing's reply: on success the files are replaced and, when the
      server reported a directory, both paths become it; on failure only
      the error changes. */
  function Loaded(b: Browser, reply: Actions.Listing): (r: Browser)
    ensures reply.Listed? ==> r.files == reply.files
    ensures reply.Listed? && reply.currentPath != "" ==>
      r.currentPath == reply.currentPath && r.inputPath == reply.currentPath
    ensures reply.Listed? && reply.currentPath == "" ==> r.currentPath == b.currentPath && r.inputPath == b.inputPath
    ensures reply.ListFailed? ==> r == b.(error := OrElse(reply.error, "Failed to list files"), loading := false)
    ensures !r.loading
  {
    match reply
    case Listed(files, cp) =>
      if cp != "" then b.(files := files, currentPath := cp, inputPath := cp, loading := false)
      else b.(files := files, loading := false)
    case ListFailed(e) => b.(error := OrElse(e, "Failed to list files"), loading := false)
  }

  /** `handleNavigate`: a directory is listed, a file is read. */
  function Navigate(b: Browser, entry: Actions.FileEntry): (r: (Browser, Request))
    ensures entry.isDirectory ==> r == Load(b, ChildPath(b.currentPath, entry.name))
    ensures !entry.isDirectory ==> r == (b.(error := ""), Read(ChildPath(b.currentPath, entry.name)))
  {
    var path := ChildPath(b.currentPath, entry.name);
    if entry.isDirectory then Load(b, path) else (b.(error := ""), Read(path))
  }

  /** The reply of reading a file: the editor opens only on success. */
  function Opened(b: Browser, path: string, reply: Actions.ReadReply): (r: Browser)
    ensures r.editing.Some? <==> reply.Content? || b.editing.Some?
    ensures reply.Content? ==> r.editing == Some(Editing(path, reply.text)) && r.error == b.error
    ensures reply.ReadFailed? ==> r == b.(error := OrElse(reply.error, "Failed to read file"))
  {
    match reply
    case Content(text) => b.(editing := Some(Editing(path, text)))
    case ReadFailed(e) => b.(error := OrElse(e, "Failed to read file"))
  }

  /** `handleUp`. */
  function Up(b: Browser): (r: (Browser, Request))
    ensures r == Load(b, UpPath(b.currentPath))
  {
    Load(b, UpPath(b.currentPath))
  }

  /** The address field submitted. */
  function GoTo(b: Browser): (r: (Browser, Request))
    ensures r == Load(b, b.inputPath)
  {
    Load(b, b.inputPath)
  }

  /** `handleDelete` once confirmed: the same path as navigation would use.
      It also yields the directory shown at the click, which the reply
      lists again. */
  function DeleteEntry(b: Browser, entry: Actions.FileEntry): (r: (Browser, Request, string))
    ensures r.1 == Delete(ChildPath(b.currentPath, entry.name)) && r.0 == b.(loading := true)
    ensures r.2 == b.currentPath
  {
    (b.(loading := true), Delete(ChildPath(b.currentPath, entry.name)), b.currentPath)
  }

  /** The reply of a deletion: success lists `dir`, the directory shown
      when the delete was clicked, again, wherever the browser is by then;
      failure only sets the error. */
  function Deleted(b: Browser, dir: string, reply: Actions.Status): (r: (Browser, Option<Request>))
    ensures reply.Done? ==> r.1 == Some(List(dir)) && r.0 == Load(b, dir).0
    ensures reply.Failed? ==> r == (b.(error := OrElse(reply.error, "Failed to delete file"), loading := false), None)
  {
    match reply
    case Done => var (nb, req) := Load(b, dir); (nb, Some(req))
    case Failed(e) => (b.(error := OrElse(e, "Failed to delete file"), loading := false), None)
  }

  /** Going up while a delete is pending does not change what the delete's
      success lists: the directory of the click, not the one shown when
      the reply arrives. */
  lemma DeleteRelistsClickDirectory(b: Browser, entry: Actions.FileEntry, parent: Actions.Listing)
    ensures var (pending, _, dir) := DeleteEntry(b, entry);
      var moved := Loaded(Up(pending).0, parent);
      Deleted(moved, dir, Actions.Done).1 == Some(List(b.currentPath))
  {
  }

  /** Delete targets exactly the path that opening the entry would use. */
  lemma DeleteMatchesNavigate(b: Browser, entry: Actions.FileEntry)
    ensures DeleteEntry(b, entry).1.path == Navigate(b, entry).1.path
  {
  }

  /** The entry's own name is the last segment of its path, so the path
      names the entry the listing showed, whatever the current directory. */
  lemma ChildPathNamesEntry(current: string, name: string)
    requires name != [] && '/' !in name
    ensures LlmActions.Basename(ChildPath(current, name)) == name
  {
    if current == "/" {
      LlmActions.BasenameOfChild("", name);
      assert "" + "/" + name == "/" + name;
    } else {
      LlmActions.BasenameOfChild(current, name);
    }
  }

  /** A failed listing leaves the browser where it was. */
  lemma FailedListingStays(b: Browser, path: string, e: string)
    ensures var loaded := Loaded(Load(b, path).0, Actions.ListFailed(e));
      loaded.currentPath == b.currentPath && loaded.files == b.files && loaded.error != ""
  {
  }

  /** Going up from the root asks for `//..`, which the server resolves;
      the browser does not stop at the root. */
  lemma UpFromRoot(b: Browser)
    requires b.currentPath == "/"
    ensures Up(b).1 == List("//..")
  {
  }
}

=== FILE: llm_actions.dfy ===
/** The server actions behind the LLM page (`llm-actions.ts`): submitting
    the model-serving batch job for an allowed model, reading the job's state
    and node, the process-wide tunnel handle, and the Hugging Face cache
    listing and deletion. Commands run through the same `Shell` as the other
    server actions. */
module LlmActions {

  import opened Base
  import opened Text
  import Ssh
  import opened Actions
  import TunnelScript

  /** The models the server may be started with. */
  const AllowedModels: seq<string> := [
    "meta-llama/Meta-Llama-3-8B-Instruct",
    "mistralai/Mistral-7B-Instruct-v0.2",
    "google/gemma-7b-it",
    "google/gemma-3-1b-it"
  ]

  const DefaultModel: string := "meta-llama/Meta-Llama-3-8B-Instruct"

  const CacheDir: string := "$HOME/.cache/huggingface/hub"

  // ---------------------------------------------------------- submitLLMJob

  /** The serving job's batch file around the one place the model id is
      written (the `HF_MODEL_ID` assignment); its text is a constant of the
      program and is taken here as given. */
  datatype ScriptTemplate = ScriptTemplate(head: string, tail: string)

  function LlmScript(t: ScriptTemplate, modelId: string): (script: string)
    ensures |script| == |t.head| + |modelId| + |t.tail|
    ensures script[|t.head|..|t.head| + |modelId|] == modelId
  {
    t.head + modelId + t.tail
  }

  function LlmJobFileName(timestamp: nat): string
  {
    "llm_job_" + Decimal(timestamp) + ".slurm"
  }

  /** `submitLLMJob`: a model outside the allow-list fails with
      `Invalid model selection` before any command runs; otherwise one
      here-document submission, read back exactly as `submitJob` reads it. */
  function SubmitLlmJob(shell: Shell, t: ScriptTemplate, modelId: string, timestamp: nat): (c: Call<Submission>)
    ensures modelId !in AllowedModels ==> c == Call(SubmitFailed("Invalid model selection"), [])
    ensures modelId in AllowedModels ==>
      c.commands == [HeredocSubmit(LlmJobFileName(timestamp), LlmScript(t, modelId))]
      && c.reply == InterpretSubmission(shell(c.commands[0]))
    ensures c.commands != [] <==> modelId in AllowedModels
  {
    if modelId !in AllowedModels then Call(SubmitFailed("Invalid model selection"), [])
    else
      var cmd := HeredocSubmit(LlmJobFileName(timestamp), LlmScript(t, modelId));
      Call(InterpretSubmission(shell(cmd)), [cmd])
  }

  /** The default model is on the allow-list, so the default call reaches
      the cluster. */
  lemma DefaultModelAllowed()
    ensures DefaultModel in AllowedModels
    ensures |AllowedModels| == 4
  {
  }

  /** A submission the cluster accepts yields the job number it printed,
      for the LLM job as for any other. */
  lemma LlmSubmissionJobId(shell: Shell, t: ScriptTemplate, modelId: string, timestamp: nat, n: nat)
    requires modelId in AllowedModels
    requires var cmd := HeredocSubmit(LlmJobFileName(timestamp), LlmScript(t, modelId));
      shell(cmd) == Success(Ssh.CommandResult(BatchPrefix + Decimal(n) + "\n", "", Some(0)))
    ensures SubmitLlmJob(shell, t, modelId, timestamp).reply == Submitted(Some(Decimal(n)))
  {
    AcceptedSubmission(n);
  }

  // ------------------------------------------------------ checkLLMJobStatus

  /** A job's state and the node it runs on (`None` stands for both `null`
      and `undefined`), or why it could not be found. */
  datatype JobStatus = Known(state: string, node: Option<string>) | Unknown(error: string)

  function SqueueCommand(jobId: string): string
  {
    "squeue -j " + jobId + " --noheader --format=\"%T %N\""
  }

  function SacctCommand(jobId: string): string
  {
    "sacct -j " + jobId + " --noheader --format=\"State\""
  }

  /** The node placeholder `squeue` prints for a job that has none yet. */
  const NoNode: string := "(N/A)"

  /** A successful `squeue` line: no output means the job has left the
      queue; otherwise the first two tokens are the state and the node. */
  function QueueStatus(stdout: string): (s: JobStatus)
    ensures s.Known?
    ensures Trim(stdout) == "" ==> s == Known("COMPLETED", None)
    ensures Trim(stdout) != "" ==> s.state == SplitWs(Trim(stdout))[0]
  {
    var out := Trim(stdout);
    if out == "" then Known("COMPLETED", None)
    else
      var p := SplitWs(out);
      Known(p[0], if |p| > 1 && p[1] != NoNode then Some(p[1]) else None)
  }

  /** The state read from the queue is one word, and so is a node, which
      is never the placeholder. */
  lemma QueueStatusWords(stdout: string)
    ensures IsWord(QueueStatus(stdout).state)
    ensures QueueStatus(stdout).node.Some? ==>
      IsWord(QueueStatus(stdout).node.value) && QueueStatus(stdout).node.value != NoNode
  {
    var out := Trim(stdout);
    if out != "" {
      var p := SplitWs(out);
      SplitWsTrimmed(out);
      assert QueueStatus(stdout) == Known(p[0], if |p| > 1 && p[1] != NoNode then Some(p[1]) else None);
      assert IsWord(p[0]) && (|p| > 1 ==> IsWord(p[1]));
    } else {
      assert QueueStatus(stdout) == Known("COMPLETED", None);
      CompletedIsWord();
    }
  }

  lemma CompletedIsWord()
    ensures IsWord("COMPLETED")
  {
  }

  /** The `sacct` fallback: the first token of its trimmed output, with no
      node, or `Job not found` when it printed nothing. */
  function HistoryStatus(stdout: string): (s: JobStatus)
    ensures s.Unknown? <==> Trim(stdout) == ""
    ensures s.Unknown? ==> s.error == "Job not found"
    ensures s.Known? ==> s.node.None? && IsWord(s.state)
  {
    var t := Trim(stdout);
    if t == "" then Unknown("Job not found")
    else
      SplitWsTrimmed(t);
      Known(SplitWs(t)[0], None)
  }

  /** `checkLLMJobStatus`: `squeue` first; only a non-zero (or missing) exit
      code falls back to `sacct`, whose exit code is not looked at. */
  function CheckStatus(shell: Shell, jobId: string): (c: Call<JobStatus>)
    ensures |c.commands| >= 1 && c.commands[0] == SqueueCommand(jobId)
    ensures shell(SqueueCommand(jobId)).Failure? ==>
      c == Call(Unknown(shell(SqueueCommand(jobId)).error), [SqueueCommand(jobId)])
    ensures shell(SqueueCommand(jobId)).Success? && ExitedZero(shell(SqueueCommand(jobId)).value) ==>
      c == Call(QueueStatus(shell(SqueueCommand(jobId)).value.stdout), [SqueueCommand(jobId)])
    ensures shell(SqueueCommand(jobId)).Success? && !ExitedZero(shell(SqueueCommand(jobId)).value) ==>
      c.commands == [SqueueCommand(jobId), SacctCommand(jobId)]
      && c.reply == (match shell(SacctCommand(jobId))
                     case Failure(m) => Unknown(m)
                     case Success(h) => HistoryStatus(h.stdout))
    ensures c.reply.Known? && c.reply.node.Some? ==> c.reply.node.value != NoNode
  {
    var q := SqueueCommand(jobId);
    match shell(q)
    case Failure(m) => Call(Unknown(m), [q])
    case Success(r) =>
      if ExitedZero(r) then Call(QueueStatus(r.stdout), [q])
      else
        var h := SacctCommand(jobId);
        match shell(h)
        case Failure(m) => Call(Unknown(m), [q, h])
        case Success(hr) => Call(HistoryStatus(hr.stdout), [q, h])
  }

  /** A queue line holding the state alone (a pending job whose node
      column is empty), however padded, reads back as that state with no
      node: the second piece of the split is `undefined`. */
  lemma QueueStatusOfWord(state: string, pad: string, tail: string)
    requires IsWord(state) && AllSpace(pad) && AllSpace(tail)
    ensures QueueStatus(pad + state + tail) == Known(state, None)
  {
    assert JoinGaps([state], []) == state;
    FieldsOfPadded([state], [], pad, tail);
  }

  /** A queue line `<state> <node>`, however padded at its ends and
      between its two columns, reads back as that state and node unless
      the node is the placeholder. */
  lemma QueueStatusOfLine(state: string, gap: string, node: string, pad: string, tail: string)
    requires IsWord(state) && Gap(gap) && IsWord(node) && AllSpace(pad) && AllSpace(tail)
    ensures QueueStatus(pad + state + gap + node + tail)
      == Known(state, if node == NoNode then None else Some(node))
  {
    var ws := [state, node];
    assert JoinGaps(ws, [gap]) == state + gap + node by {
      assert JoinGaps(ws[1..], [gap][1..]) == node;
    }
    assert pad + state + gap + node + tail == pad + JoinGaps(ws, [gap]) + tail;
    FieldsOfPadded(ws, [gap], pad, tail);
    JoinGapsEdges(ws, [gap]);
  }

  // ------------------------------------------------------------ the tunnel

  /** The process-wide tunnel handle: the process id of the running helper
      process, if any. */
  type Handle = Option<nat>

  /** What the spawned helper does, as the server sees it. */
  datatype TunnelEvent = StdoutChunk(data: string) | StderrChunk(data: string) | Exited(code: Option<int>)

  datatype TunnelReply = Started(message: string) | StartFailed(error: string)

  /** The text whose arrival in a single stdout chunk means the tunnel is up. */
  const ListeningMarker: string := "Tunnel listening"

  /** The local and remote port of the serving application. */
  const AppPort: string := "5000"

  /** `${code}` for a close code that may be `null`. */
  function CodeText(code: Option<int>): string
  {
    match code
    case Some(i) => IntText(i)
    case None => "null"
  }

  /** The helper's command-line arguments after the script path: missing
      secrets are passed as the sentinel `null`. */
  function TunnelArgs(creds: Ssh.Credentials, node: string): (args: seq<string>)
    ensures |args| == 7
  {
    [creds.host, creds.username, OptOrElse(creds.password, "null"), OptOrElse(creds.privateKey, "null"),
     node, AppPort, AppPort]
  }

  /** How the start request settles: on the first stdout chunk that holds
      the marker, or on the first exit with a code other than 0, whose
      message carries the output gathered so far (both streams, in order).
      `None` means it has not settled; an exit with code 0 before readiness
      is not specified. */
  function Settle(events: seq<TunnelEvent>, output: string): (r: Option<TunnelReply>)
    ensures r.Some? && r.value.Started? ==> r.value.message == "Tunnel started"
    ensures r.Some? && r.value.StartFailed? ==> |r.value.error| >= |output|
  {
    if |events| == 0 then None
    else match events[0]
      case StdoutChunk(d) =>
        if Contains(d, ListeningMarker) then Some(Started("Tunnel started"))
        else Settle(events[1..], output + d)
      case StderrChunk(d) => Settle(events[1..], output + d)
      case Exited(code) =>
        if code != Some(0) then
          Some(StartFailed("Tunnel process exited with code " + CodeText(code) + ". Output: " + output))
        else None
  }

  /** An event that can settle the start request. */
  predicate Decisive(e: TunnelEvent)
  {
    (e.StdoutChunk? && Contains(e.data, ListeningMarker)) || (e.Exited? && e.code != Some(0))
  }

  /** The request only settles on a decisive event: a marker split across
      two chunks, or stderr output alone, never starts the tunnel. */
  lemma {:induction false} SettleNeedsDecisive(events: seq<TunnelEvent>, output: string)
    requires forall i :: 0 <= i < |events| ==> !Decisive(events[i])
    ensures Settle(events, output) == None
  {
    if |events| > 0 {
      assert !Decisive(events[0]);
      assert forall i :: 0 <= i < |events[1..]| ==> events[1..][i] == events[i + 1];
      match events[0]
      case StdoutChunk(d) => SettleNeedsDecisive(events[1..], output + d);
      case StderrChunk(d) => SettleNeedsDecisive(events[1..], output + d);
      case Exited(code) =>
    }
  }

  /** The result of `startTunnelAction`: its reply (if it settled), the
      handle afterwards, and the helper's arguments if one was spawned. */
  datatype TunnelStart = TunnelStart(reply: Option<TunnelReply>, handle: Handle, spawned: Option<seq<string>>)

  predicate ExitIn(events: seq<TunnelEvent>)
  {
    exists i :: 0 <= i < |events| && events[i].Exited?
  }

  /** `startTunnelAction`: with a handle already held, success without
      spawning; otherwise spawn the helper with process id `pid`, hold its
      handle from that moment, and drop it when the helper exits. */
  function StartTunnel(handle: Handle, pid: nat, creds: Ssh.Credentials, node: string,
                       events: seq<TunnelEvent>): (s: TunnelStart)
    ensures handle.Some? ==> s == TunnelStart(Some(Started("Tunnel already running")), handle, None)
    ensures handle.None? ==> s.spawned == Some(TunnelArgs(creds, node))
    ensures handle.None? ==> (s.handle == None <==> ExitIn(events))
    ensures handle.None? ==> s.handle == None || s.handle == Some(pid)
    ensures handle.None? ==> s.reply == Settle(events, "")
  {
    if handle.Some? then TunnelStart(Some(Started("Tunnel already running")), handle, None)
    else
      var h: Handle := if ExitIn(events) then None else Some(pid);
      TunnelStart(Settle(events, ""), h, Some(TunnelArgs(creds, node)))
  }

  /** `stopTunnelAction`: always succeeds and leaves no handle; reports the
      process it killed, if any. */
  function StopTunnel(handle: Handle): (r: (Handle, Option<nat>))
    ensures r.0 == None
    ensures r.1 == handle
  {
    (None, handle)
  }

  /** Stopping twice kills nothing the second time. */
  lemma StopIdempotent(handle: Handle)
    ensures StopTunnel(StopTunnel(handle).0) == (None, None)
    ensures StopTunnel(StopTunnel(handle).0).0 == StopTunnel(handle).0
  {
  }

  /** Starting while a tunnel runs changes nothing and spawns nothing;
      stopping then starting spawns again. */
  lemma StartNeedsNoHandle(handle: Handle, pid: nat, creds: Ssh.Credentials, node: string, events: seq<TunnelEvent>)
    ensures StartTunnel(handle, pid, creds, node, events).spawned.None? <==> handle.Some?
    ensures StartTunnel(StopTunnel(handle).0, pid, creds, node, events).spawned == Some(TunnelArgs(creds, node))
  {
  }

  /** A helper that prints its listening line in one chunk settles the start
      as success; a helper that first exits with a non-zero code settles it
      as failure carrying the code and what it printed. */
  lemma {:induction false} SettleQuietThenListening(quiet: seq<string>, line: string, rest: seq<TunnelEvent>, acc: string)
    requires forall i :: 0 <= i < |quiet| ==> !Contains(quiet[i], ListeningMarker)
    requires Contains(line, ListeningMarker)
    ensures Settle(Chunks(quiet) + [StdoutChunk(line)] + rest, acc) == Some(Started("Tunnel started"))
  {
    var evs := Chunks(quiet) + [StdoutChunk(line)] + rest;
    if |quiet| > 0 {
      assert evs[0] == StdoutChunk(quiet[0]);
      assert evs[1..] == Chunks(quiet[1..]) + [StdoutChunk(line)] + rest;
      SettleQuietThenListening(quiet[1..], line, rest, acc + quiet[0]);
    } else {
      assert evs[0] == StdoutChunk(line);
    }
  }

  /** The events of a sequence of stdout chunks. */
  function Chunks(data: seq<string>): (evs: seq<TunnelEvent>)
    ensures |evs| == |data|
    ensures forall i :: 0 <= i < |data| ==> evs[i] == StdoutChunk(data[i])
  {
    if |data| == 0 then [] else [StdoutChunk(data[0])] + Chunks(data[1..])
  }

  /** Concatenation of strings. */
  function Concat(parts: seq<string>): string
  {
    if |parts| == 0 then "" else parts[0] + Concat(parts[1..])
  }

  /** A failed exit after quiet output reports the whole output. */
  lemma {:induction false} SettleQuietThenExit(quiet: seq<string>, code: int, acc: string)
    requires forall i :: 0 <= i < |quiet| ==> !Contains(quiet[i], ListeningMarker)
    requires code != 0
    ensures Settle(Chunks(quiet) + [Exited(Some(code))], acc)
      == Some(StartFailed("Tunnel process exited with code " + IntText(code) + ". Output: " + acc + Concat(quiet)))
  {
    var evs := Chunks(quiet) + [Exited(Some(code))];
    if |quiet| > 0 {
      assert evs[0] == StdoutChunk(quiet[0]);
      assert evs[1..] == Chunks(quiet[1..]) + [Exited(Some(code))];
      assert Settle(evs, acc) == Settle(evs[1..], acc + quiet[0]);
      SettleQuietThenExit(quiet[1..], code, acc + quiet[0]);
      var prefix := "Tunnel process exited with code " + IntText(code) + ". Output: ";
      assert Concat(quiet) == quiet[0] + Concat(quiet[1..]);
      assert prefix + (acc + quiet[0]) + Concat(quiet[1..]) == prefix + acc + Concat(quiet);
    } else {
      assert evs == [Exited(Some(code))];
      assert Concat(quiet) == "";
      var m := "Tunnel process exited with code " + IntText(code) + ". Output: " + acc;
      assert Settle(evs, acc) == Some(StartFailed(m));
      assert m + Concat(quiet) == m;
    }
  }

  /** The output the server gathers from some events: the data of every
      stdout and stderr chunk, in the order they arrived. */
  function Gathered(events: seq<TunnelEvent>): string
  {
    if |events| == 0 then ""
    else (if events[0].Exited? then "" else events[0].data) + Gathered(events[1..])
  }

  /** A helper that prints on either stream, never the marker, and then
      exits with any code but 0 (a `null` code included) settles the start
      as failure whose message carries the code and everything it printed,
      after what was gathered before. */
  lemma {:induction false} SettleOutputThenExit(prefix: seq<TunnelEvent>, code: Option<int>, acc: string)
    requires forall i :: 0 <= i < |prefix| ==> !Decisive(prefix[i]) && !prefix[i].Exited?
    requires code != Some(0)
    ensures Settle(prefix + [Exited(code)], acc)
      == Some(StartFailed("Tunnel process exited with code " + CodeText(code) + ". Output: " + acc + Gathered(prefix)))
  {
    var evs := prefix + [Exited(code)];
    var head := "Tunnel process exited with code " + CodeText(code) + ". Output: ";
    if |prefix| > 0 {
      assert !Decisive(prefix[0]) && !prefix[0].Exited?;
      assert evs[0] == prefix[0];
      assert evs[1..] == prefix[1..] + [Exited(code)];
      assert forall i :: 0 <= i < |prefix[1..]| ==> prefix[1..][i] == prefix[i + 1];
      var d := prefix[0].data;
      assert Settle(evs, acc) == Settle(evs[1..], acc + d);
      SettleOutputThenExit(prefix[1..], code, acc + d);
      assert Gathered(prefix) == d + Gathered(prefix[1..]);
      assert head + (acc + d) + Gathered(prefix[1..]) == head + acc + Gathered(prefix);
    } else {
      assert evs == [Exited(code)];
      assert head + acc + Gathered(prefix) == head + acc;
    }
  }

  /** Output on stderr followed by a close by a signal (no numeric code,
      as when the helper is stopped while starting) fails with `code null`
      and that output. An SSH error alone is only logged by the helper,
      which then exits with code 0 and so never settles the start. */
  lemma StderrThenKilled(err: string)
    ensures Settle([StderrChunk(err), Exited(None)], "")
      == Some(StartFailed("Tunnel process exited with code null. Output: " + err))
  {
    var prefix := [StderrChunk(err)];
    assert [StderrChunk(err), Exited(None)] == prefix + [Exited(None)];
    SettleOutputThenExit(prefix, None, "");
    assert Gathered(prefix[1..]) == "";
    assert Gathered(prefix) == err;
    assert CodeText(None) == "null";
    assert "Tunnel process exited with code " + CodeText(None) + ". Output: " + "" + err
        == "Tunnel process exited with code null. Output: " + err;
  }

  // ---------------------------------------------- the handle over time

  /** What happens to the process-wide handle across requests: a start
      request that would spawn helper `pid`, a stop request, or the close
      of helper `pid` -- any helper, also one that an earlier stop already
      killed. */
  datatype HandleEvent = StartRequested(pid: nat) | StopRequested | HelperClosed(pid: nat)

  /** The handle and the helpers spawned, killed and closed so far. */
  datatype Helpers = Helpers(handle: Handle, spawned: seq<nat>, killed: seq<nat>, closed: seq<nat>)

  const NoHelpers: Helpers := Helpers(None, [], [], [])

  /** One event: a start spawns only without a handle, a stop kills the
      held helper, and every close clears the handle, whichever helper
      it belongs to. */
  function HandleStep(h: Helpers, e: HandleEvent): (next: Helpers)
    ensures e.HelperClosed? ==> next.handle == None
    ensures h.spawned <= next.spawned && h.killed <= next.killed
  {
    match e
    case StartRequested(pid) =>
      if h.handle.Some? then h
      else h.(handle := Some(pid), spawned := h.spawned + [pid])
    case StopRequested =>
      var (handle, killed) := StopTunnel(h.handle);
      h.(handle := handle, killed := h.killed + (if killed.Some? then [killed.value] else []))
    case HelperClosed(pid) =>
      h.(handle := None, closed := h.closed + [pid])
  }

  function HandleRun(events: seq<HandleEvent>): Helpers
  {
    if |events| == 0 then NoHelpers else HandleStep(HandleRun(events[..|events| - 1]), events[|events| - 1])
  }

  /** A held handle is always the helper spawned last. */
  lemma {:induction false} HandleIsLastSpawned(events: seq<HandleEvent>)
    ensures var h := HandleRun(events);
      h.handle.Some? ==> |h.spawned| > 0 && h.handle.value == h.spawned[|h.spawned| - 1]
  {
    if |events| > 0 {
      HandleIsLastSpawned(events[..|events| - 1]);
    }
  }

  /** Stop, start again, and the first helper's late close: the handle is
      cleared while the second helper still runs, so the next stop kills
      nothing and the next start spawns a third helper beside it. */
  lemma StaleCloseOrphansHelper(p1: nat, p2: nat, p3: nat)
    ensures var h := HandleRun([StartRequested(p1), StopRequested, StartRequested(p2), HelperClosed(p1),
                                StopRequested, StartRequested(p3)]);
      && h.spawned == [p1, p2, p3]
      && h.killed == [p1]
      && h.closed == [p1]
      && h.handle == Some(p3)
  {
    var es := [StartRequested(p1), StopRequested, StartRequested(p2), HelperClosed(p1),
               StopRequested, StartRequested(p3)];
    assert es[..1][..0] == [];
    assert es[..2][..1] == es[..1] && es[..3][..2] == es[..2] && es[..4][..3] == es[..3];
    assert es[..5][..4] == es[..4] && es[..6][..5] == es[..5] && es[..6] == es;
    assert HandleRun(es[..1]) == Helpers(Some(p1), [p1], [], []);
    assert HandleRun(es[..2]) == Helpers(None, [p1], [p1], []);
    assert HandleRun(es[..3]) == Helpers(Some(p2), [p1, p2], [p1], []);
    assert HandleRun(es[..4]) == Helpers(None, [p1, p2], [p1], [p1]);
    assert HandleRun(es[..5]) == Helpers(None, [p1, p2], [p1], [p1]);
  }

  /** The arguments the server passes are accepted by the helper script,
      which connects on port 22 to the cluster host and forwards local port
      5000 to port 5000 on the node; the `null` sentinel means "no secret". */
  lemma TunnelArgsAccepted(creds: Ssh.Credentials, node: string)
    requires creds.host != "" && creds.username != "" && node != ""
    ensures var l := TunnelScript.ParseArgs(TunnelArgs(creds, node));
      && l.Start?
      && l.config == TunnelScript.SshConfig(creds.host, 22, creds.username,
           if TunnelScript.Provided(creds.password) then creds.password else None,
           if TunnelScript.Provided(creds.privateKey)
           then Some(TunnelScript.UnescapeNewlines(creds.privateKey.value)) else None)
      && l.remoteHost == node && l.localPort == AppPort && l.remotePort == AppPort
  {
  }

  /** The port written as text reads back as 5000. */
  lemma AppPortValue()
    ensures TunnelScript.ParseInt(AppPort) == Some(5000)
  {
    DecimalAppPort();
    TunnelScript.ParseIntDecimal(5000);
  }

  lemma DecimalAppPort()
    ensures Decimal(5000) == AppPort
  {
    assert Decimal(5) == "5";
    assert Decimal(50) == "50";
    assert Decimal(500) == "500";
  }

  /** With the server's arguments, the helper listens on port 5000 and
      forwards every client to port 5000 of the node. */
  lemma TunnelPorts(creds: Ssh.Credentials, node: string, events: seq<TunnelScript.ScriptEvent>)
    requires creds.host != "" && creds.username != "" && node != ""
    ensures var l := TunnelScript.ParseArgs(TunnelArgs(creds, node));
      && l.Start?
      && (forall i :: 0 <= i < |TunnelScript.Run(l, events).listens| ==>
            TunnelScript.Run(l, events).listens[i] == Some(5000))
      && (forall i :: 0 <= i < |TunnelScript.Run(l, events).forwards| ==>
            TunnelScript.Run(l, events).forwards[i] == (node, Some(5000)))
  {
    var l := TunnelScript.ParseArgs(TunnelArgs(creds, node));
    TunnelArgsAccepted(creds, node);
    AppPortValue();
    TunnelScript.PortsParsed(l, events);
  }

  /** The line the helper prints once listening settles the start. */
  lemma ListeningLineStartsTunnel(creds: Ssh.Credentials, node: string)
    ensures Settle([StdoutChunk(TunnelScript.ListeningLine(AppPort, node, AppPort) + "\n")], "")
      == Some(Started("Tunnel started"))
  {
    var line := TunnelScript.ListeningLine(AppPort, node, AppPort);
    TunnelScript.ListeningLineAnnounces(AppPort, node, AppPort);
    ContainsIff(line, ListeningMarker);
    var j :| 0 <= j <= |line| && OccursAt(line, ListeningMarker, j);
    assert (line + "\n")[j..j + |ListeningMarker|] == line[j..j + |ListeningMarker|];
    ContainsIff(line + "\n", ListeningMarker);
  }

  // -------------------------------------------------------- the model cache

  /** `path.basename`: trailing slashes are ignored and the last segment
      is returned. */
  function Basename(p: string): (b: string)
    ensures '/' !in b
  {
    var q := StripTrailingSlashes(p);
    match LastIndexOf(q, '/')
    case None => q
    case Some(i) => q[i + 1..]
  }

  function StripTrailingSlashes(p: string): (q: string)
    ensures q <= p
    ensures q == [] || q[|q| - 1] != '/'
  {
    if |p| > 0 && p[|p| - 1] == '/' then StripTrailingSlashes(p[..|p| - 1]) else p
  }

  function LastIndexOf(s: string, c: char): (r: Option<nat>)
    ensures r.None? <==> c !in s
    ensures r.Some? ==> r.value < |s| && s[r.value] == c && c !in s[r.value + 1..]
  {
    if |s| == 0 then None
    else if s[|s| - 1] == c then Some(|s| - 1)
    else
      var r := LastIndexOf(s[..|s| - 1], c);
      if r.Some? then
        assert s[r.value + 1..] == s[..|s| - 1][r.value + 1..] + [s[|s| - 1]];
        r
      else r
  }

  /** The last separator is the one after which no other follows. */
  lemma {:induction false} LastIndexOfAfter(s: string, c: char, t: string)
    requires c !in t
    ensures LastIndexOf(s + [c] + t, c) == Some(|s|)
  {
    var u := s + [c] + t;
    if |t| > 0 {
      assert u[|u| - 1] == t[|t| - 1];
      assert u[..|u| - 1] == s + [c] + t[..|t| - 1];
      LastIndexOfAfter(s, c, t[..|t| - 1]);
    }
  }

  /** The last segment of `dir/name` is `name`. */
  lemma BasenameOfChild(dir: string, name: string)
    requires name != [] && '/' !in name
    ensures Basename(dir + "/" + name) == name
  {
    var p := dir + "/" + name;
    assert p[|p| - 1] == name[|name| - 1];
    assert StripTrailingSlashes(p) == p;
    LastIndexOfAfter(dir, '/', name);
    assert p[|dir| + 1..] == name;
  }

  /** The name the cache listing shows for a folder `models--org--name`:
      at least three `--` pieces, the second is the owner and the rest are
      re-joined with a single `-`. */
  function DisplayName(folder: string): (d: Option<string>)
    ensures d.Some? <==> |SplitStr(folder, "--")| >= 3
  {
    var parts := SplitStr(folder, "--");
    if |parts| >= 3 then Some(parts[1] + "/" + Join(parts[2..], "-")) else None
  }

  /** The cache folder the Hugging Face hub uses for repository
      `org/name`. */
  function CacheFolder(org: string, name: string): string
  {
    "models--" + org + "--" + name
  }

  /** A piece without `--` that does not end in `-` is split off first. */
  lemma PeelPiece(a: string, b: string)
    requires !Contains(a, "--")
    requires a == [] || a[|a| - 1] != '-'
    ensures SplitStr(a + "--" + b, "--") == [a] + SplitStr(b, "--")
  {
    var s := a + "--" + b;
    assert s[..|a|] == a;
    forall j | 0 <= j < |a|
      ensures !OccursAt(s, "--", j)
    {
      if j + 2 <= |a| {
        OccursAtSlice(s, 0, |a|, "--", j);
      } else {
        NoOccurrenceCovering(s, "--", |a| - 1, j);
      }
    }
    SplitStrAfter(a, "--", b);
  }

  /** Text without a dash holds no `--`. */
  lemma NoDash(s: string)
    requires '-' !in s
    ensures !Contains(s, "--")
  {
    forall j | 0 <= j <= |s|
      ensures !OccursAt(s, "--", j)
    {
      if j < |s| {
        NoOccurrenceCovering(s, "--", j, j);
      }
    }
    NotContains(s, "--");
  }

  /** The first two pieces of a cache folder are `models` and the owner. */
  lemma CacheFolderPieces(org: string, rest: string)
    requires !Contains(org, "--")
    requires org == [] || org[|org| - 1] != '-'
    ensures SplitStr(CacheFolder(org, rest), "--") == ["models", org] + SplitStr(rest, "--")
  {
    NoDash("models");
    assert CacheFolder(org, rest) == "models" + "--" + (org + "--" + rest);
    PeelPiece("models", org + "--" + rest);
    PeelPiece(org, rest);
  }

  /** Folder naming and display naming are inverse for repositories whose
      owner and name hold no `--` and whose owner does not end in `-`. */
  lemma DisplayNameOfCacheFolder(org: string, name: string)
    requires !Contains(org, "--") && !Contains(name, "--")
    requires org == [] || org[|org| - 1] != '-'
    ensures DisplayName(CacheFolder(org, name)) == Some(org + "/" + name)
  {
    CacheFolderPieces(org, name);
    SplitStrNone(name, "--");
    DisplayNameOfPieces(CacheFolder(org, name), org, [name]);
  }

  /** A folder split into `models`, the owner and further pieces is shown
      as the owner and the further pieces joined by `-`. */
  lemma DisplayNameOfPieces(folder: string, org: string, rest: seq<string>)
    requires |rest| >= 1 && SplitStr(folder, "--") == ["models", org] + rest
    ensures DisplayName(folder) == Some(org + "/" + Join(rest, "-"))
  {
    assert (["models", org] + rest)[2..] == rest;
  }

  /** A `--` inside the model name is shown as a single `-`: the display
      name does not always give back the repository id. */
  lemma DoubleDashCollapses(org: string, a: string, b: string)
    requires !Contains(org, "--") && !Contains(a, "--") && !Contains(b, "--")
    requires org == [] || org[|org| - 1] != '-'
    requires a == [] || a[|a| - 1] != '-'
    ensures DisplayName(CacheFolder(org, a + "--" + b)) == Some(org + "/" + (a + "-" + b))
  {
    FourPieces(org, a, b);
    DisplayNameOfPieces(CacheFolder(org, a + "--" + b), org, [a, b]);
    JoinPair(a, b, "-");
  }

  lemma FourPieces(org: string, a: string, b: string)
    requires !Contains(org, "--") && !Contains(a, "--") && !Contains(b, "--")
    requires org == [] || org[|org| - 1] != '-'
    requires a == [] || a[|a| - 1] != '-'
    ensures SplitStr(CacheFolder(org, a + "--" + b), "--") == ["models", org] + [a, b]
  {
    CacheFolderPieces(org, a + "--" + b);
    PeelPiece(a, b);
    SplitStrNone(b, "--");
  }

  /** A cached model as the listing shows it. */
  datatype CachedModel = CachedModel(id: string, name: string, size: string, path: string)

  datatype ModelsReply = Models(models: seq<CachedModel>) | ModelsFailed(error: string)

  function CacheListCommand(): string
  {
    "ls -d " + CacheDir + "/models--* 2>/dev/null"
  }

  function SizeCommand(p: string): string
  {
    "du -sh \"" + p + "\" | cut -f1"
  }

  /** The non-blank lines of the trimmed listing. */
  function CachePaths(stdout: string): (ps: seq<string>)
    ensures forall p :: p in ps ==> Trim(p) != ""
  {
    NonBlank(Split(Trim(stdout), '\n'))
  }

  /** Goes through the listed paths in order, measuring only those whose
      folder has a display name; an executor error ends the listing. */
  function MeasureModels(shell: Shell, paths: seq<string>): (c: Call<ModelsReply>)
    ensures c.reply.Models? ==> |c.reply.models| <= |paths|
    ensures c.reply.Models? ==> forall m :: m in c.reply.models ==>
      m.path in paths && m.id == Basename(m.path) && DisplayName(m.id) == Some(m.name)
    ensures |c.commands| <= |paths|
  {
    if |paths| == 0 then Call(Models([]), [])
    else
      var p := paths[0];
      var folder := Basename(p);
      match DisplayName(folder)
      case None => MeasureModels(shell, paths[1..])
      case Some(name) =>
        var cmd := SizeCommand(p);
        match shell(cmd)
        case Failure(m) => Call(ModelsFailed(m), [cmd])
        case Success(r) =>
          var rest := MeasureModels(shell, paths[1..]);
          match rest.reply
          case ModelsFailed(e) => Call(ModelsFailed(e), [cmd] + rest.commands)
          case Models(ms) =>
            assert forall m :: m in ms ==> m.path in paths by {
              assert forall q :: q in paths[1..] ==> q in paths;
            }
            Call(Models([CachedModel(folder, name, Trim(r.stdout), p)] + ms), [cmd] + rest.commands)
  }

  /** `listCachedModels`: a non-zero exit of the listing (no cache, no
      match) is an empty success. */
  function ListCachedModels(shell: Shell): (c: Call<ModelsReply>)
    ensures |c.commands| >= 1 && c.commands[0] == CacheListCommand()
    ensures shell(CacheListCommand()).Success? && !ExitedZero(shell(CacheListCommand()).value) ==>
      c == Call(Models([]), [CacheListCommand()])
    ensures shell(CacheListCommand()).Failure? ==> c.reply == ModelsFailed(shell(CacheListCommand()).error)
    ensures c.reply.Models? && c.reply.models != [] ==>
      shell(CacheListCommand()).Success? && ExitedZero(shell(CacheListCommand()).value)
  {
    var cmd := CacheListCommand();
    match shell(cmd)
    case Failure(m) => Call(ModelsFailed(m), [cmd])
    case Success(r) =>
      if !ExitedZero(r) then Call(Models([]), [cmd])
      else
        var rest := MeasureModels(shell, CachePaths(r.stdout));
        Call(rest.reply, [cmd] + rest.commands)
  }

  /** `deleteCachedModel`: a path without `models--` is refused before any
      command runs. */
  function DeleteCachedModel(shell: Shell, folderPath: string): (c: Call<Status>)
    ensures !Contains(folderPath, "models--") ==> c == Call(Failed("Invalid model path selection"), [])
    ensures Contains(folderPath, "models--") ==>
      c == RunChecked(shell, "rm -rf \"" + folderPath + "\"", "Failed to delete model")
    ensures c.commands != [] <==> Contains(folderPath, "models--")
  {
    if !Contains(folderPath, "models--") then Call(Failed("Invalid model path selection"), [])
    else RunChecked(shell, "rm -rf \"" + folderPath + "\"", "Failed to delete model")
  }
}

=== FILE: llm_manager.dfy ===
/** The life cycle of the LLM server as the page drives it
    (`LLMManager.tsx`): submit the serving job, poll the queue until the job
    runs on a node, open the tunnel to that node, and stop. The component's
    state is a value; clicks, timer ticks, effect runs and the replies of the
    server actions are events, and each step yields the new state and the
    server actions it starts. */
module LlmManager {

  import opened Base
  import Actions
  import opened LlmActions

  datatype Status = Idle | Submitting | Queued | StartingTunnel | Ready | Error

  /** The component's state; log lines are kept without their clock prefix. */
  datatype Manager = Manager(status: Status, selectedModel: string, jobId: Option<string>,
                             node: Option<string>, error: string, logs: seq<string>)

  /** Server actions the page starts. */
  datatype Request = SubmitServer(model: string) | PollJob(jobId: string) | OpenTunnel(node: string) | CloseTunnel

  datatype Event =
    | SelectModel(model: string)
    | StartClicked
    | SubmitReplied(submission: Actions.Submission)
    | TimerFired
    | PollReplied(status: JobStatus)
    | TunnelEffect
    | TunnelReplied(reply: TunnelReply)
    | StopClicked
    | StopReplied

  /** Job states after which the job will never run. */
  const FinalStates: seq<string> := ["COMPLETED", "FAILED", "CANCELLED", "TIMEOUT"]

  const Initial: Manager := Manager(Idle, DefaultModel, None, None, "", [])

  /** The polling timer exists exactly while the job is queued and its id
      is known. */
  predicate PollingActive(m: Manager)
  {
    m.status == Queued && Truthy(m.jobId)
  }

  /** The log line of a successful poll. */
  function PollLog(state: string, node: Option<string>): string
  {
    "Job State: " + state + (if Truthy(node) then " Node: " + node.value else "")
  }

  /** `startServer`: fresh logs, no error, and a submission. */
  function Start(m: Manager): (r: (Manager, seq<Request>))
    ensures r.0.status == Submitting && r.0.error == ""
    ensures |r.0.logs| == 1
    ensures r.0.jobId == m.jobId && r.0.node == m.node && r.0.selectedModel == m.selectedModel
    ensures r.1 == [SubmitServer(m.selectedModel)]
  {
    (m.(status := Submitting, error := "", logs := ["Submitting SBATCH job for " + m.selectedModel + "..."]),
     [SubmitServer(m.selectedModel)])
  }

  /** The submission's reply: a job id moves to the queue; anything else,
      including a success without an id, is an error. The reply is applied
      whatever the status is by then. */
  function Submitted(m: Manager, s: Actions.Submission): (r: Manager)
    ensures r.status == Queued <==> s.Submitted? && Truthy(s.jobId)
    ensures r.status == Queued ==> r.jobId == s.jobId && r.logs == m.logs + ["Job submitted: " + s.jobId.value]
    ensures r.status != Queued ==> r.status == Error && r.logs == m.logs && r.jobId == m.jobId
    ensures r.status != Queued && s.SubmitFailed? ==> r.error == OrElse(s.error, "Failed to submit job")
    ensures r.status != Queued && s.Submitted? ==> r.error == "Failed to submit job"
    ensures r.node == m.node
  {
    if s.Submitted? && Truthy(s.jobId) then
      m.(jobId := s.jobId, logs := m.logs + ["Job submitted: " + s.jobId.value], status := Queued)
    else
      var e := if s.SubmitFailed? then s.error else "";
      m.(error := OrElse(e, "Failed to submit job"), status := Error)
  }

  /** A poll reply. A failed poll changes nothing. A successful one logs
      exactly one line; a running job with a node moves on to the tunnel; a
      job in a final state is an error; any other state keeps waiting. */
  function Polled(m: Manager, s: JobStatus): (r: Manager)
    ensures s.Unknown? ==> r == m
    ensures s.Known? ==> r.logs == m.logs + [PollLog(s.state, s.node)]
    ensures s.Known? && s.state == "RUNNING" && Truthy(s.node) ==>
      r.status == StartingTunnel && r.node == s.node && r.error == m.error
    ensures s.Known? && s.state in FinalStates ==>
      r.status == Error && r.error == "Job ended with state: " + s.state && r.node == m.node
    ensures s.Known? && !(s.state == "RUNNING" && Truthy(s.node)) && s.state !in FinalStates ==>
      r == m.(logs := r.logs)
    ensures r.jobId == m.jobId && r.selectedModel == m.selectedModel
  {
    match s
    case Unknown(_) => m
    case Known(state, node) =>
      var logged := m.(logs := m.logs + [PollLog(state, node)]);
      if state == "RUNNING" && Truthy(node) then logged.(node := node, status := StartingTunnel)
      else if state != "" && state in FinalStates then
        logged.(error := "Job ended with state: " + state, status := Error)
      else logged
  }

  /** The tunnel effect, run after a render: only while starting the tunnel
      with a known node does it log and open the tunnel. */
  function TunnelEffectRun(m: Manager): (r: (Manager, seq<Request>))
    ensures m.status == StartingTunnel && Truthy(m.node) ==>
      r == (m.(logs := m.logs + ["Starting tunnel to " + m.node.value + "..."]), [OpenTunnel(m.node.value)])
    ensures !(m.status == StartingTunnel && Truthy(m.node)) ==> r == (m, [])
  {
    if m.status == StartingTunnel && Truthy(m.node) then
      (m.(logs := m.logs + ["Starting tunnel to " + m.node.value + "..."]), [OpenTunnel(m.node.value)])
    else (m, [])
  }

  /** The tunnel's reply, applied whatever the status is by then. */
  function TunnelOpened(m: Manager, t: TunnelReply): (r: Manager)
    ensures r.status == Ready <==> t.Started?
    ensures t.Started? ==> r.logs == m.logs + ["Tunnel established successfully."] && r.error == m.error
    ensures t.StartFailed? ==> r.status == Error && r.error == OrElse(t.error, "Failed to start tunnel") && r.logs == m.logs
    ensures r.jobId == m.jobId && r.node == m.node
  {
    match t
    case Started(_) => m.(logs := m.logs + ["Tunnel established successfully."], status := Ready)
    case StartFailed(e) => m.(error := OrElse(e, "Failed to start tunnel"), status := Error)
  }

  /** `handleStop` up to its await, from any state: close the tunnel and
      change nothing yet, so polling and the tunnel effect carry on until
      the stop replies. */
  function Stop(m: Manager): (r: (Manager, seq<Request>))
    ensures r.0 == m
    ensures r.1 == [CloseTunnel]
  {
    (m, [CloseTunnel])
  }

  /** The stop's reply, from any state: go idle and forget the job and
      node, keeping the log and the last error. */
  function Stopped(m: Manager): (r: Manager)
    ensures r.status == Idle && r.jobId == None && r.node == None
    ensures r.logs == m.logs && r.error == m.error && r.selectedModel == m.selectedModel
  {
    m.(status := Idle, jobId := None, node := None)
  }

  /** One event. */
  function Step(m: Manager, e: Event): (r: (Manager, seq<Request>))
    ensures e.TimerFired? ==> r.0 == m && (r.1 != [] <==> PollingActive(m))
    ensures e.TimerFired? && PollingActive(m) ==> r.1 == [PollJob(m.jobId.value)]
  {
    match e
    case SelectModel(model) => (m.(selectedModel := model), [])
    case StartClicked => Start(m)
    case SubmitReplied(s) => (Submitted(m, s), [])
    case TimerFired => if PollingActive(m) then (m, [PollJob(m.jobId.value)]) else (m, [])
    case PollReplied(s) => (Polled(m, s), [])
    case TunnelEffect => TunnelEffectRun(m)
    case TunnelReplied(t) => (TunnelOpened(m, t), [])
    case StopClicked => Stop(m)
    case StopReplied => (Stopped(m), [])
  }

  /** The state after a sequence of events. */
  function Run(m: Manager, events: seq<Event>): Manager
    decreases |events|
  {
    if |events| == 0 then m else Run(Step(m, events[0]).0, events[1..])
  }

  /** What the status promises about the rest of the state: a queued job
      has an id, and a tunnel is only started towards a known node. */
  predicate Consistent(m: Manager)
  {
    && (m.status == Queued ==> Truthy(m.jobId))
    && (m.status == StartingTunnel ==> Truthy(m.node))
  }

  /** Every step keeps the state consistent. */
  lemma StepConsistent(m: Manager, e: Event)
    requires Consistent(m)
    ensures Consistent(Step(m, e).0)
  {
  }

  /** Every reachable state is consistent; in particular polling is active
      in every queued state and the tunnel effect always opens a tunnel
      when the tunnel is being started. */
  lemma {:induction false} RunConsistent(m: Manager, events: seq<Event>)
    requires Consistent(m)
    ensures Consistent(Run(m, events))
    ensures Run(m, events).status == Queued ==> PollingActive(Run(m, events))
    ensures Run(m, events).status == StartingTunnel ==> TunnelEffectRun(Run(m, events)).1 != []
    decreases |events|
  {
    if |events| > 0 {
      StepConsistent(m, events[0]);
      RunConsistent(Step(m, events[0]).0, events[1..]);
    }
  }

  /** A job that is still pending keeps the page polling with one more
      log line. */
  lemma PendingKeepsPolling(m: Manager, state: string, node: Option<string>)
    requires PollingActive(m)
    requires state != "RUNNING" && state !in FinalStates
    ensures PollingActive(Polled(m, Known(state, node)))
    ensures |Polled(m, Known(state, node)).logs| == |m.logs| + 1
  {
  }

  /** A running job whose node is not known yet keeps the page waiting. */
  lemma RunningWithoutNodeWaits(m: Manager)
    requires PollingActive(m)
    ensures Polled(m, Known("RUNNING", None)).status == Queued
  {
  }

  /** A reply arriving after the user stopped is still applied: the page
      goes back to `ready` (or `error`) from `idle`, with no job and no
      node. */
  lemma LateTunnelReplyApplied(m: Manager)
    ensures var stopped := Stopped(m);
      TunnelOpened(stopped, Started("Tunnel started")).status == Ready
      && TunnelOpened(stopped, Started("Tunnel started")).node == None
  {
  }

  /** Stop clicked while queued, and a poll reply that the job runs on
      `node07` arrives before the stop replies: the page still moves on to
      the tunnel and asks for it, and the stop's reply then leaves the page
      idle with no node although a tunnel was requested. */
  lemma StopRace(m: Manager)
    requires PollingActive(m)
    ensures var (clicked, closing) := Step(m, StopClicked);
      var polled := Step(clicked, PollReplied(Known("RUNNING", Some("node07")))).0;
      var (effected, opening) := Step(polled, TunnelEffect);
      && closing == [CloseTunnel]
      && clicked.status == Queued
      && polled.status == StartingTunnel
      && opening == [OpenTunnel("node07")]
      && Step(effected, StopReplied).0.status == Idle
      && Step(effected, StopReplied).0.node == None
  {
    assert Truthy(Some("node07"));
  }

  /** The whole happy path: submit, one pending poll, the job runs on
      `node07`, the tunnel opens, and the page is ready with six log
      lines. */
  lemma HappyPath(m: Manager)
    requires m.status == Idle
    ensures var events := [StartClicked, SubmitReplied(Actions.Submitted(Some("4821"))),
                           PollReplied(Known("PENDING", None)), PollReplied(Known("RUNNING", Some("node07"))),
                           TunnelEffect, TunnelReplied(Started("Tunnel started"))];
      var r := Run(m, events);
      r.status == Ready && r.jobId == Some("4821") && r.node == Some("node07") && r.error == ""
      && |r.logs| == 6
  {
    var events := [StartClicked, SubmitReplied(Actions.Submitted(Some("4821"))),
                   PollReplied(Known("PENDING", None)), PollReplied(Known("RUNNING", Some("node07"))),
                   TunnelEffect, TunnelReplied(Started("Tunnel started"))];
    var m1 := Step(m, events[0]).0;
    var m2 := Step(m1, events[1]).0;
    var m3 := Step(m2, events[2]).0;
    var m4 := Step(m3, events[3]).0;
    var m5 := Step(m4, events[4]).0;
    var m6 := Step(m5, events[5]).0;
    assert "PENDING" !in FinalStates;
    assert Run(m5, events[5..]) == m6 by {
      assert events[5..][1..] == [];
    }
    assert events[4..][1..] == events[5..];
    assert events[3..][1..] == events[4..];
    assert events[2..][1..] == events[3..];
    assert events[1..][1..] == events[2..];
    assert events[1..] == events[1..];
  }

  /** A job that fails while queued ends in the error state with its
      state in the message. */
  lemma FailedJob(m: Manager)
    requires PollingActive(m)
    ensures Polled(m, Known("FAILED", None)).status == Error
    ensures Polled(m, Known("FAILED", None)).error == "Job ended with state: FAILED"
    ensures !PollingActive(Polled(m, Known("FAILED", None)))
  {
    assert "FAILED" in FinalStates;
  }
}

=== FILE: ssh.dfy ===
/** The retrying remote-command executor (`executeCommand`). Every attempt
    opens a fresh SSH session; the environment decides what each attempt
    observes, so the executor is a function of the sequence of per-attempt
    outcomes. It returns the command's result or the error it throws,
    together with the number of attempts made and the sleeps taken. */
module Ssh {

  import opened Base

  /** Number of attempts per call. */
  const MaxRetries: nat := 3
  /** Base delay between attempts, in milliseconds. */
  const RetryDelayMs: nat := 1000
  /** Port used when the credentials carry none. */
  const DefaultPort: int := 22
  /** Handshake timeout per attempt, in milliseconds. */
  const ReadyTimeoutMs: nat := 10000
  /** The `level` an ssh2 error carries when authentication was refused. */
  const AuthLevel: string := "client-authentication"

  datatype Credentials = Credentials(
    host: string,
    port: Option<int>,
    username: string,
    password: Option<string>,
    privateKey: Option<string>)

  /** What a command produced: both streams and the exit code, or `None`
      when the channel closed without a numeric code (killed by a signal). */
  datatype CommandResult = CommandResult(stdout: string, stderr: string, code: Option<int>)

  /** An error raised by the SSH client; `level` is ssh2's classification. */
  datatype SshError = SshError(message: string, level: string)

  /** One piece of data arriving on the command channel. */
  datatype Chunk = Out(data: string) | Err(data: string)

  /** The first argument of the channel's `close` event. */
  datatype CloseCode = Numeric(n: int) | NotNumeric

  /** What one attempt observes: the command channel closed after some data
      arrived; opening the command channel failed; or the connection failed
      (transport error, timeout or refused authentication). */
  datatype Attempt =
    | Closed(chunks: seq<Chunk>, close: CloseCode)
    | ExecFailed(err: SshError)
    | ConnFailed(err: SshError)

  /** The connection options handed to the SSH client. */
  datatype ConnectConfig = ConnectConfig(
    host: string, port: int, username: string,
    password: Option<string>, privateKey: Option<string>,
    readyTimeoutMs: nat, keepaliveIntervalMs: nat)

  /** One call: the command's result or the error it throws, the number of
      attempts made and the delays slept between them, in order. */
  datatype Execution = Execution(outcome: Result<CommandResult, SshError>, attempts: nat, sleeps: seq<nat>)

  /** Connection options for one attempt. `port || 22` replaces both an
      absent port and port 0, the only falsy numbers that can occur. */
  function Connect(c: Credentials): (cfg: ConnectConfig)
    ensures cfg.port == DefaultPort <==> (c.port.None? || c.port.value in {0, DefaultPort})
    ensures cfg.port != DefaultPort ==> c.port == Some(cfg.port)
    ensures cfg.host == c.host && cfg.username == c.username
    ensures cfg.password == c.password && cfg.privateKey == c.privateKey
    ensures cfg.readyTimeoutMs == ReadyTimeoutMs && cfg.keepaliveIntervalMs == 0
  {
    var port := match c.port case Some(p) => if p != 0 then p else DefaultPort case None => DefaultPort;
    ConnectConfig(c.host, port, c.username, c.password, c.privateKey, ReadyTimeoutMs, 0)
  }

  /** A failure is fatal only when the client reports refused authentication;
      a failure to open the command channel never is. */
  predicate IsFatal(a: Attempt)
  {
    a.ConnFailed? && a.err.level == AuthLevel
  }

  /** A failure the loop retries. */
  predicate IsTransient(a: Attempt)
  {
    !a.Closed? && !IsFatal(a)
  }

  /** The data a chunk contributes to one stream (`stdout` when `onStdout`). */
  function Piece(c: Chunk, onStdout: bool): string
  {
    if c.Out? == onStdout then c.data else ""
  }

  /** Everything that arrived on one stream, in arrival order. */
  function Stream(chunks: seq<Chunk>, onStdout: bool): string
  {
    if |chunks| == 0 then ""
    else Stream(chunks[..|chunks| - 1], onStdout) + Piece(chunks[|chunks| - 1], onStdout)
  }

  function Stdout(chunks: seq<Chunk>): string
  {
    Stream(chunks, true)
  }

  function Stderr(chunks: seq<Chunk>): string
  {
    Stream(chunks, false)
  }

  /** A stream of a channel is the concatenation of that stream over any
      two consecutive stretches of its data. */
  lemma {:induction false} StreamAppend(a: seq<Chunk>, b: seq<Chunk>, onStdout: bool)
    ensures Stream(a + b, onStdout) == Stream(a, onStdout) + Stream(b, onStdout)
    decreases |b|
  {
    if |b| == 0 {
      assert a + b == a;
    } else {
      var b' := b[..|b| - 1];
      var last := b[|b| - 1];
      assert (a + b)[..|a + b| - 1] == a + b';
      assert (a + b)[|a + b| - 1] == last;
      StreamAppend(a, b', onStdout);
      assert Stream(a + b, onStdout) == Stream(a + b', onStdout) + Piece(last, onStdout);
      assert Stream(b, onStdout) == Stream(b', onStdout) + Piece(last, onStdout);
    }
  }

  /** stdout and stderr are accumulated separately: a chunk on one stream
      extends that stream by exactly its data and leaves the other alone. */
  lemma StreamsSeparate(a: seq<Chunk>, x: string)
    ensures Stdout(a + [Out(x)]) == Stdout(a) + x && Stderr(a + [Out(x)]) == Stderr(a)
    ensures Stderr(a + [Err(x)]) == Stderr(a) + x && Stdout(a + [Err(x)]) == Stdout(a)
  {
    assert (a + [Out(x)])[..|a|] == a;
    assert (a + [Err(x)])[..|a|] == a;
  }

  /** The result reported when the channel closes: the accumulated streams,
      and the close code when it is a number, otherwise `None`. */
  function ResultOf(chunks: seq<Chunk>, close: CloseCode): (r: CommandResult)
    ensures r.stdout == Stdout(chunks) && r.stderr == Stderr(chunks)
    ensures r.code.Some? <==> close.Numeric?
    ensures close.Numeric? ==> r.code.value == close.n
  {
    CommandResult(Stdout(chunks), Stderr(chunks), match close case Numeric(n) => Some(n) case NotNumeric => None)
  }

  /** The loop from attempt `attempt` on. Attempts before `attempt - 1` have
      already failed transiently. The result is fixed by the first attempt
      that is not transient, or by the last attempt if all are. */
  function Run(outcomes: seq<Attempt>, attempt: nat): (e: Execution)
    requires 1 <= attempt <= MaxRetries && |outcomes| >= MaxRetries
    ensures attempt <= e.attempts <= MaxRetries
    ensures forall i :: attempt - 1 <= i < e.attempts - 1 ==> IsTransient(outcomes[i])
    ensures e.attempts < MaxRetries ==> !IsTransient(outcomes[e.attempts - 1])
    ensures e.outcome.Success? <==> outcomes[e.attempts - 1].Closed?
    ensures e.outcome.Success? ==>
      e.outcome.value == ResultOf(outcomes[e.attempts - 1].chunks, outcomes[e.attempts - 1].close)
    ensures e.outcome.Failure? ==> e.outcome.error == outcomes[e.attempts - 1].err
    ensures |e.sleeps| == e.attempts - attempt
    ensures forall i :: 0 <= i < |e.sleeps| ==> e.sleeps[i] == RetryDelayMs * (attempt + i)
    decreases MaxRetries - attempt
  {
    var a := outcomes[attempt - 1];
    if a.Closed? then
      Execution(Success(ResultOf(a.chunks, a.close)), attempt, [])
    else if IsFatal(a) || attempt == MaxRetries then
      Execution(Failure(a.err), attempt, [])
    else
      var rest := Run(outcomes, attempt + 1);
      Execution(rest.outcome, rest.attempts, [RetryDelayMs * attempt] + rest.sleeps)
  }

  /** `executeCommand`: one call, starting at attempt 1. */
  function Execute(outcomes: seq<Attempt>): (e: Execution)
    requires |outcomes| >= MaxRetries
    ensures 1 <= e.attempts <= MaxRetries
    ensures |e.sleeps| == e.attempts - 1
  {
    Run(outcomes, 1)
  }

  /** The loop of `executeCommand` as written: a counted loop that returns
      on the first closed channel, rethrows a fatal error at once, sleeps
      `RetryDelayMs * attempt` after any other failure except the last, and
      finally throws the last error. It computes exactly `Execute`. */
  method ExecuteCommand(outcomes: seq<Attempt>) returns (e: Execution)
    requires |outcomes| >= MaxRetries
    ensures e == Execute(outcomes)
  {
    var sleeps: seq<nat> := [];
    var lastError: Option<SshError> := None;
    var attempt := 1;
    while attempt <= MaxRetries
      invariant 1 <= attempt <= MaxRetries + 1
      invariant attempt <= MaxRetries ==>
        Execute(outcomes) == Execution(Run(outcomes, attempt).outcome, Run(outcomes, attempt).attempts, sleeps + Run(outcomes, attempt).sleeps)
      invariant attempt > MaxRetries ==>
        lastError.Some? && Execute(outcomes) == Execution(Failure(lastError.value), MaxRetries, sleeps)
    {
      var a := outcomes[attempt - 1];
      if a.Closed? {
        return Execution(Success(ResultOf(a.chunks, a.close)), attempt, sleeps);
      }
      lastError := Some(a.err);
      if IsFatal(a) {
        return Execution(Failure(a.err), attempt, sleeps);
      }
      if attempt < MaxRetries {
        sleeps := sleeps + [RetryDelayMs * attempt];
      }
      attempt := attempt + 1;
    }
    e := Execution(Failure(lastError.value), MaxRetries, sleeps);
  }

  // ------------------------------------------------------------ properties

  /** When attempts `attempt .. k` fail transiently and attempt `k + 1` does
      not, the loop stops at attempt `k + 1`. */
  lemma {:induction false} RunStopsAt(outcomes: seq<Attempt>, attempt: nat, k: nat)
    requires |outcomes| >= MaxRetries && 1 <= attempt <= k + 1 <= MaxRetries
    requires forall i :: attempt - 1 <= i < k ==> IsTransient(outcomes[i])
    requires !IsTransient(outcomes[k])
    ensures Run(outcomes, attempt).attempts == k + 1
    decreases k + 1 - attempt
  {
    if attempt < k + 1 {
      RunStopsAt(outcomes, attempt + 1, k);
    }
  }

  /** Transient failures on the first `k < 3` attempts followed by a closed
      channel: the result of that channel, after exactly `k + 1` attempts,
      whatever its exit code. */
  lemma TransientThenClosed(outcomes: seq<Attempt>, k: nat)
    requires |outcomes| >= MaxRetries && k < MaxRetries
    requires forall i :: 0 <= i < k ==> IsTransient(outcomes[i])
    requires outcomes[k].Closed?
    ensures Execute(outcomes).attempts == k + 1
    ensures Execute(outcomes).outcome == Success(ResultOf(outcomes[k].chunks, outcomes[k].close))
  {
    RunStopsAt(outcomes, 1, k);
  }

  /** Three transient failures: the error of the third attempt is thrown
      after exactly three attempts and sleeps of 1000 and 2000 ms. */
  lemma AllTransientFails(outcomes: seq<Attempt>)
    requires |outcomes| >= MaxRetries
    requires forall i :: 0 <= i < MaxRetries ==> IsTransient(outcomes[i])
    ensures !outcomes[2].Closed?
    ensures Execute(outcomes).attempts == MaxRetries
    ensures Execute(outcomes).outcome == Failure(outcomes[2].err)
    ensures Execute(outcomes).sleeps == [RetryDelayMs, 2 * RetryDelayMs]
  {
    assert IsTransient(outcomes[2]);
  }

  /** Refused authentication after `k` transient failures: thrown at once,
      with no further attempt and no sleep after it. */
  lemma FatalStopsAtOnce(outcomes: seq<Attempt>, k: nat)
    requires |outcomes| >= MaxRetries && k < MaxRetries
    requires forall i :: 0 <= i < k ==> IsTransient(outcomes[i])
    requires IsFatal(outcomes[k])
    ensures Execute(outcomes).attempts == k + 1
    ensures Execute(outcomes).outcome == Failure(outcomes[k].err)
    ensures |Execute(outcomes).sleeps| == k
  {
    RunStopsAt(outcomes, 1, k);
  }

  /** Only the first three outcomes matter: no fourth attempt is made. */
  lemma AtMostThreeAttempts(outcomes: seq<Attempt>, extra: seq<Attempt>)
    requires |outcomes| >= MaxRetries
    ensures Execute(outcomes) == Execute(outcomes[..MaxRetries] + extra)
  {
    var o2 := outcomes[..MaxRetries] + extra;
    assert forall i :: 0 <= i < MaxRetries ==> o2[i] == outcomes[i];
  }

  /** The total time slept in one call is at most 3000 ms. */
  lemma TotalSleepBounded(outcomes: seq<Attempt>)
    requires |outcomes| >= MaxRetries
    ensures var s := Execute(outcomes).sleeps;
      |s| <= 2 && (|s| == 0 || s[0] == 1000) && (|s| < 2 || s[1] == 2000)
  {
  }
}

=== FILE: terminal.dfy ===
/** The web terminal (`Terminal.tsx`): a history of commands and their
    output, the input line, a busy flag and the working directory the
    next command runs in. Submitting adds an entry at once; the reply of
    `runTerminalCommand` fills in that entry's output and may move the
    working directory. */
module Terminal {

  import opened Base
  import opened Text
  import Actions

  datatype Entry = Entry(command: string, output: string)

  datatype TerminalState = TerminalState(history: seq<Entry>, input: string, loading: bool, cwd: string)

  /** The command to run and the directory to run it in. */
  datatype Run = Run(command: string, cwd: string)

  const Initial: TerminalState := TerminalState([], "", false, "~")

  /** `handleSubmit` up to the call: blank input or a command still running
      is ignored; otherwise the input is cleared and one entry with empty
      output is added for the command. */
  function Submit(st: TerminalState): (r: (TerminalState, Option<Run>))
    ensures Trim(st.input) == "" || st.loading ==> r == (st, None)
    ensures Trim(st.input) != "" && !st.loading ==>
      && r.0.history == st.history + [Entry(st.input, "")]
      && r.0.input == "" && r.0.loading && r.0.cwd == st.cwd
      && r.1 == Some(Run(st.input, st.cwd))
  {
    if Trim(st.input) == "" || st.loading then (st, None)
    else (st.(history := st.history + [Entry(st.input, "")], input := "", loading := true),
          Some(Run(st.input, st.cwd)))
  }

  /** The text shown for a reply. */
  function ShownOutput(reply: Actions.TerminalReply): string
  {
    if reply.success then reply.output else OptOrElse(reply.error, "Command failed")
  }

  /** The reply: only the last entry's output is set, and the directory
      moves only after a success that reported a non-empty one. */
  function Complete(st: TerminalState, reply: Actions.TerminalReply): (r: TerminalState)
    requires |st.history| > 0
    ensures |r.history| == |st.history|
    ensures r.history[..|r.history| - 1] == st.history[..|st.history| - 1]
    ensures r.history[|r.history| - 1] == st.history[|st.history| - 1].(output := ShownOutput(reply))
    ensures !r.loading && r.input == st.input
    ensures r.cwd != st.cwd ==> reply.success && r.cwd == reply.newCwd && reply.newCwd != ""
    ensures reply.success && reply.newCwd != "" ==> r.cwd == reply.newCwd
  {
    var last := |st.history| - 1;
    var history := st.history[last := st.history[last].(output := ShownOutput(reply))];
    var cwd := if reply.success && reply.newCwd != "" then reply.newCwd else st.cwd;
    st.(history := history, cwd := cwd, loading := false)
  }

  /** One accepted command from input to reply: exactly one entry is added,
      holding the command and what the reply shows, and every earlier entry
      is kept. */
  lemma {:induction false} OneEntryPerCommand(st: TerminalState, reply: Actions.TerminalReply)
    requires Trim(st.input) != "" && !st.loading
    ensures var s := Submit(st).0;
      |s.history| > 0
      && Complete(s, reply).history == st.history + [Entry(st.input, ShownOutput(reply))]
  {
    var s := Submit(st).0;
    var r := Complete(s, reply);
    assert s.history[..|s.history| - 1] == st.history;
    assert r.history == r.history[..|r.history| - 1] + [r.history[|r.history| - 1]];
  }

  /** A failed run never moves the terminal to another directory. The
      exit code is that of the whole line `cd …; command; …; pwd`, so a
      command that merely fails (`false`) still succeeds; a run fails when
      the command leaves the shell with `exit n`, when the final `pwd`
      fails, when the channel closes without a code, or when the command
      could not be run at all. */
  lemma FailureKeepsDirectory(st: TerminalState, reply: Actions.TerminalReply)
    requires |st.history| > 0 && !reply.success
    ensures Complete(st, reply).cwd == st.cwd
    ensures reply.error.None? ==> Complete(st, reply).history[|st.history| - 1].output == "Command failed"
  {
  }

  /** A command whose output names no directory leaves the terminal where
      it is: the server falls back to the directory it was given. */
  lemma NoMarkerStays(st: TerminalState, shell: Actions.Shell, command: string)
    requires |st.history| > 0 && st.cwd != ""
    requires var cmd := Actions.TerminalCommand(command, st.cwd);
      shell(cmd).Success? && !Contains(shell(cmd).value.stdout, Actions.PwdMarker)
    ensures Complete(st, Actions.RunTerminalCommand(shell, command, st.cwd).reply).cwd == st.cwd
  {
    var cmd := Actions.TerminalCommand(command, st.cwd);
    Actions.TerminalWithoutMarker(st.cwd, shell(cmd).value);
  }
}

=== FILE: text.dfy ===
/** The JavaScript string operations the program leans on, with the exact
    ECMAScript behaviour on edge cases: `trim()`, `split(c)`, `split(str)`,
    `split(/\s+/)`, `join(sep)`, `includes(str)` and decimal rendering of
    integers. */
module Text {

  import opened Base

  /** The code points ECMAScript counts as WhiteSpace or LineTerminator: the
      ones `\s` matches and `trim()` removes. */
  predicate IsSpace(c: char)
  {
    || c == '\t' || c == '\n' || c == '\U{000B}' || c == '\U{000C}' || c == '\r'
    || c == ' ' || c == '\U{00A0}' || c == '\U{1680}' || ('\U{2000}' <= c <= '\U{200A}')
    || c == '\U{2028}' || c == '\U{2029}' || c == '\U{202F}' || c == '\U{205F}'
    || c == '\U{3000}' || c == '\U{FEFF}'
  }

  predicate AllSpace(s: string)
  {
    forall i :: 0 <= i < |s| ==> IsSpace(s[i])
  }

  predicate NoSpace(s: string)
  {
    forall i :: 0 <= i < |s| ==> !IsSpace(s[i])
  }

  /** A word as `split(/\s+/)` produces it between two whitespace runs. */
  predicate IsWord(s: string)
  {
    s != [] && NoSpace(s)
  }

  // ---------------------------------------------------------------- trim

  /** `trimStart()`: the longest suffix that does not begin with whitespace. */
  function TrimStart(s: string): (r: string)
    ensures |r| <= |s| && r == s[|s| - |r|..]
    ensures AllSpace(s[..|s| - |r|])
    ensures r == [] || !IsSpace(r[0])
    decreases |s|
  {
    if |s| > 0 && IsSpace(s[0]) then
      var r := TrimStart(s[1..]);
      assert s[..|s| - |r|] == [s[0]] + s[1..][..|s| - 1 - |r|];
      r
    else
      s
  }

  /** `trimEnd()`: the longest prefix that does not end with whitespace. */
  function TrimEnd(s: string): (r: string)
    ensures |r| <= |s| && r == s[..|r|]
    ensures AllSpace(s[|r|..])
    ensures r == [] || !IsSpace(r[|r| - 1])
    decreases |s|
  {
    if |s| > 0 && IsSpace(s[|s| - 1]) then
      var r := TrimEnd(s[..|s| - 1]);
      assert s[|r|..] == s[..|s| - 1][|r|..] + [s[|s| - 1]];
      r
    else
      s
  }

  /** `trim()`: the string with whitespace removed from both ends. */
  function Trim(s: string): (r: string)
    ensures |r| <= |s|
    ensures r == [] || (!IsSpace(r[0]) && !IsSpace(r[|r| - 1]))
  {
    TrimEnd(TrimStart(s))
  }

  /** `trimStart` is determined by its characterisation: a whitespace-only
      prefix followed by a part that does not begin with whitespace. */
  lemma {:induction false} TrimStartOf(p: string, q: string)
    requires AllSpace(p)
    requires q == [] || !IsSpace(q[0])
    ensures TrimStart(p + q) == q
  {
    if p != [] {
      assert (p + q)[1..] == p[1..] + q;
      TrimStartOf(p[1..], q);
    }
  }

  /** `trimEnd` is determined likewise, from the other end. */
  lemma {:induction false} TrimEndOf(w: string, b: string)
    requires AllSpace(b)
    requires w == [] || !IsSpace(w[|w| - 1])
    ensures TrimEnd(w + b) == w
  {
    if b != [] {
      assert (w + b)[..|w + b| - 1] == w + b[..|b| - 1];
      TrimEndOf(w, b[..|b| - 1]);
    } else {
      assert w + b == w;
    }
  }

  /** `trim()` keeps exactly the middle of the string: what is left once an
      all-whitespace margin is taken off each end. */
  lemma TrimMargins(s: string) returns (a: string, b: string)
    ensures AllSpace(a) && AllSpace(b)
    ensures s == a + Trim(s) + b
  {
    var t := TrimStart(s);
    var m := TrimEnd(t);
    a := s[..|s| - |t|];
    b := t[|m|..];
    assert Trim(s) == m;
    Frame(s, t, m);
  }

  /** A string is the part before a suffix `t`, the prefix `m` of `t`, and
      the rest of `t`. */
  lemma Frame(s: string, t: string, m: string)
    requires |t| <= |s| && t == s[|s| - |t|..]
    requires |m| <= |t| && m == t[..|m|]
    ensures s == s[..|s| - |t|] + m + t[|m|..]
  {
    assert t == m + t[|m|..];
  }

  /** `trim()` recovers any text that is framed by whitespace and neither
      starts nor ends with whitespace itself. */
  lemma TrimFramed(a: string, w: string, b: string)
    requires AllSpace(a) && AllSpace(b)
    requires w == [] || (!IsSpace(w[0]) && !IsSpace(w[|w| - 1]))
    ensures Trim(a + w + b) == w
  {
    assert a + w + b == a + (w + b);
    if w == [] {
      assert AllSpace(a + b);
      TrimStartOf(a + b, []);
      assert a + b + [] == a + w + b;
      TrimEndOf([], []);
    } else {
      TrimStartOf(a, w + b);
      TrimEndOf(w, b);
    }
  }

  /** A string trims to the empty string exactly when it is all whitespace;
      this is the "blank line" test `line.trim() !== ''` of the program. */
  lemma TrimEmptyIffAllSpace(s: string)
    ensures Trim(s) == "" <==> AllSpace(s)
  {
    var a, b := TrimMargins(s);
    if AllSpace(s) {
      TrimFramed(s, [], []);
      assert s + [] + [] == s;
    } else {
      assert Trim(s) != "";
    }
  }

  /** Trimming twice is trimming once. */
  lemma TrimIdempotent(s: string)
    ensures Trim(Trim(s)) == Trim(s)
  {
    TrimFramed([], Trim(s), []);
    assert [] + Trim(s) + [] == Trim(s);
  }

  // ------------------------------------------------------ split on a char

  /** Position of the first `c` in `s`, if any. */
  function IndexOf(s: string, c: char): (r: Option<nat>)
    ensures r.None? <==> c !in s
    ensures r.Some? ==> r.value < |s| && s[r.value] == c && c !in s[..r.value]
  {
    if |s| == 0 then None
    else if s[0] == c then Some(0)
    else
      match IndexOf(s[1..], c)
      case None => None
      case Some(i) =>
        assert s[..i + 1] == [s[0]] + s[1..][..i];
        Some(i + 1)
  }

  /** `s.split(sep)` for a one-character separator: the maximal pieces
      between occurrences of `sep`; there is always at least one piece. */
  function Split(s: string, sep: char): (parts: seq<string>)
    ensures |parts| >= 1
    ensures forall i :: 0 <= i < |parts| ==> sep !in parts[i]
    decreases |s|
  {
    match IndexOf(s, sep)
    case None => [s]
    case Some(i) => [s[..i]] + Split(s[i + 1..], sep)
  }

  /** `parts.join(sep)`. */
  function Join(parts: seq<string>, sep: string): string
  {
    if |parts| == 0 then ""
    else if |parts| == 1 then parts[0]
    else parts[0] + sep + Join(parts[1..], sep)
  }

  /** Joining the pieces with the separator gives back the original string. */
  lemma {:induction false} JoinSplit(s: string, sep: char)
    ensures Join(Split(s, sep), [sep]) == s
    decreases |s|
  {
    match IndexOf(s, sep)
    case None =>
    case Some(i) =>
      var tail := Split(s[i + 1..], sep);
      assert Split(s, sep) == [s[..i]] + tail;
      assert ([s[..i]] + tail)[1..] == tail;
      JoinSplit(s[i + 1..], sep);
      assert Join(Split(s, sep), [sep]) == s[..i] + [sep] + s[i + 1..];
      assert s == s[..i] + [sep] + s[i + 1..];
  }

  /** Splitting a join of separator-free pieces gives back the pieces. */
  lemma {:induction false} SplitJoin(parts: seq<string>, sep: char)
    requires |parts| >= 1
    requires forall i :: 0 <= i < |parts| ==> sep !in parts[i]
    ensures Split(Join(parts, [sep]), sep) == parts
  {
    if |parts| > 1 {
      var rest := Join(parts[1..], [sep]);
      assert Join(parts, [sep]) == parts[0] + [sep] + rest;
      SplitFirst(parts[0], sep, rest);
      SplitJoin(parts[1..], sep);
    }
  }

  /** A separator-free piece followed by the separator is the first piece. */
  lemma SplitFirst(a: string, sep: char, b: string)
    requires sep !in a
    ensures Split(a + [sep] + b, sep) == [a] + Split(b, sep)
  {
    var s := a + [sep] + b;
    assert s[..|a|] == a && s[|a|] == sep && s[|a| + 1..] == b;
    assert IndexOf(s, sep) == Some(|a|);
  }

  // ---------------------------------------------------- split on a string

  /** `pat` occurs in `s` starting at index `i`. */
  predicate OccursAt(s: string, pat: string, i: nat)
  {
    i + |pat| <= |s| && s[i..i + |pat|] == pat
  }

  /** First occurrence of `pat` in `s` at or after `from`. */
  function FindFrom(s: string, pat: string, from: nat): (r: Option<nat>)
    requires from <= |s|
    ensures r.Some? ==> from <= r.value && OccursAt(s, pat, r.value)
    ensures r.Some? ==> forall j :: from <= j < r.value ==> !OccursAt(s, pat, j)
    ensures r.None? ==> forall j :: from <= j <= |s| ==> !OccursAt(s, pat, j)
    decreases |s| - from
  {
    if OccursAt(s, pat, from) then Some(from)
    else if from == |s| then None
    else FindFrom(s, pat, from + 1)
  }

  /** First occurrence of `pat` in `s`, as `indexOf` finds it. */
  function Find(s: string, pat: string): (r: Option<nat>)
    ensures r.Some? ==> OccursAt(s, pat, r.value)
    ensures r.Some? ==> forall j :: 0 <= j < r.value ==> !OccursAt(s, pat, j)
    ensures r.None? ==> forall j :: 0 <= j <= |s| ==> !OccursAt(s, pat, j)
  {
    FindFrom(s, pat, 0)
  }

  /** `s.includes(pat)`. */
  predicate Contains(s: string, pat: string)
  {
    Find(s, pat).Some?
  }

  /** `includes` holds exactly when some position holds an occurrence. */
  lemma ContainsIff(s: string, pat: string)
    ensures Contains(s, pat) <==> exists j :: 0 <= j <= |s| && OccursAt(s, pat, j)
  {
  }

  /** An occurrence inside a prefix is an occurrence in the whole string. */
  lemma OccursInPrefix(s: string, k: nat, pat: string, j: nat)
    requires k <= |s|
    requires OccursAt(s[..k], pat, j)
    ensures OccursAt(s, pat, j)
  {
    assert s[..k][j..j + |pat|] == s[j..j + |pat|];
  }

  /** Occurrences inside a slice are the occurrences in the whole string
      that lie within the slice. */
  lemma OccursAtSlice(s: string, lo: nat, hi: nat, pat: string, j: nat)
    requires lo <= hi <= |s| && j + |pat| <= hi - lo
    ensures OccursAt(s[lo..hi], pat, j) <==> OccursAt(s, pat, lo + j)
  {
    var u := s[lo..hi][j..j + |pat|];
    var v := s[lo + j..lo + j + |pat|];
    assert forall k :: 0 <= k < |pat| ==> u[k] == v[k];
    assert u == v;
  }

  /** A string none of whose positions holds an occurrence does not
      contain the pattern. */
  /** The pieces of a three-part concatenation are found at their offsets. */
  lemma MiddleOf(a: string, p: string, c: string)
    ensures (a + p + c)[|a|..|a| + |p|] == p
    ensures (a + p + c)[|a| + |p|..] == c
  {
  }

  lemma NotContains(s: string, pat: string)
    requires forall j :: 0 <= j <= |s| ==> !OccursAt(s, pat, j)
    ensures !Contains(s, pat)
  {
    ContainsIff(s, pat);
  }

  /** A character that `pat` does not contain blocks every occurrence of
      `pat` that would cover it. */
  lemma NoOccurrenceCovering(s: string, pat: string, p: nat, j: nat)
    requires p < |s| && s[p] !in pat
    requires j <= p < j + |pat|
    ensures !OccursAt(s, pat, j)
  {
    if j + |pat| <= |s| {
      assert s[j..j + |pat|][p - j] == s[p];
    }
  }

  /** `s.split(sep)` for a non-empty string separator: occurrences are taken
      left to right without overlap. */
  function SplitStr(s: string, sep: string): (parts: seq<string>)
    requires |sep| > 0
    ensures |parts| >= 1
    ensures forall i :: 0 <= i < |parts| ==> !Contains(parts[i], sep)
    decreases |s|
  {
    match Find(s, sep)
    case None =>
      assert forall j :: 0 <= j <= |s| ==> !OccursAt(s, sep, j);
      [s]
    case Some(i) =>
      var head := s[..i];
      assert !Contains(head, sep) by {
        forall j | 0 <= j <= |head| && OccursAt(head, sep, j)
          ensures false
        {
          OccursInPrefix(s, i, sep, j);
        }
      }
      [head] + SplitStr(s[i + |sep|..], sep)
  }

  /** Joining the pieces with the separator gives back the original string. */
  lemma {:induction false} JoinSplitStr(s: string, sep: string)
    requires |sep| > 0
    ensures Join(SplitStr(s, sep), sep) == s
    decreases |s|
  {
    match Find(s, sep)
    case None =>
    case Some(i) =>
      var tail := SplitStr(s[i + |sep|..], sep);
      assert SplitStr(s, sep) == [s[..i]] + tail;
      assert ([s[..i]] + tail)[1..] == tail;
      JoinSplitStr(s[i + |sep|..], sep);
      assert Join(SplitStr(s, sep), sep) == s[..i] + sep + s[i + |sep|..];
      assert s == s[..i] + sep + s[i + |sep|..];
  }

  /** When the first occurrence of `sep` in `a + sep + b` is the one right
      after `a`, splitting peels `a` off as the first piece. */
  lemma SplitStrAfter(a: string, sep: string, b: string)
    requires |sep| > 0
    requires forall j :: 0 <= j < |a| ==> !OccursAt(a + sep + b, sep, j)
    ensures SplitStr(a + sep + b, sep) == [a] + SplitStr(b, sep)
  {
    var s := a + sep + b;
    assert OccursAt(s, sep, |a|) by {
      assert s[|a|..|a| + |sep|] == sep;
    }
    assert Find(s, sep) == Some(|a|);
    assert s[..|a|] == a;
    assert s[|a| + |sep|..] == b;
  }

  /** A string with no occurrence of `sep` splits into itself alone. */
  lemma SplitStrNone(s: string, sep: string)
    requires |sep| > 0
    requires !Contains(s, sep)
    ensures SplitStr(s, sep) == [s]
  {
  }

  // ------------------------------------------------- split on whitespace

  /** Length of the leading run of non-whitespace characters. */
  function WordEnd(s: string): (n: nat)
    ensures n <= |s| && NoSpace(s[..n])
    ensures n < |s| ==> IsSpace(s[n])
  {
    if |s| == 0 || IsSpace(s[0]) then 0
    else
      var n := WordEnd(s[1..]) + 1;
      assert s[..n] == [s[0]] + s[1..][..n - 1];
      n
  }

  /** The word length is determined by where the first whitespace falls. */
  lemma {:induction false} WordEndOf(w: string, t: string)
    requires NoSpace(w)
    requires t == [] || IsSpace(t[0])
    ensures WordEnd(w + t) == |w|
  {
    if w != [] {
      assert (w + t)[1..] == w[1..] + t;
      WordEndOf(w[1..], t);
    } else {
      assert w + t == t;
    }
  }

  /** `s.split(/\s+/)`: the pieces between maximal whitespace runs. A leading
      run yields an empty first piece and a trailing run an empty last piece;
      every other piece is a word. */
  function SplitWs(s: string): (parts: seq<string>)
    ensures |parts| >= 1
    ensures forall i :: 0 <= i < |parts| ==> NoSpace(parts[i])
    ensures forall i :: 0 < i < |parts| - 1 ==> parts[i] != []
    ensures s != [] && !IsSpace(s[0]) ==> parts[0] != []
    decreases |s|
  {
    var n := WordEnd(s);
    if n == |s| then [s]
    else [s[..n]] + SplitWs(TrimStart(s[n..]))
  }

  /** One step of `split(/\s+/)`: the first word, then the rest after the
      whitespace run that ends it. */
  lemma SplitWsStep(s: string)
    requires WordEnd(s) < |s|
    ensures SplitWs(s) == [s[..WordEnd(s)]] + SplitWs(TrimStart(s[WordEnd(s)..]))
  {
  }

  /** Two pieces joined. */
  lemma JoinPair(a: string, b: string, sep: string)
    ensures Join([a, b], sep) == a + sep + b
  {
    assert [a, b][1..] == [b];
  }

  /** A join starts with the first piece. */
  lemma JoinHead(parts: seq<string>, sep: string)
    requires |parts| >= 1
    ensures parts[0] <= Join(parts, sep)
  {
  }

  /** Words joined by single spaces split back into the same words. */
  lemma {:induction false} SplitWsJoin(words: seq<string>)
    requires |words| >= 1
    requires forall i :: 0 <= i < |words| ==> IsWord(words[i])
    ensures SplitWs(Join(words, " ")) == words
  {
    JoinSingleGaps(words);
    SplitWsSpaced(words, SingleGaps(|words| - 1));
  }

  /** A run of whitespace between two columns of a line: never empty, of
      any width. */
  predicate Gap(g: string)
  {
    g != [] && AllSpace(g)
  }

  /** Words with the given whitespace runs between them, one run per gap,
      as a column-aligned line prints them. */
  function JoinGaps(words: seq<string>, gaps: seq<string>): string
    requires |words| >= 1 && |gaps| == |words| - 1
    decreases |words|
  {
    if |words| == 1 then words[0]
    else words[0] + gaps[0] + JoinGaps(words[1..], gaps[1..])
  }

  /** A line of words and gaps neither starts nor ends with whitespace. */
  lemma {:induction false} JoinGapsEdges(words: seq<string>, gaps: seq<string>)
    requires |words| >= 1 && |gaps| == |words| - 1
    requires forall i :: 0 <= i < |words| ==> IsWord(words[i])
    ensures var s := JoinGaps(words, gaps); s != [] && !IsSpace(s[0]) && !IsSpace(s[|s| - 1])
  {
    if |words| > 1 {
      JoinGapsEdges(words[1..], gaps[1..]);
      var rest := JoinGaps(words[1..], gaps[1..]);
      assert JoinGaps(words, gaps) == words[0] + gaps[0] + rest;
    }
  }

  /** Words separated by whitespace runs of any width split back into the
      same words: `split(/\s+/)` forgets how wide each gap was. */
  lemma {:induction false} SplitWsSpaced(words: seq<string>, gaps: seq<string>)
    requires |words| >= 1 && |gaps| == |words| - 1
    requires forall i :: 0 <= i < |words| ==> IsWord(words[i])
    requires forall i :: 0 <= i < |gaps| ==> Gap(gaps[i])
    ensures SplitWs(JoinGaps(words, gaps)) == words
  {
    var w := words[0];
    if |words| == 1 {
      SplitWsOne(w);
    } else {
      var ws, gs := words[1..], gaps[1..];
      var rest := JoinGaps(ws, gs);
      JoinGapsEdges(ws, gs);
      calc {
        SplitWs(JoinGaps(words, gaps));
        SplitWs(w + gaps[0] + rest);
        { SplitWsSep(w, gaps[0], rest); }
        [w] + SplitWs(rest);
        { SplitWsSpaced(ws, gs); }
        [w] + ws;
        words;
      }
    }
  }

  /** A single word is a single piece. */
  lemma SplitWsOne(w: string)
    requires IsWord(w)
    ensures SplitWs(w) == [w]
  {
    WordEndOf(w, []);
    assert w + [] == w;
  }

  /** A word, a gap and a text that starts with a word: the word is the
      first piece and the splitting resumes at the text. */
  lemma SplitWsSep(w: string, g: string, rest: string)
    requires IsWord(w) && Gap(g) && rest != [] && !IsSpace(rest[0])
    ensures SplitWs(w + g + rest) == [w] + SplitWs(rest)
  {
    var s := w + g + rest;
    var t := g + rest;
    assert s == w + t;
    assert t[0] == g[0];
    WordEndOf(w, t);
    assert s[..|w|] == w;
    assert s[|w|..] == t;
    TrimStartOf(g, rest);
    SplitWsStep(s);
  }

  /** `n` single spaces, each a gap of its own. */
  function SingleGaps(n: nat): (gaps: seq<string>)
    ensures |gaps| == n && forall i :: 0 <= i < n ==> gaps[i] == " "
  {
    seq(n, _ => " ")
  }

  /** With single spaces for gaps, the line is the words joined by `" "`. */
  lemma {:induction false} JoinSingleGaps(words: seq<string>)
    requires |words| >= 1
    ensures JoinGaps(words, SingleGaps(|words| - 1)) == Join(words, " ")
  {
    if |words| > 1 {
      JoinSingleGaps(words[1..]);
      assert SingleGaps(|words| - 1)[1..] == SingleGaps(|words| - 2);
    }
  }

  /** Joining with a final empty piece adds one separator at the end: the
      text ends with the separator. */
  lemma {:induction false} JoinFinalEmpty(parts: seq<string>, sep: string)
    requires |parts| >= 1
    ensures Join(parts + [""], sep) == Join(parts, sep) + sep
  {
    if |parts| == 1 {
      assert (parts + [""])[1..] == [""];
    } else {
      assert (parts + [""])[1..] == parts[1..] + [""];
      JoinFinalEmpty(parts[1..], sep);
    }
  }

  /** A trimmed, non-empty string splits into words only. */
  lemma SplitWsTrimmed(s: string)
    requires s != [] && !IsSpace(s[0]) && !IsSpace(s[|s| - 1])
    ensures forall i :: 0 <= i < |SplitWs(s)| ==> IsWord(SplitWs(s)[i])
    decreases |s|
  {
    var n := WordEnd(s);
    if n < |s| {
      var x := s[n..];
      var rest := TrimStart(x);
      assert x[|x| - 1] == s[|s| - 1];
      assert !IsSpace(x[|x| - 1]);
      assert |rest| > 0;
      assert rest[|rest| - 1] == s[|s| - 1];
      SplitWsTrimmed(rest);
    }
  }

  // -------------------------------------------------------- numbers

  predicate IsDigit(c: char)
  {
    '0' <= c <= '9'
  }

  predicate AllDigits(s: string)
  {
    forall i :: 0 <= i < |s| ==> IsDigit(s[i])
  }

  function DigitChar(d: nat): (c: char)
    requires d < 10
    ensures IsDigit(c) && c as int - '0' as int == d
  {
    ('0' as int + d) as char
  }

  /** The decimal numeral of `n`, as `${n}` renders a non-negative integer. */
  function Decimal(n: nat): (r: string)
    ensures r != [] && AllDigits(r)
    ensures |r| > 1 ==> r[0] != '0'
  {
    if n < 10 then [DigitChar(n)] else Decimal(n / 10) + [DigitChar(n % 10)]
  }

  /** The value of a string of decimal digits. */
  function DecimalValue(s: string): nat
    requires AllDigits(s)
  {
    if |s| == 0 then 0
    else DecimalValue(s[..|s| - 1]) * 10 + (s[|s| - 1] as int - '0' as int)
  }

  /** Reading back a rendered numeral gives the number. */
  lemma {:induction false} DecimalRoundTrip(n: nat)
    ensures DecimalValue(Decimal(n)) == n
  {
    if n >= 10 {
      var r := Decimal(n);
      assert r[..|r| - 1] == Decimal(n / 10);
      DecimalRoundTrip(n / 10);
    }
  }

  /** `${i}` for an integer. */
  function IntText(i: int): (r: string)
    ensures i >= 0 ==> r == Decimal(i)
    ensures i < 0 ==> r == "-" + Decimal(-i)
  {
    if i < 0 then "-" + Decimal(-i) else Decimal(i)
  }

  /** Length of the leading run of decimal digits. */
  function DigitRun(s: string): (n: nat)
    ensures n <= |s| && AllDigits(s[..n])
    ensures n < |s| ==> !IsDigit(s[n])
  {
    if |s| == 0 || !IsDigit(s[0]) then 0
    else
      var n := DigitRun(s[1..]) + 1;
      assert s[..n] == [s[0]] + s[1..][..n - 1];
      n
  }
}

=== FILE: tunnel_script.dfy ===
/** The port-forwarding helper (`tunnel_script.js`) that the server spawns:
    it validates its positional arguments, builds the SSH configuration and,
    once the SSH session is ready, listens on a local port and forwards every
    accepted connection to the compute node. The sockets themselves are left
    out; the script's life is a sequence of events from the SSH client and
    the local server, and the model records what it prints and what it
    closes. */
module TunnelScript {

  import opened Base
  import opened Text

  const UsageLine: string :=
    "Usage: node tunnel_script.js <host> <username> <password> <privateKey> <remoteHost> <remotePort> <localPort>"
  /** The SSH port is fixed, whatever the arguments say. */
  const SshPort: int := 22
  /** The exit code after a usage error. */
  const UsageExitCode: int := 1
  const ReadyLine: string := "SSH Connection Ready"
  const Loopback: string := "127.0.0.1"

  /** The configuration handed to the SSH client; `None` leaves the field
      unset. */
  datatype SshConfig = SshConfig(host: string, port: int, username: string,
                                 password: Option<string>, privateKey: Option<string>)

  /** What the script does with its arguments: stop with a usage error, or
      connect and forward `localPort` to `remoteHost:remotePort`. */
  datatype Launch =
    | Usage(exitCode: int, message: string)
    | Start(config: SshConfig, remoteHost: string, remotePort: string, localPort: string)

  /** An optional secret counts as given when it is non-empty and not one
      of the sentinels `null` / `undefined` the caller writes for "none". */
  predicate Provided(x: Option<string>)
  {
    Truthy(x) && x.value != "null" && x.value != "undefined"
  }

  /** `s.replace(/\\n/g, '\n')`: each backslash followed by `n` becomes a
      line feed, scanning left to right. */
  function UnescapeNewlines(s: string): (r: string)
    ensures |r| <= |s|
  {
    if |s| >= 2 && s[0] == '\\' && s[1] == 'n' then "\n" + UnescapeNewlines(s[2..])
    else if |s| == 0 then ""
    else [s[0]] + UnescapeNewlines(s[1..])
  }

  /** A backslash immediately followed by `n` at position `i`. */
  predicate EscapeAt(s: string, i: nat)
  {
    i + 1 < |s| && s[i] == '\\' && s[i + 1] == 'n'
  }

  /** No escaped line feed anywhere. */
  predicate NoEscapes(s: string)
  {
    forall i :: 0 <= i < |s| ==> !EscapeAt(s, i)
  }

  /** Line feeds written as backslash-`n`, the way a key travels on a
      command line. */
  function EscapeNewlines(s: string): (r: string)
    ensures '\n' !in r
  {
    if |s| == 0 then ""
    else (if s[0] == '\n' then "\\n" else [s[0]]) + EscapeNewlines(s[1..])
  }

  /** Unescaping never leaves an escape behind, so applying it twice is
      the same as applying it once. */
  lemma {:induction false} UnescapeLeavesNoEscapes(s: string)
    ensures NoEscapes(UnescapeNewlines(s))
    ensures |s| > 0 && s[0] != '\\' ==> UnescapeNewlines(s)[0] == s[0]
    ensures |s| > 0 && s[0] == '\\' && !EscapeAt(s, 0) ==> UnescapeNewlines(s)[0] == '\\'
    ensures EscapeAt(s, 0) ==> UnescapeNewlines(s)[0] == '\n'
  {
    if |s| >= 2 && s[0] == '\\' && s[1] == 'n' {
      UnescapeLeavesNoEscapes(s[2..]);
      var t := UnescapeNewlines(s[2..]);
      assert UnescapeNewlines(s) == "\n" + t;
      assert forall i :: 1 <= i < |t| + 1 ==> (EscapeAt("\n" + t, i) <==> EscapeAt(t, i - 1));
    } else if |s| > 0 {
      UnescapeLeavesNoEscapes(s[1..]);
      var t := UnescapeNewlines(s[1..]);
      var r := [s[0]] + t;
      assert UnescapeNewlines(s) == r;
      assert forall i :: 1 <= i < |r| ==> (EscapeAt(r, i) <==> EscapeAt(t, i - 1));
      if s[0] == '\\' && |t| > 0 {
        assert s[1] != 'n';
        assert t[0] != 'n';
      }
    }
  }

  /** Text without escapes is left as it is. */
  lemma {:induction false} UnescapeIdentity(s: string)
    requires NoEscapes(s)
    ensures UnescapeNewlines(s) == s
  {
    if |s| > 0 {
      assert !EscapeAt(s, 0);
      assert forall i :: 0 <= i < |s| - 1 ==> (EscapeAt(s[1..], i) <==> EscapeAt(s, i + 1));
      UnescapeIdentity(s[1..]);
      assert s == [s[0]] + s[1..];
    }
  }

  /** Unescaping is idempotent. */
  lemma UnescapeIdempotent(s: string)
    ensures UnescapeNewlines(UnescapeNewlines(s)) == UnescapeNewlines(s)
  {
    UnescapeLeavesNoEscapes(s);
    UnescapeIdentity(UnescapeNewlines(s));
  }

  /** A multi-line key written with escaped line feeds is restored exactly,
      provided it has no backslash-`n` of its own (a PEM key has none). */
  lemma {:induction false} UnescapeRestoresKey(key: string)
    requires NoEscapes(key)
    ensures UnescapeNewlines(EscapeNewlines(key)) == key
  {
    if |key| > 0 {
      var rest := key[1..];
      assert forall i :: 0 <= i < |rest| ==> (EscapeAt(rest, i) <==> EscapeAt(key, i + 1));
      UnescapeRestoresKey(rest);
      var e := EscapeNewlines(rest);
      if key[0] == '\n' {
        assert EscapeNewlines(key) == "\\n" + e;
        assert ("\\n" + e)[2..] == e;
      } else {
        assert EscapeNewlines(key) == [key[0]] + e;
        assert ([key[0]] + e)[1..] == e;
        if key[0] == '\\' && |rest| > 0 {
          assert !EscapeAt(key, 0);
          assert e[0] == (if rest[0] == '\n' then '\\' else rest[0]);
        }
      }
      assert key == [key[0]] + rest;
    }
  }

  /** The script's argument handling. */
  function ParseArgs(args: seq<string>): (l: Launch)
    ensures l.Usage? <==> !Truthy(Field(args, 0)) || !Truthy(Field(args, 1)) || !Truthy(Field(args, 4))
                          || !Truthy(Field(args, 5)) || !Truthy(Field(args, 6))
    ensures l.Usage? ==> l == Usage(UsageExitCode, UsageLine)
    ensures l.Start? ==> (l.config.port == SshPort && l.config.host == args[0] && l.config.username == args[1]
                          && l.remoteHost == args[4] && l.remotePort == args[5] && l.localPort == args[6])
    ensures l.Start? ==> ((l.config.password.Some? <==> Provided(Field(args, 2)))
                          && (l.config.password.Some? ==> l.config.password.value == args[2]))
    ensures l.Start? ==> ((l.config.privateKey.Some? <==> Provided(Field(args, 3)))
                          && (l.config.privateKey.Some? ==> l.config.privateKey.value == UnescapeNewlines(args[3])))
  {
    if !Truthy(Field(args, 0)) || !Truthy(Field(args, 1)) || !Truthy(Field(args, 4))
       || !Truthy(Field(args, 5)) || !Truthy(Field(args, 6))
    then Usage(UsageExitCode, UsageLine)
    else
      var password := if Provided(Field(args, 2)) then Some(args[2]) else None;
      var key := if Provided(Field(args, 3)) then Some(UnescapeNewlines(args[3])) else None;
      Start(SshConfig(args[0], SshPort, args[1], password, key), args[4], args[5], args[6])
  }

  // ------------------------------------------------------------ parseInt

  /** `parseInt(s)` for a decimal numeral: leading whitespace, an optional
      sign, then the longest digit run; `None` is `NaN` (no digits). */
  function ParseInt(s: string): (n: Option<int>)
  {
    var t := TrimStart(s);
    var neg := |t| > 0 && t[0] == '-';
    var body := if |t| > 0 && (t[0] == '-' || t[0] == '+') then t[1..] else t;
    var k := DigitRun(body);
    if k == 0 then None
    else Some(if neg then -(DecimalValue(body[..k]) as int) else DecimalValue(body[..k]))
  }

  /** A port written in decimal reads back as that port. */
  lemma ParseIntDecimal(n: nat)
    ensures ParseInt(Decimal(n)) == Some(n)
  {
    var d := Decimal(n);
    assert !IsSpace(d[0]);
    TrimStartOf("", d);
    assert "" + d == d;
    DigitRunAll(d);
    assert d[..|d|] == d;
    DecimalRoundTrip(n);
  }

  /** A digit string is its own digit run. */
  lemma {:induction false} DigitRunAll(d: string)
    requires AllDigits(d)
    ensures DigitRun(d) == |d|
  {
    if d != [] {
      DigitRunAll(d[1..]);
    }
  }

  // ------------------------------------------------------ running script

  /** The line announcing that the local port is listening. */
  function ListeningLine(localPort: string, remoteHost: string, remotePort: string): string
  {
    "Tunnel listening on " + Loopback + ":" + localPort + " -> " + remoteHost + ":" + remotePort
  }

  /** What happens to the running script: the SSH session becomes ready,
      the local server starts listening, a client connects and its
      forwarding channel opens or fails, the local server fails, or the SSH
      client reports an error. */
  datatype ScriptEvent =
    | SshReady
    | ServerListening
    | ClientConnected(forwardOk: bool)
    | ServerFailed
    | SshFailed

  /** The script's observable state: whether the session is ready and the
      server listening, the lines printed on each stream, how many clients
      were piped through and how many sockets were ended after a forwarding
      error, whether the SSH connection was ended, the ports the local
      server was asked to listen on and the targets forwarding was asked
      for (`parseInt` of the arguments; `None` is `NaN`). */
  datatype Runtime = Runtime(ready: bool, listening: bool, stdout: seq<string>, stderr: seq<string>,
                             piped: nat, dropped: nat, connEnded: bool,
                             listens: seq<Option<int>>, forwards: seq<(string, Option<int>)>)

  const Initial: Runtime := Runtime(false, false, [], [], 0, 0, false, [], [])

  /** One event. The local server only exists once the session is ready,
      so server and client events before that are impossible and leave the
      state unchanged. */
  function Step(l: Launch, rt: Runtime, e: ScriptEvent): (next: Runtime)
    requires l.Start?
    ensures e.ClientConnected? && !e.forwardOk ==> next.listening == rt.listening && next.connEnded == rt.connEnded
    ensures e.SshFailed? ==> (next.ready == rt.ready && next.listening == rt.listening
                              && next.connEnded == rt.connEnded && next.stdout == rt.stdout)
    ensures rt.stdout <= next.stdout
    ensures |next.stdout| <= |rt.stdout| + 1
    ensures next.connEnded <==> rt.connEnded || (e.ServerFailed? && rt.ready)
    ensures next.listens == rt.listens || next.listens == rt.listens + [ParseInt(l.localPort)]
    ensures next.forwards == rt.forwards || next.forwards == rt.forwards + [(l.remoteHost, ParseInt(l.remotePort))]
  {
    match e
    case SshReady =>
      rt.(ready := true, stdout := rt.stdout + [ReadyLine], listens := rt.listens + [ParseInt(l.localPort)])
    case ServerListening =>
      if !rt.ready then rt
      else rt.(listening := true, stdout := rt.stdout + [ListeningLine(l.localPort, l.remoteHost, l.remotePort)])
    case ClientConnected(ok) =>
      if !rt.listening then rt
      else
        var asked := rt.forwards + [(l.remoteHost, ParseInt(l.remotePort))];
        if ok then rt.(piped := rt.piped + 1, forwards := asked)
        else rt.(dropped := rt.dropped + 1, stderr := rt.stderr + ["Forwarding error:"], forwards := asked)
    case ServerFailed =>
      if !rt.ready then rt
      else rt.(connEnded := true, stderr := rt.stderr + ["Tunnel server error:"])
    case SshFailed =>
      rt.(stderr := rt.stderr + ["SSH Connection Error:"])
  }

  /** The state after a sequence of events. */
  function Run(l: Launch, events: seq<ScriptEvent>): Runtime
    requires l.Start?
  {
    if |events| == 0 then Initial else Step(l, Run(l, events[..|events| - 1]), events[|events| - 1])
  }

  /** The printed lines are the readiness line and listening lines only,
      and the readiness line comes first. */
  predicate OrderedOutput(l: Launch, rt: Runtime)
    requires l.Start?
  {
    && (forall i :: 0 <= i < |rt.stdout| ==>
          rt.stdout[i] == ReadyLine || rt.stdout[i] == ListeningLine(l.localPort, l.remoteHost, l.remotePort))
    && (|rt.stdout| > 0 ==> rt.stdout[0] == ReadyLine)
    && (rt.ready <==> |rt.stdout| > 0)
    && (rt.listening ==> rt.ready)
    && (rt.connEnded ==> rt.ready)
  }

  /** Readiness ordering: whatever the events, the listening line is only
      ever printed after the readiness line, and the connection is only
      ended by a server error once the session is ready. */
  lemma {:induction false} ReadyBeforeListening(l: Launch, events: seq<ScriptEvent>)
    requires l.Start?
    ensures OrderedOutput(l, Run(l, events))
  {
    if |events| > 0 {
      ReadyBeforeListening(l, events[..|events| - 1]);
    }
  }

  /** The SSH connection is ended exactly when a server error arrived
      while the session was ready; SSH client errors are only logged. */
  lemma {:induction false} EndedOnlyByServerError(l: Launch, events: seq<ScriptEvent>)
    requires l.Start?
    ensures Run(l, events).connEnded ==> ServerFailed in events
  {
    if |events| > 0 {
      var prefix := events[..|events| - 1];
      EndedOnlyByServerError(l, prefix);
      if Run(l, prefix).connEnded {
        assert ServerFailed in prefix;
        assert prefix[..] <= events;
      }
    }
  }

  /** A server error while the session is ready ends the SSH connection. */
  lemma ServerErrorEndsConnection(l: Launch, events: seq<ScriptEvent>)
    requires l.Start?
    requires Run(l, events).ready
    ensures Run(l, events + [ServerFailed]).connEnded
  {
    assert (events + [ServerFailed])[..|events|] == events;
  }

  /** The SSH connection is ended exactly when some server error arrived
      at a moment the session was ready. */
  lemma {:induction false} ConnectionEndedIff(l: Launch, events: seq<ScriptEvent>)
    requires l.Start?
    ensures Run(l, events).connEnded <==>
      exists i :: 0 <= i < |events| && events[i] == ServerFailed && Run(l, events[..i]).ready
  {
    if |events| > 0 {
      var n := |events| - 1;
      var prefix := events[..n];
      var before := Run(l, prefix);
      assert Run(l, events) == Step(l, before, events[n]);
      ConnectionEndedIff(l, prefix);
      if Run(l, events).connEnded {
        if before.connEnded {
          var i :| 0 <= i < n && prefix[i] == ServerFailed && Run(l, prefix[..i]).ready;
          assert prefix[..i] == events[..i];
          assert events[i] == ServerFailed;
        } else {
          assert events[n] == ServerFailed && events[..n] == prefix;
        }
      }
      if exists i :: 0 <= i < |events| && events[i] == ServerFailed && Run(l, events[..i]).ready {
        var i :| 0 <= i < |events| && events[i] == ServerFailed && Run(l, events[..i]).ready;
        if i < n {
          assert prefix[..i] == events[..i];
          assert prefix[i] == ServerFailed;
        } else {
          assert events[..i] == prefix;
        }
      }
    }
  }

  /** Every port the local server is asked to listen on and every forward
      target is the `parseInt` of the corresponding argument. */
  lemma {:induction false} PortsParsed(l: Launch, events: seq<ScriptEvent>)
    requires l.Start?
    ensures forall i :: 0 <= i < |Run(l, events).listens| ==> Run(l, events).listens[i] == ParseInt(l.localPort)
    ensures forall i :: 0 <= i < |Run(l, events).forwards| ==>
      Run(l, events).forwards[i] == (l.remoteHost, ParseInt(l.remotePort))
  {
    if |events| > 0 {
      var n := |events| - 1;
      var before := Run(l, events[..n]);
      var after := Run(l, events);
      assert after == Step(l, before, events[n]);
      PortsParsed(l, events[..n]);
      assert forall i :: 0 <= i < |before.listens| ==> before.listens[i] == ParseInt(l.localPort);
      assert forall i :: 0 <= i < |before.forwards| ==> before.forwards[i] == (l.remoteHost, ParseInt(l.remotePort));
      AllSame(before.listens, after.listens, ParseInt(l.localPort));
      AllSame(before.forwards, after.forwards, (l.remoteHost, ParseInt(l.remotePort)));
    }
  }

  /** A sequence of copies of one value, extended by that value or not at
      all, still holds only copies of it. */
  lemma AllSame<T>(s: seq<T>, t: seq<T>, v: T)
    requires forall i :: 0 <= i < |s| ==> s[i] == v
    requires t == s || t == s + [v]
    ensures forall i :: 0 <= i < |t| ==> t[i] == v
  {
  }

  /** A failed forward closes that one client socket: the server keeps
      listening, the connection stays up, and nothing else changes but the
      error line and the count of dropped sockets. */
  lemma ForwardFailureIsolated(l: Launch, events: seq<ScriptEvent>)
    requires l.Start?
    requires Run(l, events).listening
    ensures var before := Run(l, events);
      Run(l, events + [ClientConnected(false)])
        == before.(dropped := before.dropped + 1, stderr := before.stderr + ["Forwarding error:"],
                   forwards := before.forwards + [(l.remoteHost, ParseInt(l.remotePort))])
  {
    assert (events + [ClientConnected(false)])[..|events|] == events;
  }

  /** The listening line carries the text the server waits for. */
  lemma ListeningLineAnnounces(localPort: string, remoteHost: string, remotePort: string)
    ensures Contains(ListeningLine(localPort, remoteHost, remotePort), "Tunnel listening")
  {
    var s := ListeningLine(localPort, remoteHost, remotePort);
    assert s[..16] == "Tunnel listening";
    assert OccursAt(s, "Tunnel listening", 0);
    ContainsIff(s, "Tunnel listening");
  }
}
